=== FILE: README.md ===
# maxine-python, modelled in Dafny

A Dafny model of the game logic of *maxine-python*. In this game, nanopore
current readings streamed from a Lilith board drive Maxine, and a console
player works a panel of controls. The model covers eleven sequential cores of
the program. Each is written as immutable datatypes and pure functions, with
contracts and lemmas that state what the Python code promises.

| module | file | what it models |
|---|---|---|
| `Wrappers` | wrappers.dfy | `Option`, `Result`. The Python exceptions the code can raise become `Failure` values. |
| `Arith` | arith.dfy | Shared facts about integer division. |
| `PyValues` | values.dfy | Dict-like JSON values for save/load, the `{'type', 'state'}` envelope, Python's negative list indexing, and `str()` of a natural number. |
| `PolarMaze` | maze.dfy | The polar grid of mazes.py: rings, the neighbour structure, indexing, links, dead ends and the text rendering. |
| `Navigation` | navigation.dfy | Moving through the maze (components.py): moves along links, keypress dispatch, linked neighbours and the random walker. |
| `Joystick` | joystick.dfy | The active-low 16-bit joystick decoder of util.py. |
| `LilithWire` | wire.dfy | The binary frames lilith_client.py sends and receives, with struct packing modelled generically. |
| `ConsoleControls` | controls.dfy | The console panel of controls_object.py: selection, the voltage knob, the pump speed, zap, hydrowag, sawtooth, the drop button and the potion holder. |
| `LegacyControls` | legacy.dfy | `NewControls`, switch edge detection, the console dispatch and `boom_images` of maxine.py. |
| `RecordedData` | data.dfy | Replay of a recording in data.py: the window of per-frame minima and the joystick state at the current sample. |
| `Animation` | animation.dfy | The 60-step frame counter of animated_image.py. |
| `TextBox` | textbox.dfy | The numeric input box of pgzero_textbox.py. |
| `ArenaSave` | arena.dfy | Saving and loading actors and the arena (game_object.py). |
| `WorldGrid` | worldmap.dfy | The grid segments of world_map.py. |

Modelling choices that apply throughout:

- **Exceptions.** Python exceptions are `Result` failures, not preconditions. An operation that raises `KeyError`, `IndexError`, `struct.error`, `AssertionError` or `NameError` returns the matching `Error`.
- **Board calls.** Calls to the board (`lilith_client.set_bias`, `move_pump`, `get_metadata`) are returned as a list of effects next to the new state. The potion holder also calls `serializer.save_dict_to_string` and `lilith_client.set_metadata`, which the source does not define. The model gives that publication its evidently intended meaning, as `SetMetadata` effects, and models the AttributeError separately (see Findings).
- **Wall-clock time.** The wall-clock time stamped on a drop is a parameter.
- **Float truncation.** Every float expression the code truncates with `int(...)` is a quotient of small integers. Such a quotient is either exact or at least 1/denominator away from the next integer. The truncation is therefore modelled by exact integer division, truncating toward zero where the operand can be negative.
- **Ring fan-out.** The fan-out of each maze ring is given as a ratio sequence, instead of being computed with `math.pi` and `round`. `PolarMaze.StandardRingSizes` pins down the sizes the formula yields for the first eight rings.

## Model

| member | source | states |
|---|---|---|
| PolarMaze.RingSizes | mazes.py:48-59 | One ring size per requested row. |
| PolarMaze.RingSizesValid | mazes.py:48-59 | Ring 0 holds one cell. Every later ring is the previous ring times a positive ratio, and integer division of the two sizes (as configure_cells does) gives that ratio back. |
| PolarMaze.StandardRingSizes | mazes.py:50-59 | With the fan-outs the rounding formula yields, the first eight rings hold 1, 6, 12, 24, 24, 24, 48, 48 cells. |
| PolarMaze.Locate | mazes.py:76-82 | `self[row, column]` on the ring sizes gives None exactly for a row outside the rings. Otherwise it gives a column of that ring, and the column differs from the requested one by a whole number of rings. |
| PolarMaze.ConfigureCell | mazes.py:63-74 | Configuring one cell keeps its row, column and links, and only appends to its outward list. The centre keeps its other fields. Any other cell gets the next column of its ring as cw and the previous one as ccw, both wrapping round, and a parent in the ring inside. |
| PolarMaze.PrepareGrid | mazes.py:43-61 | Zero rows raise ZeroDivisionError at `1.0 / rows`. A negative count raises IndexError on `rows[0]`. Otherwise there is one ring per row, ring 0 is the single cell (0, 0), every ring is the previous one times its ratio, and every cell knows its own row and column. |
| PolarMaze.ConfigureCells | mazes.py:63-74 | Configuring keeps every ring's size and rebuilds each cell's neighbour fields. |
| PolarMaze.AppendedBlock | mazes.py:71-73 | The children that the append loop gives a parent form one contiguous block of the next ring. |
| PolarMaze.ConfigureMatches | mazes.py:63-74 | A configured cell equals the closed form: cw is (r, (c+1) mod n), ccw is (r, (c-1) mod n), the parent is (r-1, c div ratio), the children are columns c·k … c·k+k-1 of the next ring, and the centre keeps None for all three. |
| PolarMaze.ConfiguredValid | mazes.py:37-41 | Configuring freshly prepared rings gives a valid grid with no links. |
| PolarMaze.NewPolarGrid | mazes.py:37-41 | PolarGrid(rows) succeeds exactly when rows ≥ 1. It then yields a valid grid with the ring sizes of the ratios and no links. |
| PolarMaze.GetItem | mazes.py:76-82 | Indexing gives None exactly for a row outside [0, rows-1]. Otherwise it gives a cell of that row, and the same column when the column is already in range. |
| PolarMaze.GetItemWrap | mazes.py:81-82 | Adding or subtracting a full ring to the column names the same cell. |
| PolarMaze.OutwardBlock | mazes.py:71-73 | The outward list of (r, c) is exactly columns c·k to c·k+k-1 of ring r+1, in increasing order. |
| PolarMaze.Centre | mazes.py:67-69 | The centre has no cw, ccw or inward neighbour, and its children are all of ring 1. |
| PolarMaze.CwCcwInverse | mazes.py:68-69 | Outside the centre, cw and ccw stay in the ring and undo each other. |
| PolarMaze.InwardOutward | mazes.py:71-74 | x.inward = p holds exactly when x is in p.outward. |
| PolarMaze.NeighboursInGrid | mazes.py:68-74 | Every neighbour a cell names is a cell of the grid. |
| PolarMaze.InitialCell | mazes.py:136-142 | A new polar cell sits at the given row and column, with no links, no cw, ccw or inward neighbour and an empty outward list. |
| PolarMaze.IsLinked | mazes.py:107-108 | a is linked to b when b is among a's link keys. This is the relation the contracts of Link, Unlink and GetLinks are stated in. |
| PolarMaze.GetLinks | mazes.py:104-105 | get_links lists exactly the linked cells, each once. |
| PolarMaze.SetLinksValid | mazes.py:90 | Replacing one cell's link keys keeps the grid valid and leaves every other cell as it was. |
| PolarMaze.AddLink | mazes.py:93 | One direction of a link adds exactly the pair (a, b) and keeps earlier links. |
| PolarMaze.Link | mazes.py:92-96 | a.link(b) adds (a, b), and also (b, a) when bidirectional, and no other link. Every cell keeps its earlier links. |
| PolarMaze.UnlinkAsWritten | mazes.py:98-102 | As written, unlink always raises NameError on the undefined `links`. |
| PolarMaze.Unlink | mazes.py:98-102 | The intended unlink succeeds exactly when the link exists in each direction it deletes (KeyError otherwise), and removes exactly those pairs. |
| PolarMaze.UnlinkAfterLinkFails | mazes.py:92-102 | Linking two cells and unlinking them fails with the code as written and succeeds with the intended one. |
| PolarMaze.LinkThenUnlink | mazes.py:92-102 | Linking then unlinking two distinct unlinked cells restores the link relation. |
| PolarMaze.NeighborsAsWritten | mazes.py:144-145 | As written, neighbors raises NameError on the bare `outward`. |
| PolarMaze.Neighbors | mazes.py:144-145 | The intended neighbors list the cw, ccw and inward cells that exist, in that order, then the outward cells in their order. All of them are in the grid. |
| PolarMaze.NeighborsSymmetric | mazes.py:63-74 | y is a neighbour of x exactly when x is a neighbour of y. |
| PolarMaze.GetCells | mazes.py:17-20 | get_cells yields every cell exactly once, ring by ring from the centre, each ring in column order. |
| PolarMaze.FilterOneLink | mazes.py:8-10 | The filter keeps exactly the cells with one link, in their order. |
| PolarMaze.OneLinkMembers | mazes.py:8-10 | A cell is kept exactly when it is in the list and has one link. |
| PolarMaze.OneLinkOrder | mazes.py:8-10 | A list in traversal order stays in traversal order after the filter. |
| PolarMaze.Deadends | mazes.py:6-12 | deadends holds exactly the cells with one link, each the grid's own cell, in get_cells order. |
| PolarMaze.RingText | mazes.py:29-30 | A ring of n cells renders as n copies of "[ ]": 3·n characters, character i being character i mod 3 of "[ ]". |
| PolarMaze.Render | mazes.py:26-32 | Counting the three-character cells on each line of str(grid) gives the ring sizes, in ring order. |
| PolarMaze.RenderRoundTrip | mazes.py:26-32 | Reading a rendering back line by line recovers the ring sizes. |
| PolarMaze.RenderShowsRings | mazes.py:26-32 | str(grid) has one line per ring, and line k is the text of ring k, one "[ ]" per cell. Counting the cells of each line gives the ring sizes back. |
| PolarMaze.RenderLines | mazes.py:26-32 | Splitting a rendering at its newlines gives the text of each ring in ring order. |
| Navigation.LinkKeepsSymmetric | mazes.py:92-96 | Bidirectional linking keeps the links symmetric. |
| Navigation.Step | components.py:20-33 | The move rule shared by every direction: the grid is unchanged, the navigator moves to the named cell when it exists and is linked, and it moves nowhere else. |
| Navigation.MoveInward | components.py:20-23 | The navigator moves to the parent when it exists and is linked. Otherwise it stays. The grid is unchanged. |
| Navigation.MoveCcw | components.py:25-28 | The same rule for the counter-clockwise neighbour. |
| Navigation.MoveCw | components.py:30-33 | The same rule for the clockwise neighbour. |
| Navigation.MoveOutward | components.py:35-40 | The navigator moves to child n when n < the number of children and that child is linked. Otherwise it stays. |
| Navigation.FirstPressed | components.py:55-58 | The first pressed number key is found exactly when some key is pressed, and no earlier key is pressed. |
| Navigation.ProcessKeypress | components.py:42-58 | Left moves inward. Otherwise up moves counter-clockwise. Otherwise down moves clockwise. Otherwise the lowest pressed number key n moves to child n. The navigator always ends in place or at a linked neighbour, and with no key pressed nothing changes. |
| Navigation.StepsAreLinked | components.py:20-40 | Every move ends at the start or at a linked neighbour, and every linked neighbour is reached by some move. |
| Navigation.GetLinkedCellsAsWritten | components.py:66-71 | As written, get_linked_cells raises the NameError of neighbors and returns nothing. |
| Navigation.GetLinkedCells | components.py:66-71 | With the corrected neighbors, get_linked_cells lists exactly the neighbours joined by a passage. |
| Navigation.LinkedCellsInOrder | components.py:66-71 | With the corrected neighbors, the list holds the linked cw, ccw and inward cells in that order, then the linked outward cells in their order. |
| Navigation.LinkedFilterSpec | components.py:67-70 | The filter loop keeps exactly the linked cells. It keeps a single cell exactly when it is linked, and an empty list stays empty. |
| Navigation.LinkedFilterAppend | components.py:67-70 | Filtering a list in two parts and joining the results is filtering the whole list, so the filter keeps the order and adds no copies. |
| Navigation.LinkedFilter | components.py:67-70 | The filter loop keeps no more cells than it is given, and every kept cell is one of them and linked to the current cell. |
| Navigation.MoveToCell | components.py:63-64 | The navigator is now in the given cell, and the grid is unchanged. |
| Navigation.RandomMove | components.py:83-90 | With the corrected neighbors: with no linked neighbour the walker stays. Otherwise it moves to one of the linked neighbours. |
| Navigation.RandomMoveCoversLinks | components.py:89-90 | With the corrected neighbors, every linked neighbour is a possible outcome of the random choice. |
| Navigation.CwThenCcw | components.py:25-33 | With two-way links, a clockwise move that happened is undone by a counter-clockwise move. |
| Navigation.CcwThenCw | components.py:25-33 | The reverse order also returns to the start. |
| Navigation.OutwardThenInward | components.py:20-23 | With two-way links, stepping out to a child and back in returns to the start. |
| Navigation.InwardThenOutward | components.py:35-40 | Stepping in to the parent is undone by the outward move at this cell's place among the parent's children. |
| Joystick.TableEntry | util.py:6-7 | The 16-entry table holds 'js1_' names at bits 0-5, 'not_used' at 6-7, 'js2_' names at 8-13 and 'not_used' at 14-15. |
| Joystick.TableWiring | util.py:7 | An entry is 'not_used' exactly at the unwired positions. |
| Joystick.NameParts | util.py:7 | A wired name shows its stick number and its button name. |
| Joystick.WiredNamesDistinct | util.py:7 | Distinct wired bits carry distinct names. |
| Joystick.PressedFromSpec | util.py:11-15 | The scan fails exactly on a '0' past the table. Otherwise it lists the wired positions whose bit is '0', in increasing order. |
| Joystick.ProcessJoystickString | util.py:5-17 | The result is an IndexError exactly when a '0' lies past bit 15. Otherwise a wired button is listed exactly when its bit is '0'. The list holds no 'not_used' and no repeats, in increasing bit order. |
| Joystick.Bin | util.py:2 | bin(n)[2:] is a non-empty string of binary digits with no leading zero. |
| Joystick.FromBinBin | util.py:2 | Reading the digits of bin(n) back gives n. |
| Joystick.BinBit | util.py:2 | Character i from the right of bin(n) is bit i of n. |
| Joystick.BinLength | util.py:2 | bin(n) has at most k+1 digits exactly when n < 2^(k+1). |
| Joystick.BinFacts | util.py:1-3 | A 16-bit value always fits the table, and bit i reads as pressed exactly when bit i of the value is 0. |
| Joystick.ProcessJoystickData | util.py:1-3 | Every value below 65536 decodes. A wired button is pressed exactly when its bit is 0. |
| Joystick.TestVector | test_util.py:5-13 | The test's bit string decodes to ['js1_up', 'js1_b1']. |
| Joystick.AllOnesPressNothing | util.py:11-15 | An all-'1' string presses nothing. |
| Joystick.BinAllOnes | util.py:2 | 2^(k+1) - 1 is written as k+1 ones. |
| Joystick.NoButtonsPressed | data.py:93-96 | 65535, the "no buttons" default, decodes to no buttons. |
| Joystick.ZeroIsUp | util.py:1-3 | bin(0) is "0", which reads as js1_up held down. |
| LilithWire.DecodeEncode | lilith_client.py:94-95 | Big-endian ('!') encoding of a value that fits is read back unchanged. |
| LilithWire.EncodeDecode | lilith_client.py:94-95 | Every byte string is the encoding of the value it decodes to. |
| LilithWire.FitBytes | lilith_client.py:239-241 | An 'Ns' field is the string cut or zero-padded to exactly N bytes. |
| LilithWire.Pack | lilith_client.py:257-259 | struct.pack succeeds exactly when every value fits its code, and then yields calcsize bytes. Otherwise it raises struct.error. |
| LilithWire.Unpack | lilith_client.py:143-144 | struct.unpack succeeds exactly on a buffer of calcsize bytes, one value per code. |
| LilithWire.UnpackPack | lilith_client.py:143-144 | Unpacking a packed buffer with the same format gives the packed values back, with strings fitted to their width. |
| LilithWire.Slice | lilith_client.py:95 | Python slicing clamps both bounds to the sequence, and element i of the slice is element lo + i of the message. |
| LilithWire.SamplesPerPacketValue | lilith_client.py:50-51 | samples_per_packet = int(10**5 / 60) + 1 = 1667. |
| LilithWire.Ping | lilith_client.py:219-222 | The ping frame is the bytes 00 64. |
| LilithWire.GetMetadata | lilith_client.py:200-206 | The frame succeeds exactly for an ASCII key (UnicodeEncodeError otherwise). It is 4 + len(key) bytes: 00 01 00 00, then the key's bytes. |
| LilithWire.MetadataBytes | lilith_client.py:201-206 | The packed fields are exactly 00 01 00 00 followed by the key's bytes. |
| LilithWire.MetadataKeyRoundTrip | lilith_client.py:200-206 | The key can be read back from its metadata frame. |
| LilithWire.SubscribeData | lilith_client.py:232-241 | The frame succeeds exactly when the four 32-bit words are in range. It is 24 bytes and unpacks to 102, the id, the 6-byte mac, the file id, the stride and the filter. |
| LilithWire.RequestFits | lilith_client.py:257-259 | The request fields fit exactly when each word is within its code's range. |
| LilithWire.RequestData | lilith_client.py:247-264 | As written, the request succeeds exactly when the sample index is below 2^32 (and the channel and stride are in range). It is 22 bytes that unpack to 12, 2, channel, 1667, 0, index, stride. The requested start is the index, and the next index is 1667 further on. |
| LilithWire.RequestDataSplit | lilith_client.py:139-149 | The intended request splits the 64-bit index into high and low words. It succeeds for every index below 2^64, and the requested start joined from the two words is the index. |
| LilithWire.RequestOverflow | lilith_client.py:257-262 | At sample index 2^32 the request as written fails, while the split request asks for 2^32. |
| LilithWire.RequestAgreesBelowOverflow | lilith_client.py:257-259 | Below 2^32 the two requests are the same bytes. |
| LilithWire.MovePump | lilith_client.py:284-291 | The frame succeeds exactly for a signed 32-bit step count and an unsigned 32-bit delay. It is 10 bytes that unpack to 29, steps, delay. |
| LilithWire.GetTypecode | lilith_client.py:90-96 | The typecode is 256·m[0] + m[1]. It needs at least two bytes, and struct.error is raised otherwise. |
| LilithWire.DecodeSampleData | lilith_client.py:138-150 | The header decodes exactly when there are 16 bytes. The sample count is (len - 16) div 2, start = high·2^32 + low, and end = start + stride·count. |
| LilithWire.EncodeSamplePacket | lilith_client.py:142-149 | A packet with header words in range is 16 bytes of header plus the payload. |
| LilithWire.SamplePacketRoundTrip | lilith_client.py:141-150 | Decoding an encoded packet gives back its type, channel, stride and 64-bit start, and counts the payload's samples. |
| LilithWire.ProcessMessage | lilith_client.py:98-136 | Code 0 gives nothing below 3000 bytes and otherwise the SampleData that DecodeSampleData reads from the message. Code 1 passes on the bytes after the typecode, undecoded. Code 107 decodes bytes 2-3 as the joystick state and raises struct.error when they are missing. Code 104 and unknown codes give nothing. |
| LilithWire.OnMessage | lilith_client.py:69-73 | A message shorter than two bytes raises struct.error. Otherwise it is dispatched on its typecode. |
| LilithWire.MetadataFrameRoundTrip | lilith_client.py:115-118 | A JSON frame, typecode 1 and then any payload, yields exactly that payload. |
| LilithWire.PingFrameRoundTrip | lilith_client.py:219-222 | The ping frame reads back as typecode 100, and a client receiving it does nothing. |
| LilithWire.JoystickFrameRoundTrip | lilith_client.py:127-133 | A code-107 frame built from any 16-bit state is read back as that state's pressed buttons. |
| ConsoleControls.InitialHolder | controls_object.py:361-376 | A new holder has potion 0 selected, keeps the LIVE flag it is given, has four empty potion places, no drops and an empty history. |
| ConsoleControls.Initial | controls_object.py:9-87 | A new panel keeps the panel invariant, with the knob at 0 showing 0 mV. The knob is selected; voltage, reference voltage and reference angle are 0; the zap, button and hydrowag timeouts and the pump index are 0; the hydrowag is off and set to move forward; the sawtooth is off at frame 0; the holder is new; the LIVE and console flags are the given ones. |
| ConsoleControls.FindVoltageFromAngle | controls_object.py:286-297 | Angle 0 or 360 gives 0 mV. Angles in (0, 170] give voltages in [-1000, 0). All other angles give non-negative voltages. |
| ConsoleControls.FindAngleFromVoltage | controls_object.py:299-310 | The angle is in [0, 360). It is 190 outside ±1000 mV and 0 at 0 mV. Negative voltages map into [0, 170] and positive ones into [190, 360). |
| ConsoleControls.KnobStep | controls_object.py:286-310 | Angle 17k is -100k mV and angle 360-17k is +100k mV, both ways. |
| ConsoleControls.AngleVoltageRoundTrip | controls_object.py:286-310 | On every reachable angle the voltage is a whole number of 100 mV steps within ±1000 mV, and mapping it back gives the angle. |
| ConsoleControls.VoltageAngleRoundTrip | controls_object.py:286-310 | Every whole-hundred voltage within ±1000 mV maps to a reachable angle that maps back to it. |
| ConsoleControls.KnobLeft | controls_object.py:258-259 | The knob turns 17 degrees on (mod 360) unless it is at 170, and reachable angles stay reachable. |
| ConsoleControls.KnobRight | controls_object.py:273-274 | The knob turns 17 degrees back (mod 360) unless it is at 190, and reachable angles stay reachable. |
| ConsoleControls.KnobPushesInverse | controls_object.py:256-284 | Away from the stops, a knob push one way is undone by a push the other way. |
| ConsoleControls.TurnReachable | controls_object.py:256-284 | Any run of knob pushes keeps a reachable angle reachable. |
| ConsoleControls.TurnSteps | controls_object.py:258-274 | k pushes one way from step j land on step j+k. |
| ConsoleControls.ReachedFromZero | controls_object.py:85-87 | Every reachable angle is reached from the initial 0 by some run of pushes. |
| ConsoleControls.SelectDown | controls_object.py:220-222 | Only the selection changes. It moves one down, from the last control back to the first, and stays within the seven controls. |
| ConsoleControls.SelectUp | controls_object.py:224-226 | Only the selection changes. It moves one up, from the first control to the last, and stays within the seven controls. |
| ConsoleControls.SelectInverse | controls_object.py:220-226 | Selecting down then up, or up then down, returns to the same panel. |
| ConsoleControls.SetVoltage | controls_object.py:312-315 | The voltage is set, and the bias is sent only by a live console. |
| ConsoleControls.Push | controls_object.py:228-254 | A zap sets 6 frames at 1000 mV, sends the bias on a live console, and changes nothing else. The hydrowag toggles as ToggleHydrowag says and sends nothing. The sawtooth toggles. Switching it off sends the restored voltage as a bias on a live console. The drop button responds as PushDrop. Any other control is unchanged. With the drop button as intended (see Findings), the push fails only on a drop whose selected potion is out of range. |
| ConsoleControls.ToggleHydrowag | controls_object.py:235-240 | Switching on starts moving forward for 60 frames. Switching off changes only the flag. |
| ConsoleControls.ToggleSawtooth | controls_object.py:241-248 | Switching on remembers voltage and angle and sends nothing. Switching off puts them back and, on a live console, sends the restored voltage as a bias. |
| ConsoleControls.PushDrop | controls_object.py:249-254 | The intended drop button (see Findings). A drop is added only when the button is up. Either way the button is held down for 6 frames. |
| ConsoleControls.PushKeepsInv | controls_object.py:228-254 | With the drop button as intended (see Findings), a push on a well-formed panel never fails and keeps the invariant. |
| ConsoleControls.SawtoothRestores | controls_object.py:241-248 | Switching the sawtooth on and off restores the voltage and the knob. |
| ConsoleControls.DropPush | controls_object.py:249-254 | With the drop button as intended (see Findings), a drop push adds exactly one drop to the selected potion when the button is up, and none while it is down. |
| ConsoleControls.PushLeft | controls_object.py:256-269 | The knob turns on. The voltage, the reference voltage and the reference angle follow it, all other controls are unchanged, and a live console sends the new voltage as a bias. Or the pump speed index rises capped at 5, or the holder turns. The invariant is kept. |
| ConsoleControls.PushRight | controls_object.py:271-284 | The mirror image: the knob turns back, with the same state and bias, and the pump speed is floored at -5. |
| ConsoleControls.SawtoothCycles | controls_object.py:138-141 | After n sweep steps the frame is (frame + n) mod 181. |
| ConsoleControls.SawtoothVoltage | controls_object.py:143-146 | The sweep voltage of a frame in 0..180 is within ±1000 mV. It is negative before frame 90 and non-negative from 90 on. |
| ConsoleControls.SawtoothRamp | controls_object.py:143-146 | The sweep starts at -1000 mV, passes 0 at frame 90, ends at +1000 mV and never falls. |
| ConsoleControls.PumpCommand | controls_object.py:160-168 | Index 0 stops the pump. A positive index moves 500 steps and a negative one -500, each with delay PumpSpeedDelays[abs(index) - 1]. An index beyond ±5 raises IndexError. |
| ConsoleControls.PumpFaster | controls_object.py:160-168 | A larger index in either direction gives a shorter delay, the same for both signs. |
| ConsoleControls.ZapStage | controls_object.py:91-104 | The console counts the lever down. Once it is at rest, voltage and angle return to the remembered ones. Nothing else changes. |
| ConsoleControls.HydrowagStage | controls_object.py:117-127 | A live console moves the pump ±500 each frame and turns round after 60 frames. Otherwise nothing happens. |
| ConsoleControls.SawtoothStage | controls_object.py:137-152 | A live console advances the sweep and sets its voltage and angle. Otherwise nothing happens. |
| ConsoleControls.ButtonStage | controls_object.py:173-177 | The button timeout counts down to 0. |
| ConsoleControls.KnobStages | controls_object.py:89-152 | The zap, hydrowag and sawtooth stages run in that order, and their effects are sent in that order. They keep the selection, the pump speed, the holder, the button timeout and the flags, and they keep the panel invariant. |
| ConsoleControls.Update | controls_object.py:89-179 | The update fails exactly when a live console has an out-of-range pump index. The new state is the button stage applied to the knob stages, with the potion placement rotated to the selection. The effects are those of the knob stages, then the pump command of a live console. The panel invariant is kept. |
| ConsoleControls.ZapThroughUpdate | controls_object.py:90-105 | Over a whole update with the sawtooth off, a console counts the lever down by one. While it is down, voltage and knob stay. Once it is at rest, they return to the remembered ones. |
| ConsoleControls.HydrowagThroughUpdate | controls_object.py:107-127 | Over a whole update of a live console, a running hydrowag stays on. With time left it counts down, keeps its direction and moves the pump 500 steps that way. Out of time, it restarts at 60 frames and turns round. |
| ConsoleControls.SawtoothVoltageBounded | controls_object.py:137-152 | While the sweep runs, the voltage stays within ±1000 mV and the frame advances mod 181. |
| ConsoleControls.HolderPushLeft | controls_object.py:405-406 | Only the selection changes, and it stays in 0..3. |
| ConsoleControls.HolderPushRight | controls_object.py:408-409 | Only the selection changes, and it stays in 0..3. |
| ConsoleControls.HolderPushesInverse | controls_object.py:405-409 | Turning the holder one way and back restores it. |
| ConsoleControls.SetIndexes | controls_object.py:381-385 | Only the placement of the potions changes. |
| ConsoleControls.SetIndexesRotates | controls_object.py:381-385 | Place j shows potion (j + selected) mod 4, so the selected potion is on top. |
| ConsoleControls.SetIndexesPermutes | controls_object.py:381-385 | Every potion actor is placed exactly once. |
| ConsoleControls.OnButtonPushed | controls_object.py:411-428 | The selected potion's count rises by one and the drop is recorded with its time. IndexError is raised exactly when the selection is out of list range. A live holder sends the counts and the history and then asks for both back. This is the intended behaviour (see Findings). |
| ConsoleControls.OnButtonPushedAsWritten | controls_object.py:411-420 | As written, a live holder raises AttributeError on the undefined `save_dict_to_string`, and an offline holder behaves as intended. |
| ConsoleControls.PushAsWritten | controls_object.py:249-254 | As written, a push differs from the intended one only on a live holder's drop with the button up, where it fails. |
| ConsoleControls.PushDropAsWritten | controls_object.py:249-254 | As written, the drop button fails exactly when the holder's drop fails. A successful push holds the button down for 6 frames. |
| ConsoleControls.PushAsWrittenFails | controls_object.py:249-254 | On a well-formed panel the push as written fails exactly on a live holder's drop with the button up, with AttributeError. There the intended push adds the drop. |
| ConsoleControls.LiveDropPushFails | controls_object.py:419-420 | A new live console at the drop button: as written the push raises AttributeError, and as intended it counts one drop for potion 0. |
| ConsoleControls.GetDrops | controls_object.py:430-431 | The result is the selected potion's count, with Python's negative indexing. |
| ConsoleControls.SaveToDict | controls_object.py:317-335 | Saving succeeds exactly when get_drops does, so always on a well-formed panel. |
| ConsoleControls.SavedState | controls_object.py:317-333 | The saved state is a dict with exactly the ten keys save_to_dict writes. |
| ConsoleControls.SavedStateReads | controls_object.py:317-358 | Every key of a saved state reads back as the value saved under it. |
| ConsoleControls.LoadFromDict | controls_object.py:337-339 | A wrong type tag fails the assertion, and a missing tag or state fails too. An envelope that unwraps loads its state exactly as LoadState does. |
| ConsoleControls.ReadSaved | controls_object.py:341-353 | Reading the fields load_from_dict reads before it indexes the drop counts succeeds exactly when each is present with the right type, and gives those values. |
| ConsoleControls.LoadState | controls_object.py:341-358 | On success, each field is the saved value, the timeouts are taken only when the saved value is 6, the drop count goes to the loaded selection, and the rest of the panel is unchanged. A selection out of range raises IndexError before button_timeout is read. |
| ConsoleControls.SaveLoadRoundTrip | controls_object.py:317-358 | Loading a saved panel restores the saved fields. Timeouts other than 6 are kept from the loading panel. |
| LegacyControls.Initial | maxine.py:130-158 | A new NewControls has the knob selected at angle 0, the lever at rest, voltage and reference voltage both 0, and the given LIVE flag. |
| LegacyControls.SetVoltage | maxine.py:224-227 | The voltage is set, and the bias is sent only when LIVE. |
| LegacyControls.Update | maxine.py:160-168 | While the lever is down it only counts down. At rest, the reference voltage is restored and the knob shows 360 - voltage. |
| LegacyControls.UpdatesCountDown | maxine.py:161-163 | n updates of a lever with at least n frames left only count down by n. |
| LegacyControls.ZapCycle | maxine.py:160-168 | A zap holds 3500 mV for six updates, and the seventh restores the reference. |
| LegacyControls.SelectDown | maxine.py:194-196 | Only the selection changes, and it stays within the two controls. |
| LegacyControls.SelectUp | maxine.py:198-200 | Only the selection changes, and it stays within the two controls. |
| LegacyControls.SelectInverse | maxine.py:194-200 | With two controls, up and down both toggle the selection and undo each other. |
| LegacyControls.Push | maxine.py:202-208 | Only the zap lever responds, with 6 frames at 3500 mV, and a LIVE panel sends 3500 as a bias. |
| LegacyControls.Turn | maxine.py:210-222 | The knob moves by delta mod 360, and the voltage and its reference become 360 - angle, in [1, 360]. A LIVE panel sends that voltage as a bias. |
| LegacyControls.PushLeft | maxine.py:210-215 | On the knob, a 36-degree turn. Otherwise nothing changes. |
| LegacyControls.PushRight | maxine.py:217-222 | On the knob, a -36-degree turn. Otherwise nothing changes. |
| LegacyControls.KnobPushesInverse | maxine.py:210-222 | A push one way is undone by a push the other way. |
| LegacyControls.PushLeftsAngle | maxine.py:210-214 | After k pushes left, the knob stands 36·k degrees on, modulo 360, within [0, 360). |
| LegacyControls.FullCircle | maxine.py:210-214 | Ten pushes left bring the knob full circle, and no fewer do. |
| LegacyControls.SaveToDict | maxine.py:229-239 | The result is the 'controls' envelope with five fields. |
| LegacyControls.LoadFromDict | maxine.py:241-249 | A wrong type tag fails the assertion. On success, the five fields are the saved values and the LIVE setting is kept. |
| LegacyControls.SaveLoadRoundTrip | maxine.py:229-249 | Loading what was saved restores all five fields. |
| LegacyControls.CheckPressedJustNow | maxine.py:578-585 | A missing switch raises KeyError. A switch that is on and was not down is added to both sets. A switch that is off leaves pressed_before. |
| LegacyControls.PressedJustNow | maxine.py:556-558 | The loop over the switches fails with KeyError exactly when one of them is missing from `on`. It never drops a switch already reported. |
| LegacyControls.PressedJustNowSpec | maxine.py:556-558 | After the loop, exactly the switches that are on and were not down are reported, and pressed_before becomes the switches that are on. |
| LegacyControls.HoldReportsOnce | maxine.py:578-585 | Held switches are reported once: a second scan with the same switches reports nothing. |
| LegacyControls.SwitchesOn | maxine.py:546-551 | Each switch is on when its joystick button is pressed or its key is down. |
| LegacyControls.ConsoleFrame | maxine.py:527-576 | After the update, an up edge selects up, else a down edge selects down. A button edge pushes. Then, while the button is held, a left edge pushes left, else a right edge pushes right. Switches are remembered exactly when on. The biases are the update's followed by the response's. |
| LegacyControls.FrameBiasShown | maxine.py:224-227 | Offline a frame sends no bias. On a LIVE panel the last bias a frame sends is the voltage then shown, and a frame that sends none keeps the voltage. |
| LegacyControls.Respond | maxine.py:561-576 | The response keeps the LIVE flag. With no edge nothing changes. The knob turns only while the button is held. An up edge selects up, else a down edge selects down, and otherwise the selection stays. Offline nothing is sent. A LIVE panel sends 3500 when a button edge fires the zap lever, then the new voltage when the knob turns. |
| LegacyControls.HoldingChangesNothing | maxine.py:556-576 | Holding the same switches for a second frame only updates the panel: nothing is selected, pushed or turned again. |
| LegacyControls.HeldLeftTurnsOnce | maxine.py:570-576 | Holding the button and pressing left turns the knob once, however long left is held. |
| LegacyControls.BoomImages | maxine.py:491-492 | There are thirty explosion frames. |
| LegacyControls.BoomImagesNumbered | maxine.py:491-492 | The frames are 'boom1' to 'boom30' in order, all distinct. |
| RecordedData.SamplesPerFrameValue | data.py:65 | 10**5 // 60 = 1666 samples per frame. |
| RecordedData.NewRecording | data.py:42-49 | A new recording has all num_boxes boxes at 0, frame 0 and more data to come. |
| RecordedData.InitBoxes | data.py:48-49 | init_boxes gives num_boxes zeros. |
| RecordedData.CountTrue | data.py:33-39 | The count is the number of True entries. It equals the length exactly when all are True and is 0 exactly when none is. |
| RecordedData.Slice | data.py:70 | The slice length follows numpy's clamping of both ends. |
| RecordedData.SliceElements | data.py:70 | The slice holds the array's elements from start on. |
| RecordedData.FrameCoverage | data.py:64-70 | A frame holds the samples [1666·f, 1666·(f+1)) the recording has. |
| RecordedData.Min | data.py:72 | np.min of a frame's samples lies at or below every one of them. |
| RecordedData.MinAttained | data.py:72 | ... and it is one of the frame's samples. |
| RecordedData.GetOneFrameCurrent | data.py:64-79 | With data, the oldest box drops out and the frame's lowest current is appended. Without data, the boxes reset to zeros and no_more_data is set. Nothing else changes. |
| RecordedData.EmptyWindowGrows | data.py:74 | With zero boxes, `boxes[1:] + [m]` leaves one box behind. |
| RecordedData.AdvanceFrame | data.py:106-107 | Only the frame number changes, rising by one. |
| RecordedData.FullFrameFits | data.py:64-70 | A frame below the number of whole frames lies inside the recording and holds 1666 samples. |
| RecordedData.StepsWindow | data.py:64-79 | Any number of replayed frames with data, even more than the window holds, move the window one pushed-in minimum per frame, advance the frame by that number and keep the recording. |
| RecordedData.WindowMinima | data.py:74 | Pushing n minima into a window of at least n boxes leaves the old boxes from n on followed by those minima, oldest first. |
| RecordedData.WindowHoldsFrameMinima | data.py:64-79 | After n replayed frames with data, the window keeps its size, its oldest boxes shift out, and its last n boxes are the minima of those frames in order. |
| RecordedData.StepFull | data.py:64-79 | One replayed frame with data shifts the window by one box and advances the frame. |
| RecordedData.ScanEnd | data.py:98-102 | The scan stops at the first update after the current sample, and every earlier update is at or before it. |
| RecordedData.GetOneFrameJoystick | data.py:81-104 | Past the end (comparing the frame number with the sample count) the result is 65535. Otherwise it is the last update before the stop, or 65535 when there is none. |
| RecordedData.ScanFindsLatest | data.py:86-104 | With updates in index order, every update at or before the current sample is passed by the scan. |
| Animation.ImageInRange | animated_image.py:13 | The image of a frame in the cycle lies in [1, num_frames] and never falls as the frame rises. |
| Animation.ImageFor | animated_image.py:13 | The image number is at least 1, and it is the integer quotient of frame · num_frames by 60, plus one. |
| Animation.EveryImageShown | animated_image.py:13 | With at most 60 images, every image 1..num_frames is shown at some frame. |
| Animation.New | animated_image.py:2-6 | A new animation starts at frame 0 showing image 1. |
| Animation.Update | animated_image.py:8-13 | The frame advances mod 60, and the image matches it in [1, num_frames]. |
| Animation.UpdatesAdvance | animated_image.py:9-11 | After n updates the frame is (frame + n) mod 60. |
| Animation.FullCycle | animated_image.py:9-11 | Sixty updates bring the animation back to where it started. |
| Animation.CycleReachesEveryFrame | animated_image.py:9-11 | Within 60 consecutive updates every frame 0..59 comes up. |
| Animation.CycleFramesDistinct | animated_image.py:9-11 | No two of 60 consecutive updates land on the same frame. |
| Animation.CurrentImageName | animated_image.py:15-16 | The name is the base name followed by decimal digits. |
| Animation.ImageNameDistinct | animated_image.py:15-16 | Different images of one animation have different names. |
| TextBox.New | pgzero_textbox.py:13-21 | A new box is inactive, with nothing entered. |
| TextBox.GetEnteredText | pgzero_textbox.py:23-26 | The pending text is returned and cleared. Nothing else changes. |
| TextBox.SecondGetIsNone | pgzero_textbox.py:23-26 | An immediate second call returns None. |
| TextBox.OnMouseDown | pgzero_textbox.py:28-36 | After the click the box is active exactly when the click was inside and it was inactive. The colour follows. |
| TextBox.ClickTwiceInside | pgzero_textbox.py:30-34 | Two clicks inside restore the box, and a click outside deactivates it. |
| TextBox.DropLast | pgzero_textbox.py:44 | text[:-1] drops the last character and leaves empty text empty. |
| TextBox.OnKeyDown | pgzero_textbox.py:38-51 | An inactive box ignores keys. RETURN moves the text to the entered slot and empties it. BACKSPACE drops one character. A digit key appends its digit. Other keys are ignored. |
| TextBox.KeyKeepsDigits | pgzero_textbox.py:46-49 | Digit-only text stays digit-only, and so does the entered text. |
| TextBox.TypingDigitsAppends | pgzero_textbox.py:46-49 | Typing digits into an active box appends exactly them. |
| TextBox.TypeThenReturn | pgzero_textbox.py:40-49 | Typing a number and pressing RETURN enters that number and empties the box. |
| TextBox.BackspaceUndoesDigit | pgzero_textbox.py:43-49 | BACKSPACE undoes a digit key. |
| TextBox.BackspaceOnEmpty | pgzero_textbox.py:43-44 | BACKSPACE on an empty box changes nothing. |
| ArenaSave.SaveActor | game_object.py:57-66 | The keys are pos, angle, scale and images, plus disappear_timer exactly when the actor has one, holding the actor's values. |
| ArenaSave.First | game_object.py:91-92 | images[0] gives the first item of a non-empty list or the first character of a non-empty string. It raises IndexError when empty, KeyError on a dict and TypeError otherwise. |
| ArenaSave.LoadActor | game_object.py:90-102 | Loading succeeds exactly when the four keys are there, images is non-empty and pos is a list. The actor then gets those values, and a disappear timer exactly when one was saved. |
| ArenaSave.ActorRoundTrip | game_object.py:57-102 | Loading a saved actor gives back its position, angle, scale, images and timer. |
| ArenaSave.SaveAll | game_object.py:51-53 | Each actor is saved in order. |
| ArenaSave.LoadAll | game_object.py:76-86 | Loading succeeds exactly when every entry loads, one actor per entry in order. |
| ArenaSave.LoadCollection | game_object.py:76-86 | A missing key fails as the lookup does, and a value that is not a list raises TypeError. Otherwise loading succeeds exactly when every entry loads, one actor per entry in order. |
| ArenaSave.LoadAllSaved | game_object.py:51-86 | Loading a saved collection gives back each actor in order. |
| ArenaSave.SaveArena | game_object.py:44-55 | The result is the 'maxine' envelope holding maxine_alive, Maxine and the spiraling monsters, dead monsters and projectiles. |
| ArenaSave.LoadArena | game_object.py:68-88 | A bad envelope fails. On success, Maxine, her liveness and the three collections are loaded from the save, and the bouncing and maze monsters are untouched. |
| ArenaSave.ArenaRoundTrip | game_object.py:44-88 | Loading a saved arena restores Maxine, her liveness and the three collections, and keeps the loader's bouncing and maze monsters. |
| ArenaSave.WrongTypeRejected | game_object.py:69 | A wrapper of another type fails the assertion. |
| WorldGrid.Range | world_map.py:83 | range(start, stop, step) holds start + i·step, all before the stop. |
| WorldGrid.RangeEnds | world_map.py:83 | The first value a positive-step range leaves out is at or past the stop. |
| WorldGrid.RangeLength | world_map.py:83 | The length is ceil((stop - start) / step). |
| WorldGrid.Column | world_map.py:84-86 | The inner loop gives one segment per y, in order. |
| WorldGrid.Columns | world_map.py:83-86 | The nested loops give |xs|·|ys| segments. |
| WorldGrid.ColumnsAt | world_map.py:83-86 | Segment i·|ys| + j belongs to the i-th x and the j-th y. |
| WorldGrid.ColumnsCover | world_map.py:83-86 | Every segment is the one for some x and y. |
| WorldGrid.CalculateGrid | world_map.py:78-94 | The grid fails with ValueError exactly for a radius in 0..9, whose step is 0. Otherwise it has 2·k² segments. |
| WorldGrid.Coords | world_map.py:79-83 | The coordinates start at -radius, each is one increment past the one before, and all lie before +radius in the direction of the step. |
| WorldGrid.CoordsBounds | world_map.py:79-84 | Every coordinate is -r + i·inc, inside [-r, r) for a positive radius. |
| WorldGrid.GridSegment | world_map.py:83-92 | The first k² segments are vertical and the rest horizontal, each list in x-then-y order. |
| WorldGrid.GridSegmentPlaces | world_map.py:83-92 | Every segment starts at a pair of range coordinates. |
| WorldGrid.GridSegmentsInside | world_map.py:83-92 | Every segment starts inside [-r, r)² and runs one increment up or right. |
| WorldGrid.GridSize | world_map.py:79-83 | k is Python's len(range). A positive multiple of 10 always gives 20 coordinates and 800 segments. |
| WorldGrid.NegativeRadius | world_map.py:79-83 | A negative radius gives a negative step, and the grid counts down from -radius. |
| PyValues.Get | game_object.py:69-70 | d[key] fails with KeyError on a missing key and with TypeError on a non-dict. |
| PyValues.PyIndex | controls_object.py:430-431 | Python list indexing accepts -n ≤ i < n and reads from the end for negative i. |
| PyValues.Wrap | game_object.py:45-46 | The envelope holds exactly 'type' and 'state'. |
| PyValues.Unwrap | game_object.py:69-70 | Unwrapping succeeds exactly on the right type tag with a state. Another tag fails the assertion. |
| PyValues.UnwrapWrap | game_object.py:45-70 | Unwrapping an envelope of the same kind gives back its state, and any other kind fails the assertion. |
| PyValues.NatToString | animated_image.py:16 | str(n) is a non-empty string of decimal digits with no leading zero. |
| PyValues.NatToStringValue | animated_image.py:16 | str(n) denotes n. |
| PyValues.NatToStringInjective | animated_image.py:16 | Different numbers print differently. |

## Left out

- **Rendering.** All drawing, fonts, colours on screen and actor animation are left out. This includes the text box's `update`/`draw` and the size of the rendered text.
- **Board I/O.** The websocket, timers, threads and the sample queue are left out. The calls to `lilith_client` inside the controls are effects in the result, and `ws.send` is dropped from the frame encoders.
- **JSON metadata.** For code 1, the bytes are handed on undecoded.
- **Sample payload.** The sample payload of a SampleData message is not decoded; that needs the struct definitions module, which is not part of this model.
- **`set_bias`.** It packs a 32-bit float and is left out.
- **Float computations.** The fan-out formula of `prepare_grid` (replaced by given ratios), `grow_maxine`/`shrink_maxine`, coordinate conversion, spirals and the spike detection are left out.
- **Out-of-core mazes.py code.** `Cell.distances` (needs the missing Distances class), `get_random_cell` (calls `list` on the method itself) and `__repr__` are not modelled.
- **`get_location`.** It calls `grid.get_center`, which the grid does not define.
- **Failed loads.** A load that raises part-way leaves the Python object partly updated. The models of `load_from_dict` and `load_arena_from_dict` return only the error.
- ConsoleControls.LoadState: integers and booleans of the wrong JSON type fail with TypeError. Python would store such a value as is.
- LegacyControls.LoadFromDict: a saved value that is not an integer fails with TypeError. Python would store such a value as is.
- ArenaSave.LoadActor: `images` and `pos` must be lists. Python would also index a string's characters and take `tuple()` of any iterable.
- ArenaSave.LoadAll: a collection must be a list. Python iterates any iterable.
- **Python sets.** They are modelled by their iteration order.
- **Image validity.** The model does not check whether the Actor constructor can find the image named by `images[0]`.
- ConsoleControls.FindAngleFromVoltage: states `voltage == 0 ==> angle == 0` in one direction only. Voltages from -1 to -5 mV also truncate to angle 0.
- **Input sources.** The joystick state that `update_for_console_player` reads in live, data-directory and standalone mode is a parameter. The keyboard is a parameter too.
- RecordedData.GetOneFrameCurrent: the recorded currents are unbounded integers, not numpy int16 values. `np.min` cannot overflow, so this changes nothing.
- **World map drawing.** The world map's screen conversion and drawing are left out. Only the map-coordinate segments are modelled.

## Findings

| source | as written | input that shows it | evidently intended | confidence | as-written member | corrected member |
|---|---|---|---|---|---|---|
| mazes.py:98-102 | `unlink` deletes from the undefined name `links` and raises NameError | any linked pair, e.g. unlinking (0,0) from (1,0) after linking them | delete `cell` from `self.links` in both directions | not executed | PolarMaze.UnlinkAsWritten (lemma PolarMaze.UnlinkAfterLinkFails) | PolarMaze.Unlink (lemma PolarMaze.LinkThenUnlink) |
| mazes.py:144-145 | `neighbors` reads the undefined name `outward` and returns nothing, so `get_linked_cells` fails | any cell, e.g. the centre (0,0) | return the existing cw, ccw and inward cells followed by `self.outward` | not executed | PolarMaze.NeighborsAsWritten (and Navigation.GetLinkedCellsAsWritten) | PolarMaze.Neighbors (lemma PolarMaze.NeighborsSymmetric) |
| lilith_client.py:257-262 | `request_data` sends the high word as 0 and the whole sample index as the 'L' low word, so struct.pack raises once the index reaches 2^32 | sample_index = 2^32, after about 2.6 million requests | split the 64-bit index into high and low words, as SampleData joins them | not executed | LilithWire.RequestData (lemma LilithWire.RequestOverflow) | LilithWire.RequestDataSplit (lemma LilithWire.RequestAgreesBelowOverflow) |
| controls_object.py:417-420 | a live potion holder's `on_button_pushed` calls `self.serializer.save_dict_to_string` and then `lilith_client.set_metadata`. Neither is defined: the Serializer only saves to and loads from files, and the board client has no set_metadata. So the drop raises AttributeError, and `push` never puts the button down | a live console panel at the drop button, with the button up and potion 0 selected | publish the drop counts and the drop history to the board as JSON metadata, then read them back | not executed | ConsoleControls.OnButtonPushedAsWritten, ConsoleControls.PushAsWritten (lemmas ConsoleControls.PushAsWrittenFails, ConsoleControls.LiveDropPushFails) | ConsoleControls.OnButtonPushed (lemmas ConsoleControls.PushKeepsInv, ConsoleControls.DropPush) |

=== FILE: animation.dfy ===
/** The frame-cycling animation counter of animated_image.py: a 60-step frame
    clock that picks which of `numFrames` images is on screen. */
module Animation {
  import opened PyValues
  import opened Arith

  /** Frames per cycle: one second at 60 updates per second. */
  const FramesPerCycle: nat := 60

  datatype AnimatedImage = AnimatedImage(name: string, numFrames: nat, currentFrame: nat, currentImage: nat)

  /** `int(frame * num_frames / 60) + 1`. The product is a small integer and
      the float quotient is either exact or at least 1/60 away from the next
      integer, so truncating it gives the integer quotient. */
  function ImageFor(frame: nat, numFrames: nat): (image: nat)
    ensures image >= 1
    ensures (image - 1) * FramesPerCycle <= frame * numFrames < image * FramesPerCycle
  {
    frame * numFrames / FramesPerCycle + 1
  }

  /** The image number shown at a frame of the cycle lies in [1, numFrames]
      (in [1, 1] for an animation without frames), and later frames never show
      an earlier image. */
  lemma ImageInRange(frame: nat, later: nat, numFrames: nat)
    requires frame <= later < FramesPerCycle
    ensures 1 <= ImageFor(frame, numFrames) <= ImageFor(later, numFrames)
    ensures numFrames >= 1 ==> ImageFor(later, numFrames) <= numFrames
  {
    MulMono(numFrames, frame, later);
    DivMono(frame * numFrames, later * numFrames, FramesPerCycle);
    if numFrames >= 1 {
      MulMono(numFrames, later, FramesPerCycle - 1);
      assert later * numFrames < FramesPerCycle * numFrames;
      DivUnique(FramesPerCycle * numFrames, FramesPerCycle, numFrames, 0);
      DivMono(later * numFrames, FramesPerCycle * numFrames - 1, FramesPerCycle);
      LastBelow(numFrames);
    }
  }

  /** (60n - 1) / 60 == n - 1. */
  lemma LastBelow(n: nat)
    requires n >= 1
    ensures (FramesPerCycle * n - 1) / FramesPerCycle == n - 1
  {
    DivUnique(FramesPerCycle * n - 1, FramesPerCycle, n - 1, FramesPerCycle - 1);
  }

  /** With at most 60 images, every image 1..numFrames is shown at some frame of
      the cycle. */
  lemma EveryImageShown(numFrames: nat, k: nat)
    requires 1 <= numFrames <= FramesPerCycle && 1 <= k <= numFrames
    ensures exists frame: nat :: frame < FramesPerCycle && ImageFor(frame, numFrames) == k
  {
    var base := (k - 1) * FramesPerCycle;
    var frame := (base + numFrames - 1) / numFrames;
    var rem := (base + numFrames - 1) % numFrames;
    assert base + numFrames - 1 == frame * numFrames + rem;
    // frame * numFrames lies in [base, base + numFrames - 1] ⊆ [base, base + 60)
    DivUnique(frame * numFrames, FramesPerCycle, k - 1, frame * numFrames - base);
    assert frame < FramesPerCycle by {
      if frame >= FramesPerCycle {
        MulMono(numFrames, FramesPerCycle, frame);
        MulMono(FramesPerCycle, k - 1, numFrames - 1);
      }
    }
    assert ImageFor(frame, numFrames) == k;
  }

  /** `AnimatedImage.__init__`. */
  function New(name: string, numFrames: nat): (a: AnimatedImage)
    ensures Inv(a) && a.currentFrame == 0 && a.currentImage == 1
    ensures a.name == name && a.numFrames == numFrames
  {
    AnimatedImage(name, numFrames, 0, 1)
  }

  /** The frame is inside the cycle and the image matches it. */
  predicate Inv(a: AnimatedImage) {
    a.currentFrame < FramesPerCycle && a.currentImage == ImageFor(a.currentFrame, a.numFrames)
  }

  /** `update`: advance the frame, wrapping 60 to 0, and pick the image. */
  function Update(a: AnimatedImage): (r: AnimatedImage)
    ensures Inv(r) && r.name == a.name && r.numFrames == a.numFrames
    ensures 1 <= r.currentImage && (a.numFrames >= 1 ==> r.currentImage <= a.numFrames)
    ensures a.currentFrame < FramesPerCycle ==> r.currentFrame == (a.currentFrame + 1) % FramesPerCycle
  {
    var frame := if a.currentFrame + 1 >= FramesPerCycle then 0 else a.currentFrame + 1;
    ImageInRange(frame, frame, a.numFrames);
    a.(currentFrame := frame, currentImage := ImageFor(frame, a.numFrames))
  }

  /** n calls of `update`. */
  function Updates(a: AnimatedImage, n: nat): AnimatedImage
    decreases n
  {
    if n == 0 then a else Update(Updates(a, n - 1))
  }

  /** After n updates the frame has moved n steps round the cycle. */
  lemma {:induction false} UpdatesAdvance(a: AnimatedImage, n: nat)
    requires Inv(a)
    ensures Inv(Updates(a, n))
    ensures Updates(a, n).currentFrame == (a.currentFrame + n) % FramesPerCycle
    ensures Updates(a, n).name == a.name && Updates(a, n).numFrames == a.numFrames
    decreases n
  {
    if n > 0 {
      UpdatesAdvance(a, n - 1);
      var f := a.currentFrame + n - 1;
      DivUnique(f, FramesPerCycle, f / FramesPerCycle, f % FramesPerCycle);
      if f % FramesPerCycle == FramesPerCycle - 1 {
        DivUnique(f + 1, FramesPerCycle, f / FramesPerCycle + 1, 0);
      } else {
        DivUnique(f + 1, FramesPerCycle, f / FramesPerCycle, f % FramesPerCycle + 1);
      }
    }
  }

  /** Sixty updates bring the animation back to where it started. */
  lemma FullCycle(a: AnimatedImage)
    requires Inv(a)
    ensures Updates(a, FramesPerCycle) == a
  {
    UpdatesAdvance(a, FramesPerCycle);
    DivUnique(a.currentFrame + FramesPerCycle, FramesPerCycle, 1, a.currentFrame);
  }

  /** Over any 60 consecutive updates every frame 0..59 comes up: the update
      that reaches it is named. */
  lemma CycleReachesEveryFrame(a: AnimatedImage, frame: nat)
    requires Inv(a) && frame < FramesPerCycle
    ensures exists k: nat :: 1 <= k <= FramesPerCycle && Updates(a, k).currentFrame == frame
  {
    var k: nat := if frame > a.currentFrame then frame - a.currentFrame else frame + FramesPerCycle - a.currentFrame;
    UpdatesAdvance(a, k);
    if frame > a.currentFrame {
      DivUnique(a.currentFrame + k, FramesPerCycle, 0, frame);
    } else {
      DivUnique(a.currentFrame + k, FramesPerCycle, 1, frame);
    }
  }

  /** ... and comes up only once: no two of the 60 updates land on the same frame. */
  lemma CycleFramesDistinct(a: AnimatedImage, i: nat, j: nat)
    requires Inv(a) && 1 <= i < j <= FramesPerCycle
    ensures Updates(a, i).currentFrame != Updates(a, j).currentFrame
  {
    UpdatesAdvance(a, i);
    UpdatesAdvance(a, j);
    var fi, fj := a.currentFrame + i, a.currentFrame + j;
    if fi < FramesPerCycle {
      DivUnique(fi, FramesPerCycle, 0, fi);
    } else {
      DivUnique(fi, FramesPerCycle, 1, fi - FramesPerCycle);
    }
    if fj < FramesPerCycle {
      DivUnique(fj, FramesPerCycle, 0, fj);
    } else {
      DivUnique(fj, FramesPerCycle, 1, fj - FramesPerCycle);
    }
  }

  /** `get_current_image_name`: the base name followed by the image number in decimal. */
  function CurrentImageName(a: AnimatedImage): (r: string)
    ensures |r| > |a.name| && r[..|a.name|] == a.name
    ensures forall i :: |a.name| <= i < |r| ==> '0' <= r[i] <= '9'
  {
    a.name + NatToString(a.currentImage)
  }

  /** The suffix of the name reads back as the image number, so two images of
      the same animation never share a name. */
  lemma ImageNameDistinct(a: AnimatedImage, b: AnimatedImage)
    requires a.name == b.name && a.currentImage != b.currentImage
    ensures CurrentImageName(a) != CurrentImageName(b)
  {
    var n := |a.name|;
    if CurrentImageName(a) == CurrentImageName(b) {
      assert CurrentImageName(a)[n..] == NatToString(a.currentImage);
      assert CurrentImageName(b)[n..] == NatToString(b.currentImage);
      NatToStringInjective(a.currentImage, b.currentImage);
    }
  }
}

=== FILE: arena.dfy ===
/** Saving and loading the arena of the Maxine game (game_object.py): every
    actor becomes a dict of its position, angle, scale and image list (plus its
    disappear timer when it has one), and the arena becomes a dict of those,
    wrapped with the type tag 'maxine'. Values are stored as they are, so the
    model keeps them as dynamic `Json` values. */
module ArenaSave {
  import opened Wrappers
  import opened PyValues

  /** A pgzero Actor as far as saving goes. `image` is the picture the actor
      was created with; `disappearTimer` is None when the actor has no such
      attribute. */
  datatype Actor = Actor(
    image: Json,
    pos: seq<Json>,
    angle: Json,
    scale: Json,
    images: seq<Json>,
    disappearTimer: Option<Json>)

  /** The actor collections of the game. Python sets are modelled by their
      iteration order. */
  datatype Game = Game(
    maxine: Actor,
    maxineAlive: Json,
    spiralingMonsters: seq<Actor>,
    bouncingMonsters: seq<Actor>,
    deadMonsters: seq<Actor>,
    mazeMonsters: seq<Actor>,
    projectiles: seq<Actor>)

  const ActorKeys: set<string> := {"pos", "angle", "scale", "images"}
  const ArenaKeys: set<string> := {"maxine_alive", "maxine", "spiraling_monsters", "dead_monsters", "projectiles"}

  /** `save_actor_to_dict`. */
  function SaveActor(a: Actor): (r: Json)
    ensures r.JDict?
    ensures r.fields.Keys == if a.disappearTimer.Some? then ActorKeys + {"disappear_timer"} else ActorKeys
    ensures r.fields["pos"] == JList(a.pos) && r.fields["images"] == JList(a.images)
    ensures r.fields["angle"] == a.angle && r.fields["scale"] == a.scale
    ensures a.disappearTimer.Some? ==> r.fields["disappear_timer"] == a.disappearTimer.value
  {
    var data := map["pos" := JList(a.pos), "angle" := a.angle, "scale" := a.scale, "images" := JList(a.images)];
    if a.disappearTimer.Some? then JDict(data["disappear_timer" := a.disappearTimer.value]) else JDict(data)
  }

  /** `images[0]`: the first item of a list, or the first character of a
      string; an IndexError when either is empty, a KeyError on a dict (its
      keys are strings, never 0), and a TypeError on anything else. */
  function First(images: Json): (r: Result<Json>)
    ensures r.Success? <==> (images.JList? && |images.items| > 0) || (images.JStr? && |images.s| > 0)
    ensures r.Success? && images.JList? ==> r.value == images.items[0]
    ensures r.Success? && images.JStr? ==> r.value.JStr? && |r.value.s| == 1 && r.value.s[0] == images.s[0]
    ensures r.Failure? ==>
      r.error == if images.JList? || images.JStr? then IndexError
                 else if images.JDict? then KeyError
                 else TypeError
  {
    match images
    case JList(items) => if |items| == 0 then Failure(IndexError) else Success(items[0])
    case JStr(text) => if |text| == 0 then Failure(IndexError) else Success(JStr([text[0]]))
    case JDict(_) => Failure(KeyError)
    case _ => Failure(TypeError)
  }

  /** `load_actor_from_dict`: a new actor built from the first image, then
      given the saved position, scale, images and angle, and the disappear timer
      when one was saved. */
  function LoadActor(data: Json): (r: Result<Actor>)
    ensures r.Success? <==>
      && data.JDict? && ActorKeys <= data.fields.Keys
      && data.fields["images"].JList? && |data.fields["images"].items| > 0
      && data.fields["pos"].JList?
    ensures r.Success? ==>
      && r.value.image == data.fields["images"].items[0]
      && r.value.images == data.fields["images"].items
      && r.value.pos == data.fields["pos"].items
      && r.value.scale == data.fields["scale"] && r.value.angle == data.fields["angle"]
      && (r.value.disappearTimer.Some? <==> "disappear_timer" in data.fields)
      && (r.value.disappearTimer.Some? ==> r.value.disappearTimer.value == data.fields["disappear_timer"])
  {
    var images :- Get(data, "images");
    var image :- First(images);
    var imageList :- AsList(images);
    var posValue :- Get(data, "pos");
    var pos :- AsList(posValue);
    var scale :- Get(data, "scale");
    var angle :- Get(data, "angle");
    var timer := if "disappear_timer" in data.fields then Some(data.fields["disappear_timer"]) else None;
    Success(Actor(image, pos, angle, scale, imageList, timer))
  }

  /** The actor a load gives back: the same except that its picture is the first of its images. */
  function Reloaded(a: Actor): Actor
    requires |a.images| > 0
  {
    a.(image := a.images[0])
  }

  /** Loading a saved actor gives back its position, angle, scale, images and
      disappear timer. */
  lemma ActorRoundTrip(a: Actor)
    requires |a.images| > 0
    ensures LoadActor(SaveActor(a)) == Success(Reloaded(a))
  {
  }

  /** The list comprehension `[save_actor_to_dict(m) for m in actors]`. */
  function SaveAll(actors: seq<Actor>): (r: seq<Json>)
    ensures |r| == |actors|
    ensures forall i :: 0 <= i < |actors| ==> r[i] == SaveActor(actors[i])
  {
    if |actors| == 0 then [] else [SaveActor(actors[0])] + SaveAll(actors[1..])
  }

  /** `for data in items: collection.add(load_actor_from_dict(data))`, stopping at the first failure. */
  function LoadAll(items: seq<Json>): (r: Result<seq<Actor>>)
    ensures r.Success? <==> forall i :: 0 <= i < |items| ==> LoadActor(items[i]).Success?
    ensures r.Success? ==> |r.value| == |items| && forall i :: 0 <= i < |items| ==> r.value[i] == LoadActor(items[i]).value
  {
    if |items| == 0 then Success([])
    else
      var first :- LoadActor(items[0]);
      var rest :- LoadAll(items[1..]);
      Success([first] + rest)
  }

  /** Loading every saved actor of a collection gives back each of them, in order. */
  lemma {:induction false} LoadAllSaved(actors: seq<Actor>)
    requires forall i :: 0 <= i < |actors| ==> |actors[i].images| > 0
    ensures LoadAll(SaveAll(actors)).Success?
    ensures |LoadAll(SaveAll(actors)).value| == |actors|
    ensures forall i :: 0 <= i < |actors| ==> LoadAll(SaveAll(actors)).value[i] == Reloaded(actors[i])
  {
    var saved := SaveAll(actors);
    forall i | 0 <= i < |actors|
      ensures LoadActor(saved[i]) == Success(Reloaded(actors[i]))
    {
      ActorRoundTrip(actors[i]);
    }
  }

  /** `save_arena_to_dict`: Maxine, her liveness and three of the actor
      collections, under the type tag 'maxine'. */
  function SaveArena(g: Game): (r: Json)
    ensures Unwrap(r, "maxine").Success?
    ensures var save := Unwrap(r, "maxine").value;
      && save.JDict? && save.fields.Keys == ArenaKeys
      && save.fields["maxine_alive"] == g.maxineAlive
      && save.fields["maxine"] == SaveActor(g.maxine)
      && save.fields["spiraling_monsters"] == JList(SaveAll(g.spiralingMonsters))
      && save.fields["dead_monsters"] == JList(SaveAll(g.deadMonsters))
      && save.fields["projectiles"] == JList(SaveAll(g.projectiles))
  {
    var save := map[
      "maxine_alive" := g.maxineAlive,
      "maxine" := SaveActor(g.maxine),
      "spiraling_monsters" := JList(SaveAll(g.spiralingMonsters)),
      "dead_monsters" := JList(SaveAll(g.deadMonsters)),
      "projectiles" := JList(SaveAll(g.projectiles))];
    UnwrapWrap("maxine", "maxine", JDict(save));
    Wrap("maxine", JDict(save))
  }

  /** `save['key']` read as a list of saved actors and loaded one by one. */
  function LoadCollection(save: Json, key: string): (r: Result<seq<Actor>>)
    ensures Get(save, key).Failure? ==> r == Failure(Get(save, key).error)
    ensures Get(save, key).Success? && !Get(save, key).value.JList? ==> r == Failure(TypeError)
    ensures r.Success? ==> Get(save, key).Success? && Get(save, key).value.JList?
    ensures Get(save, key).Success? && Get(save, key).value.JList? ==>
      var items := Get(save, key).value.items;
      && (r.Success? <==> forall i :: 0 <= i < |items| ==> LoadActor(items[i]).Success?)
      && (r.Success? ==> |r.value| == |items| && forall i :: 0 <= i < |items| ==> r.value[i] == LoadActor(items[i]).value)
  {
    var items :- Get(save, key);
    var list :- AsList(items);
    LoadAll(list)
  }

  /** `load_arena_from_dict`: check the type tag, then rebuild Maxine, her
      liveness, the spiraling and dead monsters and the projectiles. The
      bouncing and maze monsters are left as they are. */
  function LoadArena(g: Game, wrapper: Json): (r: Result<Game>)
    ensures Unwrap(wrapper, "maxine").Failure? ==> r == Failure(Unwrap(wrapper, "maxine").error)
    ensures r.Success? ==>
      && r.value.bouncingMonsters == g.bouncingMonsters
      && r.value.mazeMonsters == g.mazeMonsters
      && var save := Unwrap(wrapper, "maxine").value;
      && Get(save, "maxine_alive") == Success(r.value.maxineAlive)
      && Get(save, "maxine").Success? && LoadActor(Get(save, "maxine").value) == Success(r.value.maxine)
      && LoadCollection(save, "spiraling_monsters") == Success(r.value.spiralingMonsters)
      && LoadCollection(save, "dead_monsters") == Success(r.value.deadMonsters)
      && LoadCollection(save, "projectiles") == Success(r.value.projectiles)
  {
    var save :- Unwrap(wrapper, "maxine");
    var maxineData :- Get(save, "maxine");
    var maxine :- LoadActor(maxineData);
    var alive :- Get(save, "maxine_alive");
    var spiraling :- LoadCollection(save, "spiraling_monsters");
    var dead :- LoadCollection(save, "dead_monsters");
    var projectiles :- LoadCollection(save, "projectiles");
    Success(g.(maxine := maxine, maxineAlive := alive, spiralingMonsters := spiraling,
               deadMonsters := dead, projectiles := projectiles))
  }

  predicate HasImages(actors: seq<Actor>) {
    forall i :: 0 <= i < |actors| ==> |actors[i].images| > 0
  }

  /** Loading a saved arena into any game restores the saved Maxine, her
      liveness and the three saved collections, each actor reloaded, and keeps
      the loading game's own bouncing and maze monsters. */
  lemma ArenaRoundTrip(saved: Game, g: Game)
    requires |saved.maxine.images| > 0
    requires HasImages(saved.spiralingMonsters) && HasImages(saved.deadMonsters) && HasImages(saved.projectiles)
    ensures LoadArena(g, SaveArena(saved)).Success?
    ensures var r := LoadArena(g, SaveArena(saved)).value;
      && r.maxine == Reloaded(saved.maxine) && r.maxineAlive == saved.maxineAlive
      && r.bouncingMonsters == g.bouncingMonsters && r.mazeMonsters == g.mazeMonsters
      && |r.spiralingMonsters| == |saved.spiralingMonsters|
      && (forall i :: 0 <= i < |r.spiralingMonsters| ==> r.spiralingMonsters[i] == Reloaded(saved.spiralingMonsters[i]))
      && |r.deadMonsters| == |saved.deadMonsters|
      && (forall i :: 0 <= i < |r.deadMonsters| ==> r.deadMonsters[i] == Reloaded(saved.deadMonsters[i]))
      && |r.projectiles| == |saved.projectiles|
      && (forall i :: 0 <= i < |r.projectiles| ==> r.projectiles[i] == Reloaded(saved.projectiles[i]))
  {
    ActorRoundTrip(saved.maxine);
    LoadAllSaved(saved.spiralingMonsters);
    LoadAllSaved(saved.deadMonsters);
    LoadAllSaved(saved.projectiles);
  }

  /** A wrapper of another type fails the assertion and changes nothing. */
  lemma WrongTypeRejected(g: Game, state: Json, kind: string)
    requires kind != "maxine"
    ensures LoadArena(g, Wrap(kind, state)) == Failure(AssertionError)
  {
    UnwrapWrap(kind, "maxine", state);
  }
}

=== FILE: arith.dfy ===
/** Integer division facts the models share. Dafny's `/` and `%` are
    Euclidean; for a positive divisor they agree with Python's floor division
    and modulo. */
module Arith {

  /** Division and remainder are determined by any decomposition a == q·n + m with 0 <= m < n. */
  lemma DivUnique(a: int, n: int, q: int, m: int)
    requires n >= 1 && 0 <= m < n && a == q * n + m
    ensures a / n == q && a % n == m
  {
    var q', m' := a / n, a % n;
    assert a == q' * n + m';
    if q' < q {
      MulMono(n, q' + 1, q);
    } else if q' > q {
      MulMono(n, q + 1, q');
    }
  }

  lemma MulMono(a: nat, x: int, y: int)
    requires x <= y
    ensures a * x <= a * y
  {
  }

  /** Floor division by a positive number is monotone. */
  lemma DivMono(a: int, b: int, d: int)
    requires a <= b && d > 0
    ensures a / d <= b / d
  {
    if a / d > b / d {
      MulMono(d, b / d + 1, a / d);
    }
  }
}

=== FILE: controls.dfy ===
/** The console player's control panel (controls_object.py): control
    selection, the voltage knob, the zap lever, the hydrowag and sawtooth
    switches, the syringe pump speed, the potion holder and the drop button.
    Calls the panel makes to the Lilith board are returned as `Effect`s
    instead of being performed. */
module ConsoleControls {
  import opened Wrappers
  import opened PyValues
  import opened Arith

  /** The seven controls, in the order of the `controls` list. */
  const ControlCount: nat := 7
  const VoltageIndex: int := 0
  const ZapIndex: int := 1
  const SyringeIndex: int := 2
  const HydrowagIndex: int := 3
  const SawtoothIndex: int := 4
  const PotionIndex: int := 5
  const DropIndex: int := 6

  /** Pump step delays, slowest first; the speed index picks one by its magnitude. */
  const PumpSpeedDelays: seq<nat> := [20, 10, 5, 2, 1]

  const PotionCount: nat := 4

  /** A request sent to the board: set_bias, move_pump, set_metadata, get_metadata. */
  datatype Effect =
    | SetBias(voltage: int)
    | MovePump(steps: int, delay: int)
    | SetMetadata(key: string, value: Json)
    | GetMetadata(key: string)

  /** One entry of the drop history: when a drop was added and to which potion. */
  datatype Drop = Drop(time: real, potion: int)

  /** PotionHolder: `potions[j]` is the index of the potion actor drawn at place j. */
  datatype PotionHolder = PotionHolder(
    live: bool,
    selected: int,
    potions: seq<Option<nat>>,
    numDrops: seq<int>,
    dropHistory: seq<Drop>)

  datatype Controls = Controls(
    live: bool,
    console: bool,
    controlIndex: int,
    angle: int,
    voltage: int,
    oldVoltage: int,
    oldAngle: int,
    zapTimeout: int,
    pumpSpeedIndex: int,
    hydrowagOn: bool,
    hydrowagMovingForward: bool,
    hydrowagTimeout: int,
    sawtoothOn: bool,
    sawtoothFrame: int,
    holder: PotionHolder,
    buttonTimeout: int)

  /** A new state together with the board requests made on the way. */
  datatype Outcome<T> = Outcome(state: T, effects: seq<Effect>)

  function InitialHolder(live: bool): (h: PotionHolder)
    ensures HolderInv(h) && h.numDrops == [0, 0, 0, 0] && h.dropHistory == []
    ensures h.selected == 0 && h.live == live && h.potions == [None, None, None, None]
  {
    PotionHolder(live, 0, [None, None, None, None], [0, 0, 0, 0], [])
  }

  /** Controls.__init__: every control at rest, the knob selected. */
  function Initial(live: bool, console: bool): (c: Controls)
    ensures Inv(c) && KnobAt(c, 0)
    ensures c.live == live && c.console == console && c.controlIndex == 0
    ensures c.voltage == 0 && c.oldVoltage == 0 && c.oldAngle == 0
    ensures c.zapTimeout == 0 && c.buttonTimeout == 0 && c.hydrowagTimeout == 0 && c.pumpSpeedIndex == 0
    ensures !c.hydrowagOn && c.hydrowagMovingForward && !c.sawtoothOn && c.sawtoothFrame == 0
    ensures c.holder == InitialHolder(live)
  {
    Controls(live, console, 0, 0, 0, 0, 0, 0, 0, false, true, 0, false, 0, InitialHolder(live), 0)
  }

  predicate HolderInv(h: PotionHolder) {
    0 <= h.selected < PotionCount && |h.potions| == PotionCount && |h.numDrops| == PotionCount
  }

  /** What the panel keeps true between frames. */
  predicate Inv(c: Controls) {
    && 0 <= c.controlIndex < ControlCount
    && -|PumpSpeedDelays| <= c.pumpSpeedIndex <= |PumpSpeedDelays|
    && 0 <= c.sawtoothFrame <= 180
    && 0 <= c.zapTimeout
    && 0 <= c.buttonTimeout <= 6
    && 0 <= c.hydrowagTimeout
    && HolderInv(c.holder)
  }

  // ---------------------------------------------------------------------------
  // The voltage knob

  /** The knob angles reachable from 0 by pushes: 17k counter-clockwise up to
      170, and 360 - 17k clockwise down to 190, for k = 1..10. */
  predicate Reachable(angle: int) {
    || angle == 0
    || (17 <= angle <= 170 && angle % 17 == 0)
    || (190 <= angle <= 343 && (360 - angle) % 17 == 0)
  }

  /** find_voltage_from_angle. The source divides floats and truncates; the
      quotient angle*100/17 is an integer or at least 1/17 away from one, so
      floor division gives the same number. */
  function FindVoltageFromAngle(angle: int): (v: int)
    ensures angle == 0 || angle == 360 ==> v == 0
    ensures 0 < angle <= 170 ==> -1000 <= v < 0
    ensures angle != 0 && angle != 360 && !(0 < angle <= 170) ==> 0 <= v
  {
    if angle == 360 || angle == 0 then 0
    else if 0 < angle <= 170 then -(angle * 100 / 17)
    else ((360 - angle) % 360) * 100 / 17
  }

  /** find_angle_from_voltage. As above, truncating the float expressions is
      floor (or ceiling, under the subtraction from 360) of an exact quotient. */
  function FindAngleFromVoltage(voltage: int): (a: int)
    ensures 0 <= a < 360
    ensures voltage == 0 ==> a == 0
    ensures voltage > 1000 || voltage < -1000 ==> a == 190
    ensures -1000 <= voltage < 0 ==> 0 <= a <= 170
    ensures 0 < voltage <= 1000 ==> 190 <= a < 360
  {
    if voltage > 1000 || voltage < -1000 then 190
    else if voltage == 0 then 0
    else if voltage > 0 then 360 - (17 * voltage + 99) / 100
    else (-voltage * 17) / 100
  }

  /** Each knob step is 100 mV: angle 17k is -100k millivolts and angle
      360 - 17k is 100k, and the conversion back gives the angle again. */
  lemma KnobStep(k: int)
    requires 1 <= k <= 10
    ensures FindVoltageFromAngle(17 * k) == -100 * k && FindAngleFromVoltage(-100 * k) == 17 * k
    ensures FindVoltageFromAngle(360 - 17 * k) == 100 * k && FindAngleFromVoltage(100 * k) == 360 - 17 * k
  {
    DivUnique(1700 * k, 17, 100 * k, 0);
    DivUnique(1700 * k, 100, 17 * k, 0);
    DivUnique(1700 * k + 99, 100, 17 * k, 99);
  }

  /** On the reachable angles the voltage is a whole number of 100 mV steps
      within ±1000 mV, and the two conversions are inverse. */
  lemma AngleVoltageRoundTrip(angle: int)
    requires Reachable(angle)
    ensures var v := FindVoltageFromAngle(angle); v % 100 == 0 && -1000 <= v <= 1000
    ensures FindAngleFromVoltage(FindVoltageFromAngle(angle)) == angle
  {
    if 17 <= angle <= 170 {
      var k := angle / 17;
      assert angle == 17 * k;
      KnobStep(k);
    } else if 190 <= angle <= 343 {
      var k := (360 - angle) / 17;
      assert angle == 360 - 17 * k;
      KnobStep(k);
    }
  }

  /** Every whole-hundred voltage in range is shown by a reachable angle, and that
      angle converts back to it. */
  lemma VoltageAngleRoundTrip(voltage: int)
    requires -1000 <= voltage <= 1000 && voltage % 100 == 0
    ensures Reachable(FindAngleFromVoltage(voltage))
    ensures FindVoltageFromAngle(FindAngleFromVoltage(voltage)) == voltage
  {
    var k := voltage / 100;
    assert voltage == 100 * k;
    if k > 0 {
      KnobStep(k);
    } else if k < 0 {
      KnobStep(-k);
    }
  }

  /** The angle after one counter-clockwise push: 17 degrees on, unless at the 170 stop. */
  function KnobLeft(angle: int): (a: int)
    ensures angle != 170 ==> (a - angle - 17) % 360 == 0 && 0 <= a < 360
    ensures angle == 170 ==> a == 170
    ensures Reachable(angle) ==> Reachable(a)
  {
    if angle != 170 then (angle + 17) % 360 else angle
  }

  /** The angle after one clockwise push: 17 degrees back, unless at the 190 stop. */
  function KnobRight(angle: int): (a: int)
    ensures angle != 190 ==> (a - angle + 17) % 360 == 0 && 0 <= a < 360
    ensures angle == 190 ==> a == 190
    ensures Reachable(angle) ==> Reachable(a)
  {
    if angle != 190 then (angle - 17) % 360 else angle
  }

  /** Away from the stops, a push one way is undone by a push the other way. */
  lemma KnobPushesInverse(angle: int)
    requires Reachable(angle)
    ensures angle != 170 ==> KnobRight(KnobLeft(angle)) == angle
    ensures angle != 190 ==> KnobLeft(KnobRight(angle)) == angle
  {
    if angle != 170 {
      if angle == 343 {
        assert KnobLeft(angle) == 0 && KnobRight(0) == angle;
      } else {
        assert KnobLeft(angle) == angle + 17 && KnobRight(angle + 17) == angle;
      }
    }
    if angle != 190 {
      if angle == 0 {
        assert KnobRight(angle) == 343 && KnobLeft(343) == angle;
      } else {
        assert KnobRight(angle) == angle - 17 && KnobLeft(angle - 17) == angle;
      }
    }
  }

  /** The knob after a run of pushes, `true` for left. */
  function Turn(angle: int, pushes: seq<bool>): int
    decreases |pushes|
  {
    if |pushes| == 0 then angle
    else Turn(if pushes[0] then KnobLeft(angle) else KnobRight(angle), pushes[1..])
  }

  /** Turning keeps a reachable angle reachable. */
  lemma {:induction false} TurnReachable(angle: int, pushes: seq<bool>)
    requires Reachable(angle)
    ensures Reachable(Turn(angle, pushes))
    decreases |pushes|
  {
    if |pushes| > 0 {
      TurnReachable(if pushes[0] then KnobLeft(angle) else KnobRight(angle), pushes[1..]);
    }
  }

  /** k pushes to the left from step j of the negative half land on step j + k. */
  lemma {:induction false} TurnStepsLeft(j: nat, k: nat)
    requires j + k <= 10
    ensures Turn(17 * j, seq(k, _ => true)) == 17 * (j + k)
    decreases k
  {
    if k > 0 {
      var pushes := seq(k, _ => true);
      assert pushes[1..] == seq(k - 1, _ => true);
      assert KnobLeft(17 * j) == 17 * (j + 1);
      TurnStepsLeft(j + 1, k - 1);
    }
  }

  /** One right push from step j of the positive half (step 0 is angle 0). */
  lemma RightStep(j: nat)
    requires j < 10
    ensures KnobRight((360 - 17 * j) % 360) == (360 - 17 * (j + 1)) % 360 == 360 - 17 * (j + 1)
  {
    if j == 0 {
      DivUnique(360, 360, 1, 0);
    } else {
      DivUnique(360 - 17 * j, 360, 0, 360 - 17 * j);
    }
    DivUnique(360 - 17 * (j + 1), 360, 0, 360 - 17 * (j + 1));
  }

  /** k pushes to the right from step j of the positive half land on step j + k. */
  lemma {:induction false} TurnStepsRight(j: nat, k: nat)
    requires j + k <= 10
    ensures Turn((360 - 17 * j) % 360, seq(k, _ => false)) == (360 - 17 * (j + k)) % 360
    decreases k
  {
    if k > 0 {
      var pushes := seq(k, _ => false);
      assert pushes[1..] == seq(k - 1, _ => false);
      RightStep(j);
      TurnStepsRight(j + 1, k - 1);
    }
  }

  lemma TurnSteps(j: nat, k: nat, left: bool)
    requires j + k <= 10
    ensures Turn(if left then 17 * j else (360 - 17 * j) % 360, seq(k, _ => left))
      == if left then 17 * (j + k) else (360 - 17 * (j + k)) % 360
  {
    if left {
      TurnStepsLeft(j, k);
    } else {
      TurnStepsRight(j, k);
    }
  }

  /** Every reachable angle is reached from 0 by a run of pushes in one direction. */
  lemma ReachedFromZero(angle: int)
    requires Reachable(angle)
    ensures exists pushes :: Turn(0, pushes) == angle
  {
    if 17 <= angle <= 170 {
      var k := angle / 17;
      assert 17 * k == angle;
      TurnStepsLeft(0, k);
      var pushes := seq(k, _ => true);
      assert Turn(0, pushes) == angle;
    } else if 190 <= angle <= 343 {
      var k := (360 - angle) / 17;
      assert 360 - 17 * k == angle;
      TurnStepsRight(0, k);
      DivUnique(360, 360, 1, 0);
      DivUnique(angle, 360, 0, angle);
      var pushes := seq(k, _ => false);
      assert Turn(0, pushes) == angle;
    } else {
      assert Turn(0, []) == angle;
    }
  }

  /** The knob shows a reachable angle, and voltage, old voltage and old angle
      all agree with it, as after any knob push. */
  predicate KnobAt(c: Controls, angle: int) {
    Reachable(angle) && c.angle == angle && c.oldAngle == angle
    && c.voltage == FindVoltageFromAngle(angle) && c.oldVoltage == c.voltage
  }

  // ---------------------------------------------------------------------------
  // Selection and pushes

  /** select_down: the next control, wrapping from the last to the first. */
  function SelectDown(c: Controls): (r: Controls)
    ensures 0 <= r.controlIndex < ControlCount
    ensures r == c.(controlIndex := r.controlIndex)
    ensures (r.controlIndex - c.controlIndex - 1) % ControlCount == 0
    ensures 0 <= c.controlIndex < ControlCount ==>
      r.controlIndex == if c.controlIndex == ControlCount - 1 then 0 else c.controlIndex + 1
  {
    c.(controlIndex := (c.controlIndex + 1) % ControlCount)
  }

  /** select_up: the previous control, wrapping from the first to the last. */
  function SelectUp(c: Controls): (r: Controls)
    ensures 0 <= r.controlIndex < ControlCount
    ensures r == c.(controlIndex := r.controlIndex)
    ensures (r.controlIndex - c.controlIndex + 1) % ControlCount == 0
    ensures 0 <= c.controlIndex < ControlCount ==>
      r.controlIndex == if c.controlIndex == 0 then ControlCount - 1 else c.controlIndex - 1
  {
    c.(controlIndex := (c.controlIndex - 1) % ControlCount)
  }

  /** Selecting down then up, or up then down, returns to the same control. */
  lemma SelectInverse(c: Controls)
    requires Inv(c)
    ensures SelectUp(SelectDown(c)) == c && SelectDown(SelectUp(c)) == c
  {
  }

  /** set_voltage: the bias is sent to the board only by a live console. */
  function SetVoltage(c: Controls, voltage: int): (r: Outcome<Controls>)
    ensures r.state == c.(voltage := voltage)
    ensures r.effects == if c.live && c.console then [SetBias(voltage)] else []
  {
    Outcome(c.(voltage := voltage), if c.live && c.console then [SetBias(voltage)] else [])
  }

  /** push: the zap lever fires for 6 frames at 1000 mV, the hydrowag and
      sawtooth switches toggle, the drop button adds a drop unless it is still
      down. With the drop button as intended (see OnButtonPushed), only the
      drop button can fail, on a selected potion outside the drop list;
      PushAsWritten is the push as the source has it. */
  function Push(c: Controls, now: real): (r: Result<Outcome<Controls>>)
    ensures r.Failure? ==> c.controlIndex == DropIndex && c.buttonTimeout == 0 && r.error == IndexError
    ensures c.controlIndex == ZapIndex ==>
      && r.Success? && r.value.state == c.(zapTimeout := 6, voltage := 1000)
      && r.value.effects == if c.live && c.console then [SetBias(1000)] else []
    ensures c.controlIndex == HydrowagIndex ==>
      && r.Success? && r.value.state.hydrowagOn == !c.hydrowagOn
      && (r.value.state.hydrowagOn ==> r.value.state.hydrowagMovingForward && r.value.state.hydrowagTimeout == 60)
      && r == Success(Outcome(ToggleHydrowag(c), []))
    ensures c.controlIndex == SawtoothIndex && !c.sawtoothOn ==>
      r == Success(Outcome(c.(sawtoothOn := true, oldVoltage := c.voltage, oldAngle := c.angle), []))
    ensures c.controlIndex == SawtoothIndex && c.sawtoothOn ==>
      r.Success? && r.value.state == c.(sawtoothOn := false, voltage := c.oldVoltage, angle := c.oldAngle)
      && r.value.effects == if c.live && c.console then [SetBias(c.oldVoltage)] else []
    ensures r.Success? && c.controlIndex == DropIndex ==> r.value.state.buttonTimeout == 6
    ensures c.controlIndex == DropIndex ==> r == PushDrop(c, now)
    ensures (c.controlIndex != ZapIndex && c.controlIndex != HydrowagIndex && c.controlIndex != SawtoothIndex
             && c.controlIndex != DropIndex) ==> r == Success(Outcome(c, []))
  {
    if c.controlIndex == ZapIndex then
      Success(SetVoltage(c.(zapTimeout := 6), 1000))
    else if c.controlIndex == HydrowagIndex then
      Success(Outcome(ToggleHydrowag(c), []))
    else if c.controlIndex == SawtoothIndex then
      Success(ToggleSawtooth(c))
    else if c.controlIndex == DropIndex then
      PushDrop(c, now)
    else Success(Outcome(c, []))
  }

  function ToggleHydrowag(c: Controls): (r: Controls)
    ensures r.hydrowagOn == !c.hydrowagOn
    ensures r.hydrowagOn ==> r == c.(hydrowagOn := true, hydrowagMovingForward := true, hydrowagTimeout := 60)
    ensures !r.hydrowagOn ==> r == c.(hydrowagOn := false)
  {
    if !c.hydrowagOn then c.(hydrowagOn := true, hydrowagMovingForward := true, hydrowagTimeout := 60)
    else c.(hydrowagOn := false)
  }

  /** Switching the sawtooth on remembers the setting; switching it off puts it back. */
  function ToggleSawtooth(c: Controls): (r: Outcome<Controls>)
    ensures !c.sawtoothOn ==> r == Outcome(c.(sawtoothOn := true, oldVoltage := c.voltage, oldAngle := c.angle), [])
    ensures c.sawtoothOn ==> r.state == c.(sawtoothOn := false, voltage := c.oldVoltage, angle := c.oldAngle)
    ensures c.sawtoothOn ==> r.effects == if c.live && c.console then [SetBias(c.oldVoltage)] else []
  {
    if !c.sawtoothOn then
      Outcome(c.(sawtoothOn := true, oldVoltage := c.voltage, oldAngle := c.angle), [])
    else
      var o := SetVoltage(c.(sawtoothOn := false), c.oldVoltage);
      Outcome(o.state.(angle := c.oldAngle), o.effects)
  }

  /** The drop button: a drop only when the button is up; either way it goes down for 6 frames. */
  function PushDrop(c: Controls, now: real): (r: Result<Outcome<Controls>>)
    ensures c.buttonTimeout != 0 ==> r == Success(Outcome(c.(buttonTimeout := 6), []))
    ensures c.buttonTimeout == 0 ==> r.Success? == OnButtonPushed(c.holder, now).Success?
    ensures c.buttonTimeout == 0 && r.Success? ==>
      r.value == Outcome(c.(holder := OnButtonPushed(c.holder, now).value.state, buttonTimeout := 6),
                         OnButtonPushed(c.holder, now).value.effects)
  {
    if c.buttonTimeout == 0 then
      var o :- OnButtonPushed(c.holder, now);
      Success(Outcome(c.(holder := o.state, buttonTimeout := 6), o.effects))
    else Success(Outcome(c.(buttonTimeout := 6), []))
  }

  /** The drop button as the source has it: OnButtonPushedAsWritten in place
      of OnButtonPushed. */
  function PushDropAsWritten(c: Controls, now: real): (r: Result<Outcome<Controls>>)
    ensures c.buttonTimeout != 0 ==> r == Success(Outcome(c.(buttonTimeout := 6), []))
    ensures c.buttonTimeout == 0 ==> r.Success? == OnButtonPushedAsWritten(c.holder, now).Success?
    ensures r.Success? ==> r.value.state.buttonTimeout == 6
  {
    if c.buttonTimeout == 0 then
      var o :- OnButtonPushedAsWritten(c.holder, now);
      Success(Outcome(c.(holder := o.state, buttonTimeout := 6), o.effects))
    else Success(Outcome(c.(buttonTimeout := 6), []))
  }

  /** push as the source has it: only the drop button differs from Push, and
      only on a live holder with the button up, where the source raises
      AttributeError before the button goes down. */
  function PushAsWritten(c: Controls, now: real): (r: Result<Outcome<Controls>>)
    ensures c.controlIndex != DropIndex || c.buttonTimeout != 0 || !c.holder.live ==> r == Push(c, now)
    ensures c.controlIndex == DropIndex && c.buttonTimeout == 0 && c.holder.live ==> r.Failure?
  {
    if c.controlIndex == DropIndex then PushDropAsWritten(c, now) else Push(c, now)
  }

  /** On a well-formed panel the push as written fails exactly on a live
      holder's drop with the button up, with AttributeError; there the
      intended push adds the drop and puts the button down. */
  lemma PushAsWrittenFails(c: Controls, now: real)
    requires Inv(c)
    ensures PushAsWritten(c, now).Failure? <==> c.controlIndex == DropIndex && c.buttonTimeout == 0 && c.holder.live
    ensures PushAsWritten(c, now).Failure? ==>
      && PushAsWritten(c, now).error == AttributeError("save_dict_to_string")
      && Push(c, now).Success? && Push(c, now).value.state.buttonTimeout == 6
      && Push(c, now).value.state.holder.numDrops[c.holder.selected] == c.holder.numDrops[c.holder.selected] + 1
  {
    if c.controlIndex == DropIndex && c.buttonTimeout == 0 && c.holder.live {
      assert OnButtonPushed(c.holder, now).Success?;
    }
    if c.controlIndex != DropIndex || c.buttonTimeout != 0 || !c.holder.live {
      PushKeepsInv(c, now);
    }
  }

  /** The live console panel at the drop button, the button up and potion 0
      selected: the source's push fails, the intended one records the drop. */
  lemma LiveDropPushFails(now: real)
    ensures var c := Initial(true, true).(controlIndex := DropIndex);
      && PushAsWritten(c, now) == Failure(AttributeError("save_dict_to_string"))
      && Push(c, now).Success? && Push(c, now).value.state.holder.numDrops == [1, 0, 0, 0]
  {
    var c := Initial(true, true).(controlIndex := DropIndex);
    PushAsWrittenFails(c, now);
  }

  /** With the drop button as intended, pushes keep the panel's invariant and,
      on a well-formed panel, never fail. */
  lemma PushKeepsInv(c: Controls, now: real)
    requires Inv(c)
    ensures Push(c, now).Success? && Inv(Push(c, now).value.state)
  {
    if c.controlIndex == DropIndex && c.buttonTimeout == 0 {
      var o := OnButtonPushed(c.holder, now);
      assert o.Success? && HolderInv(o.value.state);
    }
  }

  /** Switching the sawtooth on and off again brings back the voltage and knob
      angle it had when it was switched on. */
  lemma SawtoothRestores(c: Controls, now: real, later: real)
    requires Inv(c) && c.controlIndex == SawtoothIndex && !c.sawtoothOn
    ensures var on := Push(c, now).value.state;
      var off := Push(on, later).value.state;
      !off.sawtoothOn && off.voltage == c.voltage && off.angle == c.angle
  {
  }

  /** With the drop button as intended, a drop push adds exactly one drop to
      the selected potion when the button is up, none when it is still down,
      and leaves the other counts alone. */
  lemma DropPush(c: Controls, now: real)
    requires Inv(c) && c.controlIndex == DropIndex
    ensures var d := Push(c, now).value.state;
      && d.buttonTimeout == 6
      && d.holder.selected == c.holder.selected
      && |d.holder.numDrops| == PotionCount
      && d.holder.numDrops[c.holder.selected] == c.holder.numDrops[c.holder.selected] + (if c.buttonTimeout == 0 then 1 else 0)
      && forall i :: 0 <= i < PotionCount && i != c.holder.selected ==> d.holder.numDrops[i] == c.holder.numDrops[i]
  {
  }

  /** push_left: the knob turns 17 degrees counter-clockwise (stopping at 170)
      and its voltage becomes the new reference; the syringe speeds up to at most 5. */
  function PushLeft(c: Controls): (r: Outcome<Controls>)
    ensures Inv(c) ==> Inv(r.state)
    ensures c.controlIndex == VoltageIndex ==>
      && r.state.angle == KnobLeft(c.angle)
      && r.state.voltage == FindVoltageFromAngle(r.state.angle)
      && r.state.oldVoltage == r.state.voltage && r.state.oldAngle == r.state.angle
    ensures c.controlIndex == VoltageIndex ==>
      && r.state == c.(angle := r.state.angle, voltage := r.state.voltage,
                       oldVoltage := r.state.voltage, oldAngle := r.state.angle)
      && r.effects == if c.live && c.console then [SetBias(r.state.voltage)] else []
    ensures c.controlIndex == VoltageIndex && Reachable(c.angle) ==> KnobAt(r.state, r.state.angle)
    ensures c.controlIndex == SyringeIndex ==>
      r.state == c.(pumpSpeedIndex := if c.pumpSpeedIndex < 5 then c.pumpSpeedIndex + 1 else 5)
    ensures c.controlIndex == PotionIndex ==> r.state == c.(holder := HolderPushLeft(c.holder))
    ensures c.controlIndex !in {VoltageIndex, SyringeIndex, PotionIndex} ==> r == Outcome(c, [])
  {
    if c.controlIndex == VoltageIndex then
      var angle := KnobLeft(c.angle);
      var voltage := FindVoltageFromAngle(angle);
      SetVoltage(c.(angle := angle, oldVoltage := voltage, oldAngle := angle), voltage)
    else if c.controlIndex == SyringeIndex then
      Outcome(c.(pumpSpeedIndex := Min(|PumpSpeedDelays|, c.pumpSpeedIndex + 1)), [])
    else if c.controlIndex == PotionIndex then
      Outcome(c.(holder := HolderPushLeft(c.holder)), [])
    else Outcome(c, [])
  }

  /** push_right: the knob turns 17 degrees clockwise (stopping at 190); the
      syringe slows down, or reverses, to at least -5. */
  function PushRight(c: Controls): (r: Outcome<Controls>)
    ensures Inv(c) ==> Inv(r.state)
    ensures c.controlIndex == VoltageIndex ==>
      && r.state.angle == KnobRight(c.angle)
      && r.state.voltage == FindVoltageFromAngle(r.state.angle)
      && r.state.oldVoltage == r.state.voltage && r.state.oldAngle == r.state.angle
    ensures c.controlIndex == VoltageIndex ==>
      && r.state == c.(angle := r.state.angle, voltage := r.state.voltage,
                       oldVoltage := r.state.voltage, oldAngle := r.state.angle)
      && r.effects == if c.live && c.console then [SetBias(r.state.voltage)] else []
    ensures c.controlIndex == VoltageIndex && Reachable(c.angle) ==> KnobAt(r.state, r.state.angle)
    ensures c.controlIndex == SyringeIndex ==>
      r.state == c.(pumpSpeedIndex := if c.pumpSpeedIndex > -5 then c.pumpSpeedIndex - 1 else -5)
    ensures c.controlIndex == PotionIndex ==> r.state == c.(holder := HolderPushRight(c.holder))
    ensures c.controlIndex !in {VoltageIndex, SyringeIndex, PotionIndex} ==> r == Outcome(c, [])
  {
    if c.controlIndex == VoltageIndex then
      var angle := KnobRight(c.angle);
      var voltage := FindVoltageFromAngle(angle);
      SetVoltage(c.(angle := angle, oldVoltage := voltage, oldAngle := angle), voltage)
    else if c.controlIndex == SyringeIndex then
      Outcome(c.(pumpSpeedIndex := Max(-|PumpSpeedDelays|, c.pumpSpeedIndex - 1)), [])
    else if c.controlIndex == PotionIndex then
      Outcome(c.(holder := HolderPushRight(c.holder)), [])
    else Outcome(c, [])
  }

  function Min(a: int, b: int): int {
    if a <= b then a else b
  }

  function Max(a: int, b: int): int {
    if a >= b then a else b
  }

  // ---------------------------------------------------------------------------
  // The per-frame update

  /** The sawtooth's next frame: 0..180, then back to 0. */
  function NextSawtoothFrame(frame: int): int {
    if frame == 180 then 0 else frame + 1
  }

  /** Frame after n updates. */
  function SawtoothAfter(frame: int, n: nat): int
    decreases n
  {
    if n == 0 then frame else SawtoothAfter(NextSawtoothFrame(frame), n - 1)
  }

  /** The sawtooth cycles through 0..180: after n updates it is n frames on, modulo 181. */
  lemma {:induction false} SawtoothCycles(frame: int, n: nat)
    requires 0 <= frame <= 180
    ensures SawtoothAfter(frame, n) == (frame + n) % 181
    decreases n
  {
    if n > 0 {
      SawtoothCycles(NextSawtoothFrame(frame), n - 1);
    }
  }

  /** Python's int() of a float: truncation toward zero. */
  function TruncDiv(a: int, b: int): int
    requires b > 0
  {
    if a >= 0 then a / b else -((-a) / b)
  }

  /** int(RANGE * frame / 180 + MIN_VOLTAGE) = int((100 * frame - 9000) / 9). */
  function SawtoothVoltage(frame: int): (v: int)
    ensures 0 <= frame <= 180 ==> -1000 <= v <= 1000
    ensures frame < 90 ==> v < 0
    ensures frame >= 90 ==> v >= 0
  {
    TruncDiv(100 * frame - 9000, 9)
  }

  /** The sweep rises from -1000 mV through 0 to 1000 mV and never falls within a cycle. */
  lemma SawtoothRamp(f: int, g: int)
    requires 0 <= f <= g <= 180
    ensures SawtoothVoltage(0) == -1000 && SawtoothVoltage(90) == 0 && SawtoothVoltage(180) == 1000
    ensures SawtoothVoltage(f) <= SawtoothVoltage(g)
  {
    if g < 90 {
      DivMono(9000 - 100 * g, 9000 - 100 * f, 9);
    } else if f >= 90 {
      DivMono(100 * f - 9000, 100 * g - 9000, 9);
    }
  }

  /** The board command the pump speed index asks for: stop at 0, otherwise 500
      steps forward or back with the delay picked by the index's magnitude. */
  function PumpCommand(index: int): (r: Result<Effect>)
    ensures r.Success? <==> -|PumpSpeedDelays| <= index <= |PumpSpeedDelays|
    ensures r.Failure? ==> r.error == IndexError
    ensures r.Success? ==>
      && r.value.MovePump?
      && (r.value.steps == if index > 0 then 500 else if index < 0 then -500 else 0)
      && (r.value.delay == 0 <==> index == 0)
  {
    if index == 0 then Success(MovePump(0, 0))
    else if index > 0 then
      var idx := index - 1;
      if idx < |PumpSpeedDelays| then Success(MovePump(500, PumpSpeedDelays[idx])) else Failure(IndexError)
    else
      var idx := -index - 1;
      if idx < |PumpSpeedDelays| then Success(MovePump(-500, PumpSpeedDelays[idx])) else Failure(IndexError)
  }

  /** A larger speed index in either direction means a shorter delay, and the
      two directions run at the same speed. */
  lemma PumpFaster(i: int, j: int)
    requires 0 < i < j <= |PumpSpeedDelays|
    ensures PumpCommand(i).value.delay > PumpCommand(j).value.delay
    ensures PumpCommand(-i).value.delay == PumpCommand(i).value.delay
  {
  }

  /** The zap lever: counting down on the console; once at rest the voltage and
      knob return to the reference setting. */
  function ZapStage(c: Controls): (r: Outcome<Controls>)
    ensures r.state.zapTimeout == if c.console && c.zapTimeout > 0 then c.zapTimeout - 1 else c.zapTimeout
    ensures r.state.zapTimeout <= 0 ==> r.state.voltage == c.oldVoltage && r.state.angle == c.oldAngle
    ensures r.state.zapTimeout > 0 ==> r == Outcome(c.(zapTimeout := r.state.zapTimeout), [])
    ensures r.state == c.(zapTimeout := r.state.zapTimeout, voltage := r.state.voltage, angle := r.state.angle)
  {
    var z := if c.console && c.zapTimeout > 0 then c.zapTimeout - 1 else c.zapTimeout;
    var c1 := c.(zapTimeout := z);
    if z > 0 then Outcome(c1, [])
    else
      var o := if c1.voltage != c1.oldVoltage then SetVoltage(c1, c1.oldVoltage) else Outcome(c1, []);
      Outcome(o.state.(angle := c1.oldAngle), o.effects)
  }

  /** The hydrowag: a live console moves the pump 500 steps each frame, turning
      round every 60 frames. */
  function HydrowagStage(c: Controls): (r: Outcome<Controls>)
    ensures !(c.hydrowagOn && c.console && c.live) ==> r == Outcome(c, [])
    ensures c.hydrowagOn && c.console && c.live && c.hydrowagTimeout > 0 ==>
      r.state == c.(hydrowagTimeout := c.hydrowagTimeout - 1)
      && r.effects == [MovePump(if c.hydrowagMovingForward then 500 else -500, 1)]
    ensures c.hydrowagOn && c.console && c.live && c.hydrowagTimeout <= 0 ==>
      r == Outcome(c.(hydrowagMovingForward := !c.hydrowagMovingForward, hydrowagTimeout := 60), [])
  {
    if c.hydrowagOn && c.console && c.live then
      if c.hydrowagTimeout > 0 then
        Outcome(c.(hydrowagTimeout := c.hydrowagTimeout - 1),
                [MovePump(if c.hydrowagMovingForward then 500 else -500, 1)])
      else Outcome(c.(hydrowagMovingForward := !c.hydrowagMovingForward, hydrowagTimeout := 60), [])
    else Outcome(c, [])
  }

  /** The sawtooth: a live console advances the sweep and sets its voltage; the
      knob follows unless the voltage is 0 (`if v:` skips angle 0). */
  function SawtoothStage(c: Controls): (r: Outcome<Controls>)
    ensures !(c.sawtoothOn && c.console && c.live) ==> r == Outcome(c, [])
    ensures c.sawtoothOn && c.console && c.live ==>
      && r.state.sawtoothFrame == NextSawtoothFrame(c.sawtoothFrame)
      && r.state.voltage == SawtoothVoltage(r.state.sawtoothFrame)
      && r.effects == [SetBias(r.state.voltage)]
      && r.state.angle == if r.state.voltage == 0 then c.angle else FindAngleFromVoltage(r.state.voltage)
    ensures r.state == c.(sawtoothFrame := r.state.sawtoothFrame, voltage := r.state.voltage, angle := r.state.angle)
  {
    if c.sawtoothOn && c.console && c.live then
      var frame := NextSawtoothFrame(c.sawtoothFrame);
      var o := SetVoltage(c.(sawtoothFrame := frame), SawtoothVoltage(frame));
      var a := FindAngleFromVoltage(o.state.voltage);
      Outcome(if a != 0 then o.state.(angle := a) else o.state, o.effects)
    else Outcome(c, [])
  }

  /** The drop button stays down for its timeout, one frame at a time. */
  function ButtonStage(c: Controls): (r: Controls)
    ensures c.buttonTimeout == 0 ==> r == c
    ensures c.buttonTimeout != 0 ==> r == c.(buttonTimeout := c.buttonTimeout - 1)
  {
    if c.buttonTimeout == 0 then c else c.(buttonTimeout := c.buttonTimeout - 1)
  }

  /** Controls.update: zap, hydrowag, sawtooth, pump, potion holder, button,
      in that order. It fails only when a live console has a pump speed index
      beyond the delay list. */
  function Update(c: Controls): (r: Result<Outcome<Controls>>)
    requires |c.holder.potions| == PotionCount
    ensures r.Failure? <==> c.live && c.console && PumpCommand(c.pumpSpeedIndex).Failure?
    ensures r.Failure? ==> r.error == IndexError
    ensures Inv(c) ==> r.Success? && Inv(r.value.state)
    ensures r.Success? ==>
      && r.value.state.buttonTimeout == (if c.buttonTimeout == 0 then 0 else c.buttonTimeout - 1)
      && r.value.state.controlIndex == c.controlIndex
      && r.value.state.pumpSpeedIndex == c.pumpSpeedIndex
      && r.value.state.holder.selected == c.holder.selected
      && r.value.state.holder.numDrops == c.holder.numDrops
    ensures r.Success? && c.live && c.console ==> PumpCommand(c.pumpSpeedIndex).value in r.value.effects
    ensures r.Success? ==>
      && r.value.state == ButtonStage(KnobStages(c).state.(holder := SetIndexes(c.holder)))
      && r.value.effects == KnobStages(c).effects + (if c.live && c.console then [PumpCommand(c.pumpSpeedIndex).value] else [])
  {
    var knob := KnobStages(c);
    var pump :- if c.live && c.console then
        var e :- PumpCommand(knob.state.pumpSpeedIndex); Success([e])
      else Success([]);
    var next := ButtonStage(knob.state.(holder := SetIndexes(knob.state.holder)));
    Success(Outcome(next, knob.effects + pump))
  }

  /** The zap, hydrowag and sawtooth stages of an update, which touch neither
      the selection, the pump speed, the potion holder nor the button. */
  function KnobStages(c: Controls): (r: Outcome<Controls>)
    ensures && r.state.controlIndex == c.controlIndex && r.state.pumpSpeedIndex == c.pumpSpeedIndex
            && r.state.holder == c.holder && r.state.buttonTimeout == c.buttonTimeout
            && r.state.live == c.live && r.state.console == c.console
    ensures Inv(c) ==> Inv(r.state)
    ensures var zap := ZapStage(c); var hydrowag := HydrowagStage(zap.state);
      && r.state == SawtoothStage(hydrowag.state).state
      && r.effects == zap.effects + hydrowag.effects + SawtoothStage(hydrowag.state).effects
  {
    var zap := ZapStage(c);
    var hydrowag := HydrowagStage(zap.state);
    var sawtooth := SawtoothStage(hydrowag.state);
    Outcome(sawtooth.state, zap.effects + hydrowag.effects + sawtooth.effects)
  }

  /** With the sweep off, one update counts the console's zap lever down; the
      voltage holds while the lever is down and returns to the reference, with
      the knob, once it is up. */
  lemma ZapThroughUpdate(c: Controls)
    requires Inv(c) && !c.sawtoothOn
    ensures Update(c).Success?
    ensures var d := Update(c).value.state;
      && d.zapTimeout == (if c.console && c.zapTimeout > 0 then c.zapTimeout - 1 else c.zapTimeout)
      && (d.zapTimeout > 0 ==> d.voltage == c.voltage && d.angle == c.angle)
      && (d.zapTimeout <= 0 ==> d.voltage == c.oldVoltage && d.angle == c.oldAngle)
  {
    var zap := ZapStage(c);
    var hydrowag := HydrowagStage(zap.state);
    assert hydrowag.state.voltage == zap.state.voltage && hydrowag.state.angle == zap.state.angle;
    assert hydrowag.state.zapTimeout == zap.state.zapTimeout && !hydrowag.state.sawtoothOn;
  }

  /** One update of a live console with the hydrowag on moves the pump 500
      steps in the current direction while the timeout runs, and turns round
      for another 60 frames when it has run out. */
  lemma HydrowagThroughUpdate(c: Controls)
    requires Inv(c) && c.hydrowagOn && c.live && c.console
    ensures Update(c).Success?
    ensures var d := Update(c).value;
      && d.state.hydrowagOn
      && (c.hydrowagTimeout > 0 ==>
            && d.state.hydrowagTimeout == c.hydrowagTimeout - 1
            && d.state.hydrowagMovingForward == c.hydrowagMovingForward
            && MovePump(if c.hydrowagMovingForward then 500 else -500, 1) in d.effects)
      && (c.hydrowagTimeout <= 0 ==>
            d.state.hydrowagTimeout == 60 && d.state.hydrowagMovingForward == !c.hydrowagMovingForward)
  {
    var zap := ZapStage(c);
    var hydrowag := HydrowagStage(zap.state);
    assert zap.state.hydrowagOn && zap.state.hydrowagTimeout == c.hydrowagTimeout;
    assert zap.state.hydrowagMovingForward == c.hydrowagMovingForward;
    var sawtooth := SawtoothStage(hydrowag.state);
    assert sawtooth.state.hydrowagTimeout == hydrowag.state.hydrowagTimeout;
    assert sawtooth.state.hydrowagMovingForward == hydrowag.state.hydrowagMovingForward;
    assert KnobStages(c).effects == zap.effects + hydrowag.effects + sawtooth.effects;
  }

  /** While the sweep runs on a live console the voltage stays within ±1000 mV. */
  lemma SawtoothVoltageBounded(c: Controls)
    requires Inv(c) && c.sawtoothOn && c.live && c.console
    ensures Update(c).Success?
    ensures -1000 <= Update(c).value.state.voltage <= 1000
    ensures Update(c).value.state.sawtoothFrame == (c.sawtoothFrame + 1) % 181
  {
    var zap := ZapStage(c);
    var hydrowag := HydrowagStage(zap.state);
    var sawtooth := SawtoothStage(hydrowag.state);
    assert hydrowag.state.sawtoothFrame == c.sawtoothFrame;
    assert Update(c).value.state.voltage == sawtooth.state.voltage;
    assert Update(c).value.state.sawtoothFrame == NextSawtoothFrame(c.sawtoothFrame);
    if c.sawtoothFrame == 180 {
      DivUnique(181, 181, 1, 0);
    } else {
      DivUnique(c.sawtoothFrame + 1, 181, 0, c.sawtoothFrame + 1);
    }
  }

  // ---------------------------------------------------------------------------
  // The potion holder

  function HolderPushLeft(h: PotionHolder): (r: PotionHolder)
    ensures 0 <= r.selected < PotionCount
    ensures r == h.(selected := r.selected)
  {
    h.(selected := (h.selected + 1) % PotionCount)
  }

  function HolderPushRight(h: PotionHolder): (r: PotionHolder)
    ensures 0 <= r.selected < PotionCount
    ensures r == h.(selected := r.selected)
  {
    h.(selected := (h.selected - 1) % PotionCount)
  }

  /** Turning the holder one way and back selects the same potion. */
  lemma HolderPushesInverse(h: PotionHolder)
    requires HolderInv(h)
    ensures HolderPushRight(HolderPushLeft(h)) == h && HolderPushLeft(HolderPushRight(h)) == h
  {
  }

  /** set_indexes: potion actor i goes to place (i - selected) mod 4, so the
      holder is the actor list rotated by the selection. */
  function SetIndexes(h: PotionHolder): (r: PotionHolder)
    requires |h.potions| == PotionCount
    ensures |r.potions| == PotionCount
    ensures r == h.(potions := r.potions)
  {
    var s := h.selected;
    h.(potions := h.potions[(0 - s) % 4 := Some(0)][(1 - s) % 4 := Some(1)]
                           [(2 - s) % 4 := Some(2)][(3 - s) % 4 := Some(3)])
  }

  /** The rotation in closed form: place j shows actor (j + selected) mod 4; the
      selected potion is on top. */
  lemma SetIndexesRotates(h: PotionHolder)
    requires |h.potions| == PotionCount
    ensures forall j :: 0 <= j < PotionCount ==> SetIndexes(h).potions[j] == Some((j + h.selected) % 4)
    ensures 0 <= h.selected < PotionCount ==> SetIndexes(h).potions[0].value == h.selected
  {
    SetIndexesAsRotated(h);
    RotatedShift(h.selected);
  }

  lemma RotatedShift(s: int)
    ensures forall j :: 0 <= j < PotionCount ==> Rotated(s % 4)[j] == Some((j + s) % 4)
    ensures 0 <= s < PotionCount ==> Rotated(s % 4)[0].value == s
  {
    var m, q := s % 4, s / 4;
    RotatedFacts(m);
    forall j | 0 <= j < PotionCount
      ensures Rotated(m)[j] == Some((j + s) % 4)
    {
      ModPlace(j, s, q, m);
    }
    if 0 <= s < PotionCount {
      DivUnique(s, 4, 0, s);
    }
  }

  /** Every potion actor is placed exactly once. */
  lemma SetIndexesPermutes(h: PotionHolder)
    requires |h.potions| == PotionCount
    ensures multiset(SetIndexes(h).potions) == multiset{Some(0), Some(1), Some(2), Some(3)}
  {
    SetIndexesAsRotated(h);
    RotatedFacts(h.selected % 4);
  }

  lemma SetIndexesAsRotated(h: PotionHolder)
    requires |h.potions| == PotionCount
    ensures SetIndexes(h).potions == Rotated(h.selected % 4)
  {
    var s := h.selected;
    var m, q := s % 4, s / 4;
    ModPlace(0, s, q, m);
    ModPlace(1, s, q, m);
    ModPlace(2, s, q, m);
    ModPlace(3, s, q, m);
    RotatedPlaces(h.potions, m);
  }

  lemma RotatedFacts(m: int)
    requires 0 <= m < 4
    ensures forall j :: 0 <= j < 4 ==> Rotated(m)[j] == Some((j + m) % 4)
    ensures multiset(Rotated(m)) == multiset{Some(0), Some(1), Some(2), Some(3)}
  {
    RotatedAt(m);
    RotatedPermutes(m);
  }

  /** Rotated(m) is the list 0, 1, 2, 3 started at m. */
  lemma RotatedSplit(m: int)
    requires 0 <= m < 4
    ensures var q: seq<Option<nat>> := [Some(0), Some(1), Some(2), Some(3)];
      Rotated(m) == q[m..] + q[..m] && q[..m] + q[m..] == q
  {
  }

  /** Place j of the rotation holds actor j + m, wrapping past 3. */
  lemma RotatedAt(m: int)
    requires 0 <= m < 4
    ensures forall j :: 0 <= j < 4 ==> Rotated(m)[j] == Some((j + m) % 4)
  {
    var q: seq<Option<nat>> := [Some(0), Some(1), Some(2), Some(3)];
    RotatedSplit(m);
    forall j | 0 <= j < 4
      ensures Rotated(m)[j] == Some((j + m) % 4)
    {
      if j + m < 4 {
        assert Rotated(m)[j] == q[j + m] == Some(j + m);
      } else {
        assert Rotated(m)[j] == q[j + m - 4] == Some(j + m - 4);
      }
    }
  }

  /** The rotation lists each of the four actors exactly once. */
  lemma RotatedPermutes(m: int)
    requires 0 <= m < 4
    ensures multiset(Rotated(m)) == multiset{Some(0), Some(1), Some(2), Some(3)}
  {
    var q: seq<Option<nat>> := [Some(0), Some(1), Some(2), Some(3)];
    RotatedSplit(m);
    calc {
      multiset(Rotated(m));
      multiset(q[m..]) + multiset(q[..m]);
      multiset(q[..m] + q[m..]);
      multiset(q);
    }
    assert multiset(q) == multiset{Some(0), Some(1), Some(2), Some(3)};
  }

  /** The four actors listed from place 0, when the selection is m modulo 4. */
  function Rotated(m: int): seq<Option<nat>>
    requires 0 <= m < 4
  {
    if m == 0 then [Some(0), Some(1), Some(2), Some(3)]
    else if m == 1 then [Some(1), Some(2), Some(3), Some(0)]
    else if m == 2 then [Some(2), Some(3), Some(0), Some(1)]
    else [Some(3), Some(0), Some(1), Some(2)]
  }

  lemma RotatedPlaces(potions: seq<Option<nat>>, m: int)
    requires |potions| == 4 && 0 <= m < 4
    ensures potions[(0 - m + 4) % 4 := Some(0)][(1 - m + 4) % 4 := Some(1)]
                   [(2 - m + 4) % 4 := Some(2)][(3 - m + 4) % 4 := Some(3)] == Rotated(m)
  {
  }

  /** The place of actor i depends only on the selection modulo 4. */
  lemma ModPlace(i: int, s: int, q: int, m: int)
    requires s == 4 * q + m && 0 <= m < 4 && 0 <= i < 4
    ensures (i - s) % 4 == (i - m + 4) % 4
    ensures (i + s) % 4 == (i + m) % 4
  {
  }

  /** The JSON list the serializer makes of a list of counts. */
  predicate ListsInts(j: Json, xs: seq<int>) {
    j.JList? && |j.items| == |xs| && forall k :: 0 <= k < |xs| ==> j.items[k] == JInt(xs[k])
  }

  /** The JSON list the serializer makes of the drop history: one `[time, potion]` pair per drop. */
  predicate ListsDrops(j: Json, drops: seq<Drop>) {
    j.JList? && |j.items| == |drops|
    && forall k :: 0 <= k < |drops| ==> j.items[k] == JList([JReal(drops[k].time), JInt(drops[k].potion)])
  }

  /** on_button_pushed: one more drop for the selected potion, recorded in the
      history; a live holder publishes both lists and reads them back. */
  function OnButtonPushed(h: PotionHolder, now: real): (r: Result<Outcome<PotionHolder>>)
    ensures r.Success? <==> PyIndex(|h.numDrops|, h.selected).Some?
    ensures r.Failure? ==> r.error == IndexError
    ensures r.Success? ==>
      var i := PyIndex(|h.numDrops|, h.selected).value;
      && r.value.state.numDrops == h.numDrops[i := h.numDrops[i] + 1]
      && r.value.state.dropHistory == h.dropHistory + [Drop(now, h.selected)]
      && r.value.state.selected == h.selected
      && r.value.state.live == h.live
    ensures r.Success? && !h.live ==> r.value.effects == []
    ensures r.Success? && h.live ==>
      var e := r.value.effects;
      && |e| == 4
      && e[0].SetMetadata? && e[0].key == "drop_counts" && ListsInts(e[0].value, r.value.state.numDrops)
      && e[1].SetMetadata? && e[1].key == "drop_history" && ListsDrops(e[1].value, r.value.state.dropHistory)
      && e[2] == GetMetadata("drop_counts") && e[3] == GetMetadata("drop_history")
  {
    match PyIndex(|h.numDrops|, h.selected)
    case None => Failure(IndexError)
    case Some(i) =>
      var counts := h.numDrops[i := h.numDrops[i] + 1];
      var history := h.dropHistory + [Drop(now, h.selected)];
      var effects :=
        if h.live then
          [SetMetadata("drop_counts", JList(seq(|counts|, k requires 0 <= k < |counts| => JInt(counts[k])))),
           SetMetadata("drop_history", JList(seq(|history|, k requires 0 <= k < |history| =>
             JList([JReal(history[k].time), JInt(history[k].potion)])))),
           GetMetadata("drop_counts"),
           GetMetadata("drop_history")]
        else [];
      Success(Outcome(h.(numDrops := counts, dropHistory := history), effects))
  }

  /** on_button_pushed as the source has it. A live holder publishes the
      counts through `serializer.save_dict_to_string`, which the Serializer
      class (serialization.py) does not define; `lilith_client.set_metadata`,
      called next, is not defined either. So after the drop is counted a live
      holder raises AttributeError; an offline one behaves as intended. */
  function OnButtonPushedAsWritten(h: PotionHolder, now: real): (r: Result<Outcome<PotionHolder>>)
    ensures r.Success? <==> !h.live && PyIndex(|h.numDrops|, h.selected).Some?
    ensures PyIndex(|h.numDrops|, h.selected).None? ==> r == Failure(IndexError)
    ensures h.live && PyIndex(|h.numDrops|, h.selected).Some? ==> r == Failure(AttributeError("save_dict_to_string"))
    ensures !h.live ==> r == OnButtonPushed(h, now)
  {
    var o :- OnButtonPushed(h, now);
    if h.live then Failure(AttributeError("save_dict_to_string")) else Success(o)
  }

  /** get_drops: the drop count of the selected potion. */
  function GetDrops(h: PotionHolder): (r: Result<int>)
    ensures r.Success? <==> -|h.numDrops| <= h.selected < |h.numDrops|
    ensures HolderInv(h) ==> r == Success(h.numDrops[h.selected])
  {
    match PyIndex(|h.numDrops|, h.selected)
    case None => Failure(IndexError)
    case Some(i) => Success(h.numDrops[i])
  }

  // ---------------------------------------------------------------------------
  // Saving and loading

  /** save_to_dict: ten fields under the 'controls' envelope. */
  function SaveToDict(c: Controls): (r: Result<Json>)
    ensures r.Success? <==> GetDrops(c.holder).Success?
    ensures Inv(c) ==> r.Success?
  {
    var drops :- GetDrops(c.holder);
    Success(Wrap("controls", SavedState(c, drops)))
  }

  /** The state dictionary save_to_dict wraps, with the drop count it read. */
  function SavedState(c: Controls, drops: int): (r: Json)
    ensures r.JDict? && r.fields.Keys == {"control_index", "voltage_knob_angle", "voltage", "old_voltage",
      "zap_timeout", "hydrowag_on", "sawtooth_on", "potion_selected", "drops_readout", "button_timeout"}
  {
    JDict(map[
      "control_index" := JInt(c.controlIndex),
      "voltage_knob_angle" := JInt(c.angle),
      "voltage" := JInt(c.voltage),
      "old_voltage" := JInt(c.oldVoltage),
      "zap_timeout" := JInt(c.zapTimeout),
      "hydrowag_on" := JBool(c.hydrowagOn),
      "sawtooth_on" := JBool(c.sawtoothOn),
      "potion_selected" := JInt(c.holder.selected),
      "drops_readout" := JInt(drops),
      "button_timeout" := JInt(c.buttonTimeout)])
  }

  /** Each field of a saved state reads back as the value saved under it. */
  lemma SavedStateReads(c: Controls, drops: int)
    ensures ReadSaved(SavedState(c, drops)) == Success(Saved(c.controlIndex, c.angle, c.voltage, c.oldVoltage,
      c.zapTimeout, c.hydrowagOn, c.sawtoothOn, c.holder.selected, drops))
    ensures GetInt(SavedState(c, drops), "button_timeout") == Success(c.buttonTimeout)
  {
  }

  function GetInt(d: Json, key: string): Result<int> {
    var j :- Get(d, key);
    AsInt(j)
  }

  function GetBool(d: Json, key: string): Result<bool> {
    var j :- Get(d, key);
    AsBool(j)
  }

  /** Every field load_from_dict reads before it indexes the drop counts is
      present with the right type. */
  predicate ReadsUpToDrops(save: Json) {
    && GetInt(save, "control_index").Success? && GetInt(save, "voltage_knob_angle").Success?
    && GetInt(save, "voltage").Success? && GetInt(save, "old_voltage").Success?
    && GetInt(save, "zap_timeout").Success? && GetBool(save, "hydrowag_on").Success?
    && GetBool(save, "sawtooth_on").Success? && GetInt(save, "potion_selected").Success?
    && GetInt(save, "drops_readout").Success?
  }

  /** load_from_dict: check the envelope, then load the saved state. */
  function LoadFromDict(c: Controls, wrapper: Json): (r: Result<Controls>)
    ensures Get(wrapper, "type").Success? && Get(wrapper, "type").value != JStr("controls") ==> r == Failure(AssertionError)
    ensures Unwrap(wrapper, "controls").Failure? ==> r.Failure?
    ensures Unwrap(wrapper, "controls").Success? ==> r == LoadState(c, Unwrap(wrapper, "controls").value)
  {
    var save :- Unwrap(wrapper, "controls");
    LoadState(c, save)
  }

  /** The body of load_from_dict: the timeouts are taken only when they are 6
      (the moment the lever or button was pressed); the drop count read back
      goes to the loaded selection, and an out-of-range selection raises
      IndexError before button_timeout is read. */
  function LoadState(c: Controls, save: Json): (r: Result<Controls>)
    ensures r.Success? ==>
      && ReadsUpToDrops(save) && GetInt(save, "button_timeout").Success?
      && r.value.live == c.live && r.value.console == c.console
      && r.value.pumpSpeedIndex == c.pumpSpeedIndex && r.value.sawtoothFrame == c.sawtoothFrame
      && r.value.oldAngle == c.oldAngle && r.value.hydrowagMovingForward == c.hydrowagMovingForward
      && r.value.hydrowagTimeout == c.hydrowagTimeout && r.value.holder.potions == c.holder.potions
      && r.value.controlIndex == GetInt(save, "control_index").value
      && r.value.angle == GetInt(save, "voltage_knob_angle").value
      && r.value.voltage == GetInt(save, "voltage").value
      && r.value.oldVoltage == GetInt(save, "old_voltage").value
      && r.value.hydrowagOn == GetBool(save, "hydrowag_on").value
      && r.value.sawtoothOn == GetBool(save, "sawtooth_on").value
      && r.value.zapTimeout == (if GetInt(save, "zap_timeout") == Success(6) then 6 else c.zapTimeout)
      && r.value.buttonTimeout == (if GetInt(save, "button_timeout") == Success(6) then 6 else c.buttonTimeout)
      && r.value.holder.selected == GetInt(save, "potion_selected").value
      && r.value.holder.live == c.holder.live && r.value.holder.dropHistory == c.holder.dropHistory
      && PyIndex(|c.holder.numDrops|, r.value.holder.selected).Some?
      && r.value.holder.numDrops ==
           c.holder.numDrops[PyIndex(|c.holder.numDrops|, r.value.holder.selected).value :=
                             GetInt(save, "drops_readout").value]
    ensures ReadsUpToDrops(save) && PyIndex(|c.holder.numDrops|, GetInt(save, "potion_selected").value).None?
      ==> r == Failure(IndexError)
  {
    var v :- ReadSaved(save);
    var h := c.holder.(selected := v.selected);
    match PyIndex(|h.numDrops|, v.selected)
    case None => Failure(IndexError)
    case Some(i) =>
      var bt :- GetInt(save, "button_timeout");
      Success(c.(controlIndex := v.controlIndex, angle := v.angle, voltage := v.voltage, oldVoltage := v.oldVoltage,
                 zapTimeout := if v.zapTimeout == 6 then 6 else c.zapTimeout,
                 hydrowagOn := v.hydrowagOn, sawtoothOn := v.sawtoothOn,
                 holder := h.(numDrops := h.numDrops[i := v.drops]),
                 buttonTimeout := if bt == 6 then bt else c.buttonTimeout))
  }

  /** The fields load_from_dict reads, in its order, before it indexes the drop counts. */
  datatype Saved = Saved(controlIndex: int, angle: int, voltage: int, oldVoltage: int, zapTimeout: int,
                         hydrowagOn: bool, sawtoothOn: bool, selected: int, drops: int)

  function ReadSaved(save: Json): (r: Result<Saved>)
    ensures r.Success? <==> ReadsUpToDrops(save)
    ensures r.Success? ==> r.value == Saved(
      GetInt(save, "control_index").value, GetInt(save, "voltage_knob_angle").value,
      GetInt(save, "voltage").value, GetInt(save, "old_voltage").value, GetInt(save, "zap_timeout").value,
      GetBool(save, "hydrowag_on").value, GetBool(save, "sawtooth_on").value,
      GetInt(save, "potion_selected").value, GetInt(save, "drops_readout").value)
  {
    var controlIndex :- GetInt(save, "control_index");
    var angle :- GetInt(save, "voltage_knob_angle");
    var voltage :- GetInt(save, "voltage");
    var oldVoltage :- GetInt(save, "old_voltage");
    var zt :- GetInt(save, "zap_timeout");
    var hydrowagOn :- GetBool(save, "hydrowag_on");
    var sawtoothOn :- GetBool(save, "sawtooth_on");
    var selected :- GetInt(save, "potion_selected");
    var drops :- GetInt(save, "drops_readout");
    Success(Saved(controlIndex, angle, voltage, oldVoltage, zt, hydrowagOn, sawtoothOn, selected, drops))
  }

  /** Loading a saved panel into any panel with a well-formed holder restores
      every saved field, the timeouts only when they were just set, and
      changes nothing else. */
  lemma SaveLoadRoundTrip(c: Controls, d: Controls)
    requires Inv(c) && HolderInv(d.holder)
    ensures LoadFromDict(d, SaveToDict(c).value) == Success(d.(
      controlIndex := c.controlIndex, angle := c.angle, voltage := c.voltage, oldVoltage := c.oldVoltage,
      zapTimeout := if c.zapTimeout == 6 then 6 else d.zapTimeout,
      hydrowagOn := c.hydrowagOn, sawtoothOn := c.sawtoothOn,
      holder := d.holder.(selected := c.holder.selected,
                          numDrops := d.holder.numDrops[c.holder.selected := c.holder.numDrops[c.holder.selected]]),
      buttonTimeout := if c.buttonTimeout == 6 then 6 else d.buttonTimeout))
  {
    var drops := GetDrops(c.holder).value;
    UnwrapWrap("controls", "controls", SavedState(c, drops));
    SavedStateReads(c, drops);
  }
}

=== FILE: data.dfy ===
/** Replaying a prerecorded run (data.py): one frame of current samples at a
    time becomes one box of the sliding display window, and the joystick
    state in force at the current sample is looked up from the recorded
    joystick updates. */
module RecordedData {
  import opened Arith

  /** Samples per second of the recordings. */
  const SampleRate: nat := 100000

  /** samples_per_frame at 60 frames per second. */
  const SamplesPerFrame: nat := 1666

  /** The source computes it as sample_rate // 60. */
  lemma SamplesPerFrameValue()
    ensures SampleRate / 60 == SamplesPerFrame
  {
  }

  /** The joystick state when no update has been recorded yet: every
      active-low button released. */
  const NoButtons: int := 65535

  /** A recorded joystick update: the sample index it took effect at and the raw state. */
  datatype JoystickUpdate = JoystickUpdate(index: int, controls: int)

  /** PrerecordedData: the window of boxes, the recorded samples and joystick
      updates, and the frame being replayed. */
  datatype Recording = Recording(
    numBoxes: nat,
    boxes: seq<int>,
    sampleData: seq<int>,
    joystickData: seq<JoystickUpdate>,
    latestFrame: nat,
    noMoreData: bool)

  /** PrerecordedData.__init__ followed by load_files: all boxes 0. */
  function NewRecording(numBoxes: nat, sampleData: seq<int>, joystickData: seq<JoystickUpdate>): (d: Recording)
    ensures |d.boxes| == numBoxes && (forall i :: 0 <= i < numBoxes ==> d.boxes[i] == 0)
    ensures d.latestFrame == 0 && !d.noMoreData
  {
    Recording(numBoxes, InitBoxes(numBoxes), sampleData, joystickData, 0, false)
  }

  /** init_boxes: [0] * num_boxes. */
  function InitBoxes(numBoxes: nat): (boxes: seq<int>)
    ensures |boxes| == numBoxes && forall i :: 0 <= i < numBoxes ==> boxes[i] == 0
  {
    seq(numBoxes, _ => 0)
  }

  // ---------------------------------------------------------------------------
  // count_true

  /** The number of true entries, defined position by position. */
  function TrueCount(a: seq<bool>): nat
  {
    if |a| == 0 then 0 else TrueCount(a[..|a| - 1]) + (if a[|a| - 1] then 1 else 0)
  }

  /** count_true: the number of True entries, between 0 and the length. */
  method CountTrue(a: seq<bool>) returns (count: nat)
    ensures count == TrueCount(a)
    ensures count <= |a|
    ensures count == |a| <==> forall i :: 0 <= i < |a| ==> a[i]
    ensures count == 0 <==> forall i :: 0 <= i < |a| ==> !a[i]
  {
    count := 0;
    var i := 0;
    while i < |a|
      invariant 0 <= i <= |a|
      invariant count == TrueCount(a[..i])
      invariant count <= i
      invariant count == i <==> forall j :: 0 <= j < i ==> a[j]
      invariant count == 0 <==> forall j :: 0 <= j < i ==> !a[j]
    {
      assert a[..i + 1][..i] == a[..i];
      if a[i] == true {
        count := count + 1;
      }
      i := i + 1;
    }
    assert a[..i] == a;
  }

  // ---------------------------------------------------------------------------
  // Frames of current

  /** numpy's a[start:end] for 0 <= start: both ends clamped to the array. */
  function Slice(a: seq<int>, start: nat, end: nat): (r: seq<int>)
    ensures |r| == if start >= |a| || end <= start then 0 else (if end <= |a| then end else |a|) - start
  {
    var hi := if end <= |a| then end else |a|;
    if start >= hi then [] else a[start..hi]
  }

  /** The slice holds the array's elements from `start` on, in order. */
  lemma SliceElements(a: seq<int>, start: nat, end: nat)
    ensures forall i :: 0 <= i < |Slice(a, start, end)| ==> Slice(a, start, end)[i] == a[start + i]
  {
  }

  /** The samples of frame f: indices from SamplesPerFrame·f up to SamplesPerFrame·(f+1). */
  function FrameSlice(samples: seq<int>, f: nat): seq<int> {
    Slice(samples, SamplesPerFrame * f, SamplesPerFrame * (f + 1))
  }

  function FrameSamples(d: Recording): seq<int> {
    FrameSlice(d.sampleData, d.latestFrame)
  }

  /** A frame holds the samples [1666·f, 1666·(f+1)) that the recording has,
      so consecutive frames tile the recording without overlap. */
  lemma FrameCoverage(d: Recording)
    ensures var s := FrameSamples(d);
      && |s| <= 1666
      && (forall i :: 0 <= i < |s| ==> s[i] == d.sampleData[1666 * d.latestFrame + i])
      && (1666 * (d.latestFrame + 1) <= |d.sampleData| ==> |s| == 1666)
      && (|s| == 0 <==> |d.sampleData| <= 1666 * d.latestFrame)
  {
    SliceElements(d.sampleData, SamplesPerFrame * d.latestFrame, SamplesPerFrame * (d.latestFrame + 1));
  }

  /** No element of `s` lies below `m`. */
  predicate Least(m: int, s: seq<int>) {
    forall x <- s :: m <= x
  }

  /** np.min of a non-empty array: no element lies below it. */
  function Min(s: seq<int>): (m: int)
    requires |s| > 0
    ensures Least(m, s)
  {
    if |s| == 1 then s[0]
    else
      var rest := Min(s[1..]);
      assert forall x <- s :: x == s[0] || x in s[1..];
      if s[0] <= rest then s[0] else rest
  }

  /** ... and it is one of the array's elements. */
  lemma {:induction false} MinAttained(s: seq<int>)
    requires |s| > 0
    ensures Min(s) in s
  {
    if |s| > 1 {
      MinAttained(s[1..]);
      assert Min(s[1..]) in s;
    }
  }

  /** get_one_frame_current: the oldest box drops out and the frame's lowest
      current comes in; past the end of the data every box is cleared and the
      recording is marked finished. */
  function GetOneFrameCurrent(d: Recording): (r: Recording)
    ensures r.sampleData == d.sampleData && r.joystickData == d.joystickData
    ensures r.latestFrame == d.latestFrame && r.numBoxes == d.numBoxes
    ensures |FrameSamples(d)| > 0 ==>
      && r.boxes == (if |d.boxes| == 0 then [] else d.boxes[1..]) + [Min(FrameSamples(d))]
      && r.noMoreData == d.noMoreData
    ensures |FrameSamples(d)| == 0 ==> r.boxes == InitBoxes(d.numBoxes) && r.noMoreData
    ensures |d.boxes| == d.numBoxes >= 1 ==> |r.boxes| == d.numBoxes
  {
    var cd := FrameSamples(d);
    if |cd| > 0 then
      d.(boxes := (if |d.boxes| == 0 then [] else d.boxes[1..]) + [Min(cd)])
    else d.(boxes := InitBoxes(d.numBoxes), noMoreData := true)
  }

  /** With an empty window, get_one_frame_current leaves one box behind: the
      window keeps its size only when it has at least one box. */
  lemma EmptyWindowGrows(d: Recording)
    requires d.numBoxes == 0 && d.boxes == [] && |FrameSamples(d)| > 0
    ensures |GetOneFrameCurrent(d).boxes| == 1
  {
  }

  /** advance_frame. */
  function AdvanceFrame(d: Recording): (r: Recording)
    ensures r.latestFrame == d.latestFrame + 1
    ensures r == d.(latestFrame := r.latestFrame)
  {
    d.(latestFrame := d.latestFrame + 1)
  }

  /** One replayed frame: the current, then the move to the next frame. */
  function Step(d: Recording): Recording {
    AdvanceFrame(GetOneFrameCurrent(d))
  }

  function Steps(d: Recording, n: nat): Recording
    decreases n
  {
    if n == 0 then d else Steps(Step(d), n - 1)
  }

  /** The number of whole frames the recording holds. */
  function FullFrames(samples: seq<int>): nat {
    |samples| / SamplesPerFrame
  }

  /** Frame f of the whole frames lies inside the recording, so its slice holds
      SamplesPerFrame samples. */
  lemma FullFrameFits(samples: seq<int>, f: nat)
    requires f < FullFrames(samples)
    ensures SamplesPerFrame * (f + 1) <= |samples|
    ensures |FrameSlice(samples, f)| == SamplesPerFrame
  {
    MulMono(SamplesPerFrame, f + 1, FullFrames(samples));
  }

  /** The lowest current of each of the n frames from frame f on. */
  function Minima(samples: seq<int>, f: nat, n: nat): (m: seq<int>)
    requires f + n <= FullFrames(samples)
    ensures |m| == n
    decreases n
  {
    if n == 0 then [] else [FrameMin(samples, f)] + Minima(samples, f + 1, n - 1)
  }

  /** The lowest current of a frame the recording covers in full. */
  function FrameMin(samples: seq<int>, f: nat): int
    requires f < FullFrames(samples)
  {
    FullFrameFits(samples, f);
    Min(FrameSlice(samples, f))
  }

  /** The boxes after n frames with data from frame f on, one frame at a time:
      each frame pushes the oldest box out and its minimum in. */
  function Window(boxes: seq<int>, samples: seq<int>, f: nat, n: nat): (w: seq<int>)
    requires 1 <= |boxes| && f + n <= FullFrames(samples)
    ensures |w| == |boxes|
    decreases n
  {
    if n == 0 then boxes
    else Window(boxes[1..] + [FrameMin(samples, f)], samples, f + 1, n - 1)
  }

  /** n replayed frames with data move the window as Window says, advance
      the frame by n and keep the recording. */
  lemma {:induction false} StepsWindow(d: Recording, n: nat)
    requires |d.boxes| == d.numBoxes >= 1
    requires d.latestFrame + n <= FullFrames(d.sampleData)
    ensures Steps(d, n).boxes == Window(d.boxes, d.sampleData, d.latestFrame, n)
    ensures Steps(d, n).latestFrame == d.latestFrame + n
    ensures Steps(d, n).sampleData == d.sampleData && Steps(d, n).numBoxes == d.numBoxes
    decreases n
  {
    if n > 0 {
      StepFull(d);
      StepsWindow(Step(d), n - 1);
    }
  }

  /** The window after n frames: the old boxes from n on, then the n frame minima, oldest first. */
  lemma {:induction false} WindowMinima(boxes: seq<int>, samples: seq<int>, f: nat, n: nat)
    requires 1 <= |boxes| && n <= |boxes| && f + n <= FullFrames(samples)
    ensures Window(boxes, samples, f, n) == boxes[n..] + Minima(samples, f, n)
    decreases n
  {
    if n > 0 {
      var m := FrameMin(samples, f);
      var shifted := boxes[1..] + [m];
      WindowMinima(shifted, samples, f + 1, n - 1);
      ShiftedTail(boxes, m, Minima(samples, f + 1, n - 1), n);
    }
  }

  /** Shifting one box in and dropping n - 1 more leaves the boxes from n on, then the new one. */
  lemma ShiftedTail(boxes: seq<int>, m: int, rest: seq<int>, n: nat)
    requires 1 <= n <= |boxes|
    ensures (boxes[1..] + [m])[n - 1..] + rest == boxes[n..] + ([m] + rest)
  {
    assert (boxes[1..] + [m])[n - 1..] == boxes[n..] + [m];
  }

  /** After n frames with data, the window has kept its size, its oldest boxes
      are the ones not yet pushed out, and its newest n boxes are the minima
      of those frames, oldest first. */
  lemma WindowHoldsFrameMinima(d: Recording, n: nat)
    requires |d.boxes| == d.numBoxes >= n
    requires d.latestFrame + n <= FullFrames(d.sampleData)
    ensures Steps(d, n).latestFrame == d.latestFrame + n
    ensures Steps(d, n).boxes == d.boxes[n..] + Minima(d.sampleData, d.latestFrame, n)
    ensures |Steps(d, n).boxes| == d.numBoxes
  {
    if n > 0 {
      StepsWindow(d, n);
      WindowMinima(d.boxes, d.sampleData, d.latestFrame, n);
    }
  }

  /** One step on a full frame: the window shifts by one box and the frame advances. */
  lemma StepFull(d: Recording)
    requires |d.boxes| == d.numBoxes >= 1
    requires d.latestFrame < FullFrames(d.sampleData)
    ensures Step(d).boxes == d.boxes[1..] + [FrameMin(d.sampleData, d.latestFrame)]
    ensures Step(d).latestFrame == d.latestFrame + 1
    ensures Step(d).sampleData == d.sampleData && Step(d).numBoxes == d.numBoxes
    ensures Step(d).joystickData == d.joystickData && Step(d).noMoreData == d.noMoreData
  {
    FullFrameFits(d.sampleData, d.latestFrame);
  }

  // ---------------------------------------------------------------------------
  // The joystick in force

  /** Where the scan stops: the first update whose index is after `current`,
      or the end of the list. */
  function ScanEnd(updates: seq<JoystickUpdate>, current: int): (k: nat)
    ensures k <= |updates|
    ensures forall j :: 0 <= j < k ==> updates[j].index <= current
    ensures k < |updates| ==> updates[k].index > current
  {
    if |updates| == 0 || updates[0].index > current then 0
    else 1 + ScanEnd(updates[1..], current)
  }

  /** get_one_frame_joystick: past the end of the samples (comparing the frame
      number with the sample count, as the source does) no button is pressed;
      otherwise the state of the last update before the scan stops, or no
      buttons when there is none. */
  method GetOneFrameJoystick(d: Recording) returns (state: int)
    ensures d.latestFrame > |d.sampleData| ==> state == NoButtons
    ensures d.latestFrame <= |d.sampleData| ==>
      var k := ScanEnd(d.joystickData, SamplesPerFrame * d.latestFrame);
      state == if k == 0 then NoButtons else d.joystickData[k - 1].controls
  {
    if d.latestFrame > |d.sampleData| {
      return NoButtons;
    }
    var current := SamplesPerFrame * d.latestFrame;
    state := NoButtons;
    var i := 0;
    while i < |d.joystickData|
      invariant 0 <= i <= ScanEnd(d.joystickData, current)
      invariant state == if i == 0 then NoButtons else d.joystickData[i - 1].controls
    {
      if d.joystickData[i].index > current {
        break;
      }
      state := d.joystickData[i].controls;
      i := i + 1;
    }
    assert i == ScanEnd(d.joystickData, current);
  }

  /** With updates in index order, the scan finds the latest update at or
      before the current sample. */
  lemma ScanFindsLatest(updates: seq<JoystickUpdate>, current: int, j: nat)
    requires forall a, b :: 0 <= a < b < |updates| ==> updates[a].index <= updates[b].index
    requires j < |updates| && updates[j].index <= current
    ensures j < ScanEnd(updates, current)
  {
  }
}

=== FILE: joystick.dfy ===
/** The joystick bit decoder of util.py.

    The two joysticks report a 16-bit, active-low mask: a button is pressed
    when its bit is 0.  Bit 0 is the rightmost character of the binary
    string.  Bits 6, 7, 14 and 15 are not wired to any button. */
module Joystick {
  import opened Wrappers

  const NotUsed: string := "not_used"

  const ButtonNames: seq<string> := ["up", "down", "left", "right", "b1", "b2"]

  /** One stick's six names under a prefix such as "js1_". */
  function Prefixed(prefix: string): (names: seq<string>)
    ensures |names| == 6
  {
    seq(6, k requires 0 <= k < 6 => prefix + ButtonNames[k])
  }

  /** The 16-entry table indexed by bit position. */
  const AllButtons: seq<string> :=
    Prefixed("js1_") + [NotUsed, NotUsed] + Prefixed("js2_") + [NotUsed, NotUsed]

  /** The bit positions that name a real button: 0-5 and 8-13. */
  predicate IsWired(i: nat) {
    i < 16 && i % 8 < 6
  }

  /** Prefix of the stick a bit position belongs to. */
  function StickPrefix(i: nat): string {
    if i < 8 then "js1_" else "js2_"
  }

  /** The shape of the table, entry by entry. */
  lemma TableEntry(i: nat)
    requires i < 16
    ensures |AllButtons| == 16
    ensures AllButtons[i] == (if IsWired(i) then StickPrefix(i) + ButtonNames[i % 8] else NotUsed)
  {
    var p1, p2 := Prefixed("js1_"), Prefixed("js2_");
    assert AllButtons == p1 + [NotUsed, NotUsed] + p2 + [NotUsed, NotUsed];
    if i < 6 {
      assert AllButtons[i] == p1[i];
    } else if i < 8 {
    } else if i < 14 {
      assert AllButtons[i] == p2[i - 8];
    }
  }

  lemma ButtonNamesDistinct(k: nat, l: nat)
    requires k < 6 && l < 6 && k != l
    ensures ButtonNames[k] != ButtonNames[l]
  {
    var a, b := ButtonNames[k], ButtonNames[l];
    if k < 4 && l < 4 {
      assert a[0] != b[0];
    } else if k < 4 || l < 4 {
      assert a[0] != b[0] || |a| != |b|;
    } else {
      assert a[1] != b[1];
    }
  }

  /** The table marks exactly the unwired positions as not used. */
  lemma TableWiring()
    ensures |AllButtons| == 16
    ensures forall i :: 0 <= i < 16 ==> (AllButtons[i] != NotUsed <==> IsWired(i))
  {
    forall i | 0 <= i < 16
      ensures AllButtons[i] != NotUsed <==> IsWired(i)
    {
      TableEntry(i);
      if IsWired(i) {
        assert AllButtons[i][0] == 'j' != NotUsed[0];
      }
    }
    TableEntry(0);
  }

  /** The stick and the button a wired name stands for can be read back. */
  lemma NameParts(i: nat)
    requires IsWired(i)
    ensures |AllButtons[i]| >= 4
    ensures AllButtons[i][2] == (if i < 8 then '1' else '2')
    ensures AllButtons[i][4..] == ButtonNames[i % 8]
  {
    TableEntry(i);
    var p, n := StickPrefix(i), ButtonNames[i % 8];
    assert |p| == 4;
    assert AllButtons[i] == p + n;
    assert (p + n)[4..] == n;
  }

  /** Distinct wired bits carry distinct button names. */
  lemma WiredNamesDistinct(i: nat, j: nat)
    requires IsWired(i) && IsWired(j) && i != j
    ensures AllButtons[i] != AllButtons[j]
  {
    NameParts(i);
    NameParts(j);
    if (i < 8) == (j < 8) {
      ButtonNamesDistinct(i % 8, j % 8);
    }
  }

  /** True when bit `i`, counted from the rightmost character, is '0'. */
  predicate IsPressed(bits: string, i: nat) {
    i < |bits| && bits[|bits| - 1 - i] == '0'
  }

  /** A '0' beyond the 16-entry table makes the source index past its end. */
  predicate FitsTable(bits: string) {
    forall i :: 0 <= i < |bits| && IsPressed(bits, i) ==> i < 16
  }

  /** The wired positions pressed at bit `i` or above, following the
      source's scan from the rightmost character. */
  function PressedFrom(bits: string, i: nat): Result<seq<nat>>
    requires i <= |bits|
    decreases |bits| - i
  {
    if i == |bits| then Success([])
    else if bits[|bits| - 1 - i] == '0' then
      if i >= 16 then Failure(IndexError)
      else
        var rest :- PressedFrom(bits, i + 1);
        if AllButtons[i] != NotUsed then Success([i] + rest) else Success(rest)
    else PressedFrom(bits, i + 1)
  }

  /** The scan fails exactly on a '0' past the table; otherwise it lists
      every wired pressed bit from `i` on, each once, in ascending order. */
  lemma {:induction false} PressedFromSpec(bits: string, i: nat)
    requires i <= |bits|
    decreases |bits| - i
    ensures var r := PressedFrom(bits, i);
      && (r.Success? <==> forall j :: i <= j < |bits| && IsPressed(bits, j) ==> j < 16)
      && (r.Success? ==> forall k :: 0 <= k < |r.value| ==>
            i <= r.value[k] && IsWired(r.value[k]) && IsPressed(bits, r.value[k]))
      && (r.Success? ==> forall j :: i <= j < |bits| && IsWired(j) && IsPressed(bits, j) ==> j in r.value)
      && (r.Success? ==> forall k, l :: 0 <= k < l < |r.value| ==> r.value[k] < r.value[l])
  {
    if i < |bits| {
      PressedFromSpec(bits, i + 1);
      if bits[|bits| - 1 - i] == '0' {
        assert IsPressed(bits, i);
        TableWiring();
      }
    }
  }

  /** The name of a wired bit. */
  function Name(i: nat): (name: string)
    requires IsWired(i)
    ensures |AllButtons| == 16 && name == AllButtons[i]
  {
    TableEntry(i);
    AllButtons[i]
  }

  /** The button names of a list of wired positions. */
  function NamesAt(ps: seq<nat>): (names: seq<string>)
    requires forall k :: 0 <= k < |ps| ==> IsWired(ps[k])
    ensures |names| == |ps|
  {
    seq(|ps|, k requires 0 <= k < |ps| => Name(ps[k]))
  }

  /** Position of `x` in `s`, or -1 when absent. */
  function IndexOf(s: seq<string>, x: string): (k: int)
    ensures -1 <= k < |s|
    ensures 0 <= k ==> s[k] == x && forall j :: 0 <= j < k ==> s[j] != x
    ensures k == -1 ==> x !in s
  {
    if |s| == 0 then -1
    else if s[0] == x then 0
    else
      var k := IndexOf(s[1..], x);
      if k == -1 then -1 else k + 1
  }

  /** The bit a button name stands for, read back from the name itself:
      the stick digit and the button after the underscore. */
  function NameBit(name: string): int {
    if |name| < 4 then -1
    else (if name[2] == '1' then 0 else 8) + IndexOf(ButtonNames, name[4..])
  }

  lemma NameBitOfWired(i: nat)
    requires IsWired(i)
    ensures NameBit(AllButtons[i]) == i
  {
    NameParts(i);
    var j := i % 8;
    forall a, b | 0 <= a < b < |ButtonNames| ensures ButtonNames[a] != ButtonNames[b] {
      ButtonNamesDistinct(a, b);
    }
    IndexOfDistinct(ButtonNames, j);
  }

  /** In a list without repeats, the index of an element is its position. */
  lemma IndexOfDistinct(s: seq<string>, j: nat)
    requires j < |s| && forall a, b :: 0 <= a < b < |s| ==> s[a] != s[b]
    ensures IndexOf(s, s[j]) == j
  {
    var k := IndexOf(s, s[j]);
    assert 0 <= k <= j;
  }

  /** util.process_joystick_string: the names of the pressed buttons, in
      ascending bit order, none repeated. */
  function ProcessJoystickString(bits: string): (r: Result<seq<string>>)
    ensures r.Success? <==> FitsTable(bits)
    ensures r.Success? ==> forall i :: 0 <= i < 16 && IsWired(i) ==>
      (AllButtons[i] in r.value <==> IsPressed(bits, i))
    ensures r.Success? ==> forall name :: name in r.value ==> name in AllButtons && name != NotUsed
    ensures r.Success? ==> forall k, l :: 0 <= k < l < |r.value| ==> r.value[k] != r.value[l]
    ensures r.Success? ==> forall k, l :: 0 <= k < l < |r.value| ==> NameBit(r.value[k]) < NameBit(r.value[l])
  {
    PressedFromSpec(bits, 0);
    var ps :- PressedFrom(bits, 0);
    TableWiring();
    var names := NamesAt(ps);
    assert forall k, l :: 0 <= k < l < |names| ==> names[k] != names[l] by {
      forall k, l | 0 <= k < l < |names|
        ensures names[k] != names[l]
      {
        WiredNamesDistinct(ps[k], ps[l]);
      }
    }
    assert forall k :: 0 <= k < |names| ==> NameBit(names[k]) == ps[k] by {
      forall k | 0 <= k < |names|
        ensures NameBit(names[k]) == ps[k]
      {
        NameBitOfWired(ps[k]);
      }
    }
    assert forall i :: 0 <= i < 16 && IsWired(i) && AllButtons[i] in names ==> i in ps by {
      forall i | 0 <= i < 16 && IsWired(i) && AllButtons[i] in names
        ensures i in ps
      {
        var k :| 0 <= k < |names| && names[k] == AllButtons[i];
        if ps[k] != i {
          WiredNamesDistinct(ps[k], i);
        }
      }
    }
    forall i | 0 <= i < 16 && IsWired(i) && i in ps
      ensures AllButtons[i] in names
    {
      var k :| 0 <= k < |ps| && ps[k] == i;
      assert names[k] == AllButtons[i];
    }
    Success(names)
  }

  /** Python's bin(n)[2:]: the binary digits of n without leading zeros. */
  function Bin(n: nat): (s: string)
    ensures |s| >= 1
    ensures forall k :: 0 <= k < |s| ==> s[k] == '0' || s[k] == '1'
    ensures n > 0 ==> s[0] == '1'
  {
    if n < 2 then (if n == 0 then "0" else "1")
    else Bin(n / 2) + (if n % 2 == 0 then "0" else "1")
  }

  /** Bit i of n, counted from the least significant. */
  function BitOf(n: nat, i: nat): nat {
    if i == 0 then n % 2 else BitOf(n / 2, i - 1)
  }

  function Pow2(i: nat): (p: nat)
    ensures p >= 1
  {
    if i == 0 then 1 else 2 * Pow2(i - 1)
  }

  lemma Pow2Sixteen()
    ensures Pow2(16) == 65536
  {
    assert Pow2(4) == 16;
    assert Pow2(8) == 256 by {
      assert Pow2(6) == 64;
    }
    assert Pow2(12) == 4096 by {
      assert Pow2(10) == 1024;
    }
    assert Pow2(14) == 16384;
  }

  /** The value a string of binary digits stands for. */
  function FromBin(s: string): nat {
    if |s| == 0 then 0
    else 2 * FromBin(s[..|s| - 1]) + (if s[|s| - 1] == '1' then 1 else 0)
  }

  /** bin is a faithful rendering: reading its digits back gives n. */
  lemma {:induction false} FromBinBin(n: nat)
    ensures FromBin(Bin(n)) == n
  {
    if n >= 2 {
      var s := Bin(n);
      assert s[..|s| - 1] == Bin(n / 2);
      FromBinBin(n / 2);
    }
  }

  /** Character i from the right of bin(n) is bit i of n. */
  lemma {:induction false} BinBit(n: nat, i: nat)
    requires i < |Bin(n)|
    ensures Bin(n)[|Bin(n)| - 1 - i] == (if BitOf(n, i) == 0 then '0' else '1')
  {
    if n >= 2 && i > 0 {
      BinBit(n / 2, i - 1);
    }
  }

  /** bin(n) has at most k+1 digits exactly when n is below 2^(k+1). */
  lemma {:induction false} BinLength(n: nat, k: nat)
    ensures |Bin(n)| <= k + 1 <==> n < Pow2(k + 1)
  {
    if n >= 2 {
      if k > 0 {
        BinLength(n / 2, k - 1);
      } else {
        assert |Bin(n)| == |Bin(n / 2)| + 1;
      }
    }
  }

  lemma BinFacts(data: nat)
    ensures data < 65536 ==> FitsTable(Bin(data))
    ensures forall i :: 0 <= i < |Bin(data)| ==>
      (IsPressed(Bin(data), i) <==> BitOf(data, i) == 0)
  {
    if data < 65536 {
      BinLength(data, 15);
      Pow2Sixteen();
    }
    forall i | 0 <= i < |Bin(data)|
      ensures IsPressed(Bin(data), i) <==> BitOf(data, i) == 0
    {
      BinBit(data, i);
    }
  }

  /** util.process_joystick_data: decode the integer a joystick reported.
      A button is reported iff its bit is 0 and lies within bin(data), so
      bits above the highest set bit are never reported. */
  function ProcessJoystickData(data: nat): (r: Result<seq<string>>)
    ensures data < 65536 ==> r.Success?
    ensures r.Success? ==> forall i :: 0 <= i < 16 && IsWired(i) ==>
      (AllButtons[i] in r.value <==> i < |Bin(data)| && BitOf(data, i) == 0)
  {
    BinFacts(data);
    ProcessJoystickString(Bin(data))
  }

  /** The sample in the source's test: up and button 1 on joystick 1. */
  lemma TestVector()
    ensures ProcessJoystickString("11" + "111111" + "11" + "101110") == Success(["js1_up", "js1_b1"])
  {
    var bits := "11" + "111111" + "11" + "101110";
    assert bits == "1111111111101110";
    TableWiring();
    assert PressedFrom(bits, 16) == Success([]);
    assert PressedFrom(bits, 15) == Success([]);
    assert PressedFrom(bits, 14) == Success([]);
    assert PressedFrom(bits, 13) == Success([]);
    assert PressedFrom(bits, 12) == Success([]);
    assert PressedFrom(bits, 11) == Success([]);
    assert PressedFrom(bits, 10) == Success([]);
    assert PressedFrom(bits, 9) == Success([]);
    assert PressedFrom(bits, 8) == Success([]);
    assert PressedFrom(bits, 7) == Success([]);
    assert PressedFrom(bits, 6) == Success([]);
    assert PressedFrom(bits, 5) == Success([]);
    assert AllButtons[4] != NotUsed && [4] + [] == [4];
    assert PressedFrom(bits, 4) == Success([4]);
    assert PressedFrom(bits, 3) == Success([4]);
    assert PressedFrom(bits, 2) == Success([4]);
    assert PressedFrom(bits, 1) == Success([4]);
    assert AllButtons[0] != NotUsed && [0] + [4] == [0, 4];
    assert PressedFrom(bits, 0) == Success([0, 4]);
    TableEntry(0);
    TableEntry(4);
    var names := NamesAt([0, 4]);
    assert names[0] == "js1_" + "up" == "js1_up";
    assert names[1] == "js1_" + "b1" == "js1_b1";
    assert names == ["js1_up", "js1_b1"];
  }

  /** A scan over '1' characters only finds nothing. */
  lemma {:induction false} AllOnesScan(bits: string, i: nat)
    requires i <= |bits|
    requires forall k :: 0 <= k < |bits| ==> bits[k] == '1'
    decreases |bits| - i
    ensures PressedFrom(bits, i) == Success([])
  {
    if i < |bits| {
      AllOnesScan(bits, i + 1);
    }
  }

  /** An all-'1' string presses nothing. */
  lemma AllOnesPressNothing(bits: string)
    requires forall k :: 0 <= k < |bits| ==> bits[k] == '1'
    ensures ProcessJoystickString(bits) == Success([])
  {
    AllOnesScan(bits, 0);
  }

  /** 2^(k+1) - 1 is written with k+1 ones. */
  lemma {:induction false} BinAllOnes(k: nat)
    ensures Bin(Pow2(k + 1) - 1) == seq(k + 1, _ => '1')
  {
    if k > 0 {
      BinAllOnes(k - 1);
      assert (Pow2(k + 1) - 1) / 2 == Pow2(k) - 1;
    }
  }

  /** 65535 is the "no buttons pressed" default. */
  lemma NoButtonsPressed()
    ensures ProcessJoystickData(65535) == Success([])
  {
    Pow2Sixteen();
    BinAllOnes(15);
    AllOnesPressNothing(Bin(65535));
  }

  /** bin(0) is "0", which reads as js1_up held down. */
  lemma ZeroIsUp()
    ensures ProcessJoystickData(0) == Success(["js1_up"])
  {
    assert Bin(0) == "0";
    TableWiring();
    assert PressedFrom("0", 1) == Success([]);
    assert AllButtons[0] != NotUsed && [0] + [] == [0];
    assert PressedFrom("0", 0) == Success([0]);
    TableEntry(0);
    var names := NamesAt([0]);
    assert names[0] == "js1_" + "up" == "js1_up";
    assert names == ["js1_up"];
  }
}

=== FILE: legacy.dfy ===
/** The older two-control panel of maxine.py (voltage knob and zap lever),
    the switch edge detection of the console player, and the explosion
    frame names. */
module LegacyControls {
  import opened Wrappers
  import opened PyValues
  import opened Arith

  const ControlCount: nat := 2
  const VoltageIndex: int := 0
  const ZapIndex: int := 1

  /** NewControls: the selected control, the knob, the voltage shown and the
      reference voltage, and the frames left on the zap lever. */
  datatype NewControls = NewControls(
    live: bool,
    controlIndex: int,
    angle: int,
    voltage: int,
    oldVoltage: int,
    zapTimeout: int)

  /** A new state and the biases sent to the board (set_bias when LIVE). */
  datatype Outcome = Outcome(state: NewControls, biases: seq<int>)

  function Initial(live: bool): (c: NewControls)
    ensures c.controlIndex == VoltageIndex && c.zapTimeout == 0 && c.voltage == c.oldVoltage
    ensures c.live == live && c.voltage == 0 && c.oldVoltage == 0 && c.angle == 0
  {
    NewControls(live, 0, 0, 0, 0, 0)
  }

  function SetVoltage(c: NewControls, voltage: int): (r: Outcome)
    ensures r.state == c.(voltage := voltage)
    ensures r.biases == if c.live then [voltage] else []
  {
    Outcome(c.(voltage := voltage), if c.live then [voltage] else [])
  }

  /** update: the lever counts down; once at rest, every frame puts the
      voltage back to the reference and the knob at 360 minus it. */
  function Update(c: NewControls): (r: Outcome)
    ensures c.zapTimeout > 0 ==> r == Outcome(c.(zapTimeout := c.zapTimeout - 1), [])
    ensures c.zapTimeout <= 0 ==>
      && r.state == c.(voltage := c.oldVoltage, angle := 360 - c.oldVoltage)
      && r.biases == if c.live then [c.oldVoltage] else []
  {
    if c.zapTimeout > 0 then Outcome(c.(zapTimeout := c.zapTimeout - 1), [])
    else
      var o := SetVoltage(c, c.oldVoltage);
      Outcome(o.state.(angle := 360 - c.oldVoltage), o.biases)
  }

  function UpdateTimes(c: NewControls, n: nat): NewControls
    decreases n
  {
    if n == 0 then c else UpdateTimes(Update(c).state, n - 1)
  }

  /** While the lever is down the state only counts down. */
  lemma {:induction false} UpdatesCountDown(c: NewControls, n: nat)
    requires n <= c.zapTimeout
    ensures UpdateTimes(c, n) == c.(zapTimeout := c.zapTimeout - n)
    decreases n
  {
    if n > 0 {
      UpdatesCountDown(Update(c).state, n - 1);
    }
  }

  /** A zap holds 3500 mV for six updates; the seventh puts back the reference
      voltage and the knob that shows it. */
  lemma ZapCycle(c: NewControls)
    requires c.controlIndex == ZapIndex
    ensures var z := Push(c).state;
      && z.zapTimeout == 6 && z.voltage == 3500
      && UpdateTimes(z, 6).voltage == 3500 && UpdateTimes(z, 6).zapTimeout == 0
      && UpdateTimes(z, 7) == c.(zapTimeout := 0, voltage := c.oldVoltage, angle := 360 - c.oldVoltage)
  {
    var z := Push(c).state;
    UpdatesCountDown(z, 6);
    var z6 := UpdateTimes(z, 6);
    assert UpdateTimes(z, 7) == UpdateTimes(Update(z).state, 6);
    UpdatesCountDown(Update(z).state, 5);
    assert UpdateTimes(z, 7) == Update(z6).state by {
      UpdateTimesLast(z, 6);
    }
  }

  lemma {:induction false} UpdateTimesLast(c: NewControls, n: nat)
    ensures UpdateTimes(c, n + 1) == Update(UpdateTimes(c, n)).state
    decreases n
  {
    if n > 0 {
      UpdateTimesLast(Update(c).state, n - 1);
    }
  }

  function SelectDown(c: NewControls): (r: NewControls)
    ensures 0 <= r.controlIndex < ControlCount
    ensures r == c.(controlIndex := r.controlIndex)
  {
    c.(controlIndex := (c.controlIndex + 1) % ControlCount)
  }

  function SelectUp(c: NewControls): (r: NewControls)
    ensures 0 <= r.controlIndex < ControlCount
    ensures r == c.(controlIndex := r.controlIndex)
  {
    c.(controlIndex := (c.controlIndex - 1) % ControlCount)
  }

  /** With two controls, up and down both toggle the selection and undo each other. */
  lemma SelectInverse(c: NewControls)
    requires 0 <= c.controlIndex < ControlCount
    ensures SelectUp(SelectDown(c)) == c && SelectDown(SelectUp(c)) == c
    ensures SelectUp(c) == SelectDown(c) && SelectUp(c).controlIndex == 1 - c.controlIndex
  {
  }

  /** push: only the zap lever responds, firing 3500 mV for six frames. */
  function Push(c: NewControls): (r: Outcome)
    ensures c.controlIndex == ZapIndex ==> r.state == c.(zapTimeout := 6, voltage := 3500)
    ensures c.controlIndex == ZapIndex ==> r.biases == if c.live then [3500] else []
    ensures c.controlIndex != ZapIndex ==> r == Outcome(c, [])
  {
    if c.controlIndex == ZapIndex then SetVoltage(c.(zapTimeout := 6), 3500) else Outcome(c, [])
  }

  /** Turn the knob by `delta` degrees and make the shown voltage the reference. */
  function Turn(c: NewControls, delta: int): (r: Outcome)
    ensures 0 <= r.state.angle < 360 && (r.state.angle - c.angle - delta) % 360 == 0
    ensures r.state.voltage == r.state.oldVoltage == 360 - r.state.angle
    ensures 1 <= r.state.voltage <= 360
    ensures r.state == c.(angle := r.state.angle, voltage := r.state.voltage, oldVoltage := r.state.oldVoltage)
    ensures r.biases == if c.live then [r.state.voltage] else []
  {
    var angle := (c.angle + delta) % 360;
    var voltage := 360 - angle;
    var o := SetVoltage(c.(angle := angle), voltage);
    Outcome(o.state.(oldVoltage := voltage), o.biases)
  }

  /** push_left: the knob turns 36 degrees on. */
  function PushLeft(c: NewControls): (r: Outcome)
    ensures c.controlIndex == VoltageIndex ==> r == Turn(c, 36)
    ensures c.controlIndex != VoltageIndex ==> r == Outcome(c, [])
  {
    if c.controlIndex == VoltageIndex then Turn(c, 36) else Outcome(c, [])
  }

  /** push_right: the knob turns 36 degrees back. */
  function PushRight(c: NewControls): (r: Outcome)
    ensures c.controlIndex == VoltageIndex ==> r == Turn(c, -36)
    ensures c.controlIndex != VoltageIndex ==> r == Outcome(c, [])
  {
    if c.controlIndex == VoltageIndex then Turn(c, -36) else Outcome(c, [])
  }

  /** A knob push one way is undone by a push the other way, up to the knob
      being normalised into [0, 360). */
  lemma KnobPushesInverse(c: NewControls)
    requires c.controlIndex == VoltageIndex && 0 <= c.angle < 360
    ensures PushRight(PushLeft(c).state).state.angle == c.angle
    ensures PushLeft(PushRight(c).state).state.angle == c.angle
  {
    var a := c.angle;
    if a + 36 < 360 {
      DivUnique(a + 36, 360, 0, a + 36);
      DivUnique(a, 360, 0, a);
    } else {
      DivUnique(a + 36, 360, 1, a + 36 - 360);
      DivUnique(a - 360, 360, -1, a);
    }
    if a - 36 >= 0 {
      DivUnique(a - 36, 360, 0, a - 36);
    } else {
      DivUnique(a - 36, 360, -1, a - 36 + 360);
      DivUnique(a + 360, 360, 1, a);
    }
  }

  /** k pushes to the left in a row. */
  function PushLefts(c: NewControls, k: nat): NewControls
    decreases k
  {
    if k == 0 then c else PushLefts(PushLeft(c).state, k - 1)
  }

  /** Sums of multiples of n are multiples of n. */
  lemma ModSum(x: int, y: int, n: int)
    requires n >= 1 && x % n == 0 && y % n == 0
    ensures (x + y) % n == 0
  {
    DivUnique(x + y, n, x / n + y / n, 0);
  }

  /** After k pushes left the knob stands 36·k degrees on, modulo 360, and
      stays selected. */
  lemma {:induction false} PushLeftsAngle(c: NewControls, k: nat)
    requires c.controlIndex == VoltageIndex
    ensures PushLefts(c, k).controlIndex == VoltageIndex
    ensures (PushLefts(c, k).angle - c.angle - 36 * k) % 360 == 0
    ensures k > 0 ==> 0 <= PushLefts(c, k).angle < 360
    decreases k
  {
    if k > 0 {
      var c1 := PushLeft(c).state;
      PushLeftsAngle(c1, k - 1);
      var a2 := PushLefts(c, k).angle;
      if k > 1 {
        ModSum(a2 - c1.angle - 36 * (k - 1), c1.angle - c.angle - 36, 360);
      } else {
        assert a2 == c1.angle;
      }
    }
  }

  /** Up to ten pushes, the knob is back at its start only after the tenth. */
  lemma PushLeftsReturn(c: NewControls, k: nat)
    requires c.controlIndex == VoltageIndex && 0 <= c.angle < 360 && 0 < k <= 10
    ensures PushLefts(c, k).angle == c.angle <==> k == 10
  {
    PushLeftsAngle(c, k);
    var e := PushLefts(c, k).angle - c.angle - 36 * k;
    if -720 < e < -360 {
      DivUnique(e, 360, -2, e + 720);
    } else if -360 < e < 0 {
      DivUnique(e, 360, -1, e + 360);
    } else if 0 < e < 360 {
      DivUnique(e, 360, 0, e);
    }
  }

  /** Ten pushes the same way bring the knob full circle, and no fewer do. */
  lemma FullCircle(c: NewControls)
    requires c.controlIndex == VoltageIndex && 0 <= c.angle < 360
    ensures PushLefts(c, 10).angle == c.angle
    ensures forall k :: 0 < k < 10 ==> PushLefts(c, k).angle != c.angle
  {
    PushLeftsReturn(c, 10);
    forall k | 0 < k < 10
      ensures PushLefts(c, k).angle != c.angle
    {
      PushLeftsReturn(c, k);
    }
  }

  // ---------------------------------------------------------------------------
  // Saving and loading

  /** save_to_dict: five fields under the 'controls' envelope. */
  function SaveToDict(c: NewControls): (r: Json)
    ensures r.JDict? && r.fields.Keys == {"type", "state"}
  {
    Wrap("controls", JDict(map[
      "control_index" := JInt(c.controlIndex),
      "voltage_knob_angle" := JInt(c.angle),
      "voltage" := JInt(c.voltage),
      "old_voltage" := JInt(c.oldVoltage),
      "zap_timeout" := JInt(c.zapTimeout)]))
  }

  function GetInt(d: Json, key: string): Result<int> {
    var j :- Get(d, key);
    AsInt(j)
  }

  /** load_from_dict: the envelope must say 'controls'; the five fields are
      taken as saved. */
  function LoadFromDict(c: NewControls, wrapper: Json): (r: Result<NewControls>)
    ensures Get(wrapper, "type").Success? && Get(wrapper, "type").value != JStr("controls") ==> r == Failure(AssertionError)
    ensures r.Success? ==> r.value.live == c.live
    ensures r.Success? ==> Unwrap(wrapper, "controls").Success?
    ensures r.Success? ==>
      var save := Unwrap(wrapper, "controls").value;
      && GetInt(save, "control_index") == Success(r.value.controlIndex)
      && GetInt(save, "voltage_knob_angle") == Success(r.value.angle)
      && GetInt(save, "voltage") == Success(r.value.voltage)
      && GetInt(save, "old_voltage") == Success(r.value.oldVoltage)
      && GetInt(save, "zap_timeout") == Success(r.value.zapTimeout)
  {
    var save :- Unwrap(wrapper, "controls");
    var controlIndex :- GetInt(save, "control_index");
    var angle :- GetInt(save, "voltage_knob_angle");
    var voltage :- GetInt(save, "voltage");
    var oldVoltage :- GetInt(save, "old_voltage");
    var zapTimeout :- GetInt(save, "zap_timeout");
    Success(NewControls(c.live, controlIndex, angle, voltage, oldVoltage, zapTimeout))
  }

  /** Loading what was saved restores all five fields; only the LIVE setting
      of the loading side is kept. */
  lemma SaveLoadRoundTrip(c: NewControls, d: NewControls)
    ensures LoadFromDict(d, SaveToDict(c)) == Success(c.(live := d.live))
  {
    UnwrapWrap("controls", "controls", SaveToDict(c).fields["state"]);
  }

  // ---------------------------------------------------------------------------
  // Switch edges

  /** check_pressed_just_now for one switch: a switch that is on and was not
      down before has just been pressed; the set of switches down follows the
      switch. */
  function CheckPressedJustNow(name: string, on: map<string, bool>, before: set<string>, justNow: set<string>)
    : (r: Result<(set<string>, set<string>)>)
    ensures r.Success? <==> name in on
    ensures r.Failure? ==> r.error == KeyError
    ensures r.Success? ==>
      && r.value.0 == (if on[name] then before + {name} else before - {name})
      && r.value.1 == (if on[name] && name !in before then justNow + {name} else justNow)
  {
    if name !in on then Failure(KeyError)
    else if on[name] then
      if name !in before then Success((before + {name}, justNow + {name})) else Success((before, justNow))
    else if name in before then Success((before - {name}, justNow))
    else Success((before, justNow))
  }

  /** The loop over every switch, in the order of `on`'s keys. */
  function PressedJustNow(names: seq<string>, on: map<string, bool>, before: set<string>, justNow: set<string>)
    : (r: Result<(set<string>, set<string>)>)
    ensures r.Success? <==> forall n <- names :: n in on
    ensures r.Failure? ==> r.error == KeyError
    ensures r.Success? ==> justNow <= r.value.1
    decreases |names|
  {
    if |names| == 0 then Success((before, justNow))
    else
      var step :- CheckPressedJustNow(names[0], on, before, justNow);
      PressedJustNow(names[1..], on, step.0, step.1)
  }

  /** A switch is reported exactly when it is on and was not already down; afterwards
      a switch of the loop is down exactly when it is on, and other names are untouched. */
  lemma {:induction false} PressedJustNowSpec(names: seq<string>, on: map<string, bool>, before: set<string>, justNow: set<string>)
    requires forall n <- names :: n in on
    ensures PressedJustNow(names, on, before, justNow).Success?
    ensures var r := PressedJustNow(names, on, before, justNow).value;
      && (forall n :: n in r.1 <==> n in justNow || (n in names && on[n] && n !in before))
      && (forall n :: n in r.0 <==> if n in names then on[n] else n in before)
    decreases |names|
  {
    if |names| > 0 {
      var step := CheckPressedJustNow(names[0], on, before, justNow).value;
      PressedJustNowSpec(names[1..], on, step.0, step.1);
      var r := PressedJustNow(names, on, before, justNow).value;
      assert r == PressedJustNow(names[1..], on, step.0, step.1).value;
      forall n
        ensures n in r.1 <==> n in justNow || (n in names && on[n] && n !in before)
        ensures n in r.0 <==> if n in names then on[n] else n in before
      {
        if n in names && n != names[0] {
          assert n in names[1..];
        }
      }
    }
  }

  /** Holding switches reports them once: a second scan with the same switches
      on reports nothing new. */
  lemma HoldReportsOnce(names: seq<string>, on: map<string, bool>, before: set<string>)
    requires forall n <- names :: n in on
    ensures PressedJustNow(names, on, before, {}).Success?
    ensures var first := PressedJustNow(names, on, before, {}).value;
      PressedJustNow(names, on, first.0, {}).Success? && PressedJustNow(names, on, first.0, {}).value.1 == {}
  {
    PressedJustNowSpec(names, on, before, {});
    var first := PressedJustNow(names, on, before, {}).value;
    PressedJustNowSpec(names, on, first.0, {});
    var second := PressedJustNow(names, on, first.0, {}).value;
    assert forall n :: n !in second.1;
  }

  // ---------------------------------------------------------------------------
  // The console player's frame

  /** The switches the console player uses, in the order `on` is built. */
  const SwitchNames: seq<string> := ["left", "right", "up", "down", "button"]

  /** The test keyboard's arrow keys and space bar. */
  datatype Keys = Keys(left: bool, right: bool, up: bool, down: bool, space: bool)

  lemma SwitchNamesDistinct()
    ensures "left" != "right" && "left" != "up" && "left" != "down" && "left" != "button"
    ensures "right" != "up" && "right" != "down" && "right" != "button"
    ensures "up" != "down" && "up" != "button" && "down" != "button"
  {
    assert "left"[0] != "down"[0];
  }

  /** Each switch is on when its joystick button is reported pressed or its key is down. */
  function SwitchesOn(pressed: seq<string>, keys: Keys): (on: map<string, bool>)
    ensures on.Keys == set n <- SwitchNames
    ensures on["left"] == ("js1_left" in pressed || keys.left)
    ensures on["right"] == ("js1_right" in pressed || keys.right)
    ensures on["up"] == ("js1_up" in pressed || keys.up)
    ensures on["down"] == ("js1_down" in pressed || keys.down)
    ensures on["button"] == ("js1_b1" in pressed || keys.space)
  {
    SwitchNamesDistinct();
    map[
      "left" := "js1_left" in pressed || keys.left,
      "right" := "js1_right" in pressed || keys.right,
      "up" := "js1_up" in pressed || keys.up,
      "down" := "js1_down" in pressed || keys.down,
      "button" := "js1_b1" in pressed || keys.space]
  }

  /** The console player's part of the frame. */
  datatype Frame = Frame(controls: NewControls, pressedBefore: set<string>, biases: seq<int>)

  /** Switch `n` went down this frame: it is on and was not down before. */
  predicate Edge(on: map<string, bool>, before: set<string>, n: string)
    requires n in on
  {
    on[n] && n !in before
  }

  /** One frame's response given which switches went down (`up` … `right`)
      and whether the button is held: select (up before down), push on a
      button edge, then turn on a left or right edge while the button is held. */
  function React(u: NewControls, up: bool, down: bool, button: bool, left: bool, right: bool, held: bool): Outcome
  {
    var s := if up then SelectUp(u) else if down then SelectDown(u) else u;
    var p := if button then Push(s) else Outcome(s, []);
    var t := if held && left then PushLeft(p.state)
             else if held && right then PushRight(p.state)
             else Outcome(p.state, []);
    Outcome(t.state, p.biases + t.biases)
  }

  /** The panel's answer to the switches of one frame, read off the switches
      directly: an up edge selects up, else a down edge selects down; a button
      edge pushes; then, while the button is held, a left edge pushes left,
      else a right edge pushes right. A LIVE panel sends 3500 mV when the push
      fires the zap lever and the knob's new voltage when it turns. */
  function Respond(u: NewControls, on: map<string, bool>, before: set<string>): (r: Outcome)
    requires forall n <- SwitchNames :: n in on
    ensures r.state.live == u.live
    ensures (forall n <- SwitchNames :: !Edge(on, before, n)) ==> r == Outcome(u, [])
    ensures !on["button"] ==> r.state.angle == u.angle
    ensures Edge(on, before, "up") ==> r.state.controlIndex == SelectUp(u).controlIndex
    ensures !Edge(on, before, "up") && Edge(on, before, "down") ==> r.state.controlIndex == SelectDown(u).controlIndex
    ensures !Edge(on, before, "up") && !Edge(on, before, "down") ==> r.state.controlIndex == u.controlIndex
    ensures !u.live ==> r.biases == []
    ensures var zap := Edge(on, before, "button") && r.state.controlIndex == ZapIndex;
      var turn := on["button"] && (Edge(on, before, "left") || Edge(on, before, "right")) && r.state.controlIndex == VoltageIndex;
      u.live ==> r.biases == (if zap then [3500] else []) + (if turn then [r.state.voltage] else [])
  {
    React(u, Edge(on, before, "up"), Edge(on, before, "down"), Edge(on, before, "button"),
          Edge(on, before, "left"), Edge(on, before, "right"), on["button"])
  }

  /** The scan over the five switches reports exactly their edges, and
      remembers exactly the switches that are on. */
  lemma FrameEdges(on: map<string, bool>, before: set<string>)
    requires forall n <- SwitchNames :: n in on
    ensures PressedJustNow(SwitchNames, on, before, {}).Success?
    ensures var r := PressedJustNow(SwitchNames, on, before, {}).value;
      && ("up" in r.1 <==> Edge(on, before, "up")) && ("down" in r.1 <==> Edge(on, before, "down"))
      && ("left" in r.1 <==> Edge(on, before, "left")) && ("right" in r.1 <==> Edge(on, before, "right"))
      && ("button" in r.1 <==> Edge(on, before, "button"))
      && (forall n <- SwitchNames :: n in r.0 <==> on[n])
      && (forall n :: n !in SwitchNames ==> (n in r.0 <==> n in before))
  {
    PressedJustNowSpec(SwitchNames, on, before, {});
  }

  /** update_for_console_player: update the panel, find the switches pressed
      this frame, then select (up before down), push on the button's down
      edge, and turn the knob on a left or right edge while the button is held.
      `pressed` is the list of joystick buttons reported down this frame. */
  function ConsoleFrame(c: NewControls, before: set<string>, pressed: seq<string>, keys: Keys): (r: Frame)
    ensures var on := SwitchesOn(pressed, keys);
      && (forall n <- SwitchNames :: n in r.pressedBefore <==> on[n])
      && (forall n :: n !in SwitchNames ==> (n in r.pressedBefore <==> n in before))
    ensures var u := Update(c); var o := Respond(u.state, SwitchesOn(pressed, keys), before);
      r.controls == o.state && r.biases == u.biases + o.biases
  {
    var u := Update(c);
    var on := SwitchesOn(pressed, keys);
    FrameEdges(on, before);
    var edges := PressedJustNow(SwitchNames, on, before, {}).value;
    var justNow := edges.1;
    var o := React(u.state, "up" in justNow, "down" in justNow, "button" in justNow,
                   "left" in justNow, "right" in justNow, on["button"]);
    Frame(o.state, edges.0, u.biases + o.biases)
  }

  /** On a LIVE panel the last bias a frame sends is the voltage the panel then
      shows, and a frame that sends none leaves the voltage alone; offline no
      bias is sent. So the board always holds the voltage on the display. */
  lemma FrameBiasShown(c: NewControls, before: set<string>, pressed: seq<string>, keys: Keys)
    ensures var f := ConsoleFrame(c, before, pressed, keys);
      && (!c.live ==> f.biases == [])
      && (c.live && f.biases == [] ==> f.controls.voltage == c.voltage)
      && (f.biases != [] ==> f.biases[|f.biases| - 1] == f.controls.voltage)
  {
    var u := Update(c);
    var on := SwitchesOn(pressed, keys);
    var o := Respond(u.state, on, before);
    ReactBiasShown(u.state, Edge(on, before, "up"), Edge(on, before, "down"), Edge(on, before, "button"),
                   Edge(on, before, "left"), Edge(on, before, "right"), on["button"]);
    if o.biases == [] {
      assert ConsoleFrame(c, before, pressed, keys).biases == u.biases;
    } else {
      var f := ConsoleFrame(c, before, pressed, keys);
      assert f.biases == u.biases + o.biases;
      assert f.biases[|f.biases| - 1] == o.biases[|o.biases| - 1];
    }
  }

  /** The same for the response alone. */
  lemma ReactBiasShown(u: NewControls, up: bool, down: bool, button: bool, left: bool, right: bool, held: bool)
    ensures var o := React(u, up, down, button, left, right, held);
      && (!u.live ==> o.biases == [])
      && (o.biases == [] ==> o.state.voltage == u.voltage || !u.live)
      && (o.biases != [] ==> o.biases[|o.biases| - 1] == o.state.voltage)
  {
  }

  /** Holding the same switches for a second frame selects, pushes and turns
      nothing: the panel only updates, whatever the switches and the panel. */
  lemma HoldingChangesNothing(c: NewControls, before: set<string>, pressed: seq<string>, keys: Keys)
    ensures var f := ConsoleFrame(c, before, pressed, keys);
      ConsoleFrame(f.controls, f.pressedBefore, pressed, keys).controls == Update(f.controls).state
  {
    var on := SwitchesOn(pressed, keys);
    var f := ConsoleFrame(c, before, pressed, keys);
    PressedJustNowSpec(SwitchNames, on, f.pressedBefore, {});
  }

  // ---------------------------------------------------------------------------

  /** boom_images: the thirty explosion frames 'boom1' to 'boom30'. */
  function BoomImages(): (r: seq<string>)
    ensures |r| == 30
  {
    seq(30, i requires 0 <= i < 30 => "boom" + NatToString(i + 1))
  }

  /** The frames are numbered 1 to 30 in order, so no two are the same. */
  lemma BoomImagesNumbered()
    ensures forall i :: 0 <= i < 30 ==> DecimalValue(BoomImages()[i][4..]) == i + 1
    ensures forall i, j :: 0 <= i < j < 30 ==> BoomImages()[i] != BoomImages()[j]
    ensures BoomImages()[0] == "boom1" && BoomImages()[29] == "boom30"
  {
    forall i | 0 <= i < 30
      ensures DecimalValue(BoomImages()[i][4..]) == i + 1
    {
      assert BoomImages()[i][4..] == NatToString(i + 1);
      NatToStringValue(i + 1);
    }
    assert NatToString(30) == NatToString(3) + [DigitChar(0)];
  }
}

=== FILE: maze.dfy ===
/** The polar maze grid of mazes.py: concentric rings of cells around a single
    centre cell, each ring holding a whole multiple of the cells of the ring
    inside it. Cells refer to their neighbours by position (`Coord`), so the
    grid is a plain value; the links of a cell are the keys of the source's
    `links` dictionary, kept in insertion order. */
module PolarMaze {
  import opened Wrappers
  import opened Arith

  /** Ring number (0 is the centre) and column within the ring. */
  datatype Coord = Coord(row: nat, column: nat)

  datatype PolarCell = PolarCell(
    row: nat,
    column: nat,
    links: seq<Coord>,
    cw: Option<Coord>,
    ccw: Option<Coord>,
    inward: Option<Coord>,
    outward: seq<Coord>)

  datatype PolarGrid = PolarGrid(rows: nat, grid: seq<seq<PolarCell>>)

  // ---------------------------------------------------------------------------
  // Ring sizes

  /** Ring r + 1 holds `ratios[r]` times as many cells as ring r. The source
      derives each ratio from the ring's circumference with floating point;
      here the ratios are a parameter. */
  function RingSizes(rows: nat, ratios: seq<nat>): (sizes: seq<nat>)
    requires 1 <= rows && rows - 1 <= |ratios|
    ensures |sizes| == rows
    decreases rows
  {
    if rows == 1 then [1]
    else
      var s := RingSizes(rows - 1, ratios);
      s + [s[rows - 2] * ratios[rows - 2]]
  }

  predicate PositiveRatios(ratios: seq<nat>) {
    forall i :: 0 <= i < |ratios| ==> ratios[i] >= 1
  }

  /** Fan-out between ring r - 1 and ring r. */
  function Ratio(sizes: seq<nat>, r: nat): nat
    requires 1 <= r < |sizes| && sizes[r - 1] >= 1
  {
    sizes[r] / sizes[r - 1]
  }

  /** One centre cell, every ring non-empty and an exact multiple of the one inside it. */
  predicate ValidSizes(sizes: seq<nat>) {
    && |sizes| >= 1
    && sizes[0] == 1
    && (forall r :: 0 <= r < |sizes| ==> sizes[r] >= 1)
    && (forall r :: 1 <= r < |sizes| ==> sizes[r] == sizes[r - 1] * Ratio(sizes, r))
  }

  lemma MulDiv(a: nat, k: nat)
    requires a >= 1
    ensures (a * k) / a == k
  {
    DivUnique(a * k, a, k, 0);
  }

  /** The sizes built from positive ratios are valid, and each ring's fan-out is its ratio. */
  lemma {:induction false} RingSizesValid(rows: nat, ratios: seq<nat>)
    requires 1 <= rows && rows - 1 <= |ratios| && PositiveRatios(ratios)
    ensures ValidSizes(RingSizes(rows, ratios))
    ensures forall r :: 1 <= r < rows ==> Ratio(RingSizes(rows, ratios), r) == ratios[r - 1]
    decreases rows
  {
    var sizes := RingSizes(rows, ratios);
    if rows > 1 {
      RingSizesValid(rows - 1, ratios);
      var s := RingSizes(rows - 1, ratios);
      assert sizes == s + [s[rows - 2] * ratios[rows - 2]];
      assert forall r :: 0 <= r < rows - 1 ==> sizes[r] == s[r];
      assert sizes[rows - 1] >= 1 by { MulMono(s[rows - 2], 1, ratios[rows - 2]); }
      MulDiv(s[rows - 2], ratios[rows - 2]);
      forall r | 1 <= r < rows
        ensures sizes[r] == sizes[r - 1] * Ratio(sizes, r) && Ratio(sizes, r) == ratios[r - 1]
      {
        if r < rows - 1 {
          assert Ratio(sizes, r) == Ratio(s, r);
        }
      }
    }
  }

  /** Fan-outs produced by the source's rounding formula for the first eight rings. */
  const StandardRatios: seq<nat> := [6, 2, 2, 1, 1, 2, 1]

  lemma StandardRingSizes()
    ensures RingSizes(8, StandardRatios) == [1, 6, 12, 24, 24, 24, 48, 48]
  {
    assert RingSizes(1, StandardRatios) == [1];
    assert RingSizes(2, StandardRatios) == [1, 6];
    assert RingSizes(3, StandardRatios) == [1, 6, 12];
    assert RingSizes(4, StandardRatios) == [1, 6, 12, 24];
    assert RingSizes(5, StandardRatios) == [1, 6, 12, 24, 24];
    assert RingSizes(6, StandardRatios) == [1, 6, 12, 24, 24, 24];
    assert RingSizes(7, StandardRatios) == [1, 6, 12, 24, 24, 24, 48];
  }

  // ---------------------------------------------------------------------------
  // Building the grid

  /** PolarCell.__init__: a cell at its place, with no links and no neighbours yet. */
  function InitialCell(row: nat, column: nat): (c: PolarCell)
    ensures c.row == row && c.column == column && c.links == []
    ensures c.cw == None && c.ccw == None && c.inward == None && c.outward == []
  {
    PolarCell(row, column, [], None, None, None, [])
  }

  function Lengths(rings: seq<seq<PolarCell>>): (sizes: seq<nat>)
    ensures |sizes| == |rings|
    ensures forall r :: 0 <= r < |rings| ==> sizes[r] == |rings[r]|
  {
    seq(|rings|, r requires 0 <= r < |rings| => |rings[r]|)
  }

  /** prepare_grid: a ring list of the requested length, the centre cell alone
      in ring 0. Zero rows divides by zero; a negative count leaves no ring 0
      to assign. */
  function PrepareGrid(rows: int, ratios: seq<nat>): (r: Result<seq<seq<PolarCell>>>)
    requires rows - 1 <= |ratios| && PositiveRatios(ratios)
    ensures rows == 0 <==> r == Failure(ZeroDivisionError)
    ensures rows < 0 <==> r == Failure(IndexError)
    ensures r.Success? ==>
      && |r.value| == rows
      && |r.value[0]| == 1
      && ValidSizes(Lengths(r.value))
      && (forall k :: 1 <= k < rows ==> |r.value[k]| == |r.value[k - 1]| * ratios[k - 1])
      && (forall k, c :: 0 <= k < rows && 0 <= c < |r.value[k]| ==> r.value[k][c] == InitialCell(k, c))
  {
    if rows == 0 then Failure(ZeroDivisionError)
    else if rows < 0 then Failure(IndexError)
    else
      var sizes := RingSizes(rows, ratios);
      RingSizesValid(rows, ratios);
      var rings := seq(rows, k requires 0 <= k < rows => seq(sizes[k], c requires 0 <= c => InitialCell(k, c)));
      assert Lengths(rings) == sizes;
      Success(rings)
  }

  /** __getitem__ on ring sizes: None outside the rings, otherwise the column
      taken modulo the ring size (Python's `%` agrees with Dafny's for a
      positive divisor). */
  function Locate(sizes: seq<nat>, row: int, column: int): (r: Option<Coord>)
    requires ValidSizes(sizes)
    ensures r.None? <==> row < 0 || row >= |sizes|
    ensures r.Some? ==> r.value.row == row && r.value.column < sizes[row]
    ensures r.Some? ==> (column - r.value.column) % sizes[row] == 0
  {
    if row < 0 || row > |sizes| - 1 then None
    else
      DivUnique(column - column % sizes[row], sizes[row], column / sizes[row], 0);
      Some(Coord(row, column % sizes[row]))
  }

  /** The cells of ring `row` (of `n` cells, fan-out `k`) whose parent is
      column p of the ring inside, in the order configure_cells appends them,
      scanning the ring from column `from`. */
  function AppendedChildren(row: nat, n: nat, k: nat, p: nat, from: nat): seq<Coord>
    requires k >= 1
    decreases n - from
  {
    if from >= n then []
    else
      (if from / k == p then [Coord(row, from)] else [])
      + AppendedChildren(row, n, k, p, from + 1)
  }

  /** configure_cells for one cell: clockwise and counter-clockwise neighbours
      through __getitem__, the parent by integer division of the column, and
      the children appended to this cell while their own parents were set. */
  function ConfigureCell(sizes: seq<nat>, cell: PolarCell, r: nat, c: nat): (out: PolarCell)
    requires ValidSizes(sizes) && r < |sizes| && c < sizes[r]
    ensures out.row == cell.row && out.column == cell.column && out.links == cell.links
    ensures |cell.outward| <= |out.outward| && out.outward[..|cell.outward|] == cell.outward
    ensures r == 0 ==> out.cw == cell.cw && out.ccw == cell.ccw && out.inward == cell.inward
    ensures r > 0 ==> out.cw == Some(Coord(r, NextColumn(c, sizes[r])))
    ensures r > 0 ==> out.ccw == Some(Coord(r, PrevColumn(c, sizes[r])))
    ensures r > 0 ==> out.inward.Some? && out.inward.value.row == r - 1 && out.inward.value.column < sizes[r - 1]
  {
    var children := if r + 1 < |sizes| then AppendedChildren(r + 1, sizes[r + 1], Ratio(sizes, r + 1), c, 0) else [];
    var outward := cell.outward + children;
    PrefixKept(cell.outward, children);
    if r == 0 then cell.(outward := outward)
    else RingCell(sizes, cell.(outward := outward), r, c)
  }

  /** The neighbours configure_cells gives a cell outside the centre. */
  function RingCell(sizes: seq<nat>, cell: PolarCell, r: nat, c: nat): (out: PolarCell)
    requires ValidSizes(sizes) && 0 < r < |sizes| && c < sizes[r]
    ensures out == cell.(cw := out.cw, ccw := out.ccw, inward := out.inward)
    ensures out.cw == Some(Coord(r, NextColumn(c, sizes[r])))
    ensures out.ccw == Some(Coord(r, PrevColumn(c, sizes[r])))
    ensures out.inward.Some? && out.inward.value.row == r - 1 && out.inward.value.column < sizes[r - 1]
  {
    var cw, ccw := Locate(sizes, r, c + 1), Locate(sizes, r, c - 1);
    RingNeighbours(sizes, r, c);
    var parent := c / Ratio(sizes, r);
    ParentInRange(sizes, r, c);
    cell.(cw := cw, ccw := ccw, inward := Some(Coord(r - 1, parent)))
  }

  /** Appending keeps what was there. */
  lemma PrefixKept<T>(a: seq<T>, b: seq<T>)
    ensures (a + b)[..|a|] == a
  {
  }

  function ConfigureCells(rings: seq<seq<PolarCell>>): (out: seq<seq<PolarCell>>)
    requires ValidSizes(Lengths(rings))
    ensures Lengths(out) == Lengths(rings)
    ensures forall r, c :: 0 <= r < |rings| && 0 <= c < |rings[r]| ==>
      out[r][c] == ConfigureCell(Lengths(rings), rings[r][c], r, c)
  {
    var sizes := Lengths(rings);
    var out := seq(|rings|, r requires 0 <= r < |rings| =>
      seq(|rings[r]|, c requires 0 <= c < |rings[r]| => ConfigureCell(sizes, rings[r][c], r, c)));
    assert Lengths(out) == sizes;
    out
  }

  // ---------------------------------------------------------------------------
  // The neighbour structure of a configured grid, stated without `%`, `//` or scanning

  /** `count` consecutive columns of ring `row`, starting at `lo`. */
  function Block(row: nat, lo: nat, count: nat): (b: seq<Coord>)
    ensures |b| == count && forall j :: 0 <= j < count ==> b[j] == Coord(row, lo + j)
  {
    seq(count, j requires 0 <= j < count => Coord(row, lo + j))
  }

  function NextColumn(c: nat, n: nat): nat {
    if c + 1 == n then 0 else c + 1
  }

  function PrevColumn(c: nat, n: nat): nat
    requires n >= 1
  {
    if c == 0 then n - 1 else c - 1
  }

  /** Cell (r, c) of a configured grid before any link: ring neighbours one
      column either way with wrap-around, the parent whose block of children
      contains c, and its own block of children in the next ring. */
  function Expected(sizes: seq<nat>, r: nat, c: nat): PolarCell
    requires ValidSizes(sizes) && r < |sizes| && c < sizes[r]
  {
    var outward := if r + 1 < |sizes| then Block(r + 1, c * Ratio(sizes, r + 1), Ratio(sizes, r + 1)) else [];
    if r == 0 then PolarCell(0, c, [], None, None, None, outward)
    else
      PolarCell(r, c, [],
        Some(Coord(r, NextColumn(c, sizes[r]))),
        Some(Coord(r, PrevColumn(c, sizes[r]))),
        Some(Coord(r - 1, c / Ratio(sizes, r))),
        outward)
  }

  lemma ModNext(c: int, n: int)
    requires 0 <= c < n
    ensures (c + 1) % n == if c + 1 == n then 0 else c + 1
  {
    if c + 1 == n {
      DivUnique(c + 1, n, 1, 0);
    } else {
      DivUnique(c + 1, n, 0, c + 1);
    }
  }

  lemma ModPrev(c: int, n: int)
    requires 0 <= c < n
    ensures (c - 1) % n == if c == 0 then n - 1 else c - 1
  {
    if c == 0 {
      DivUnique(c - 1, n, -1, n - 1);
    } else {
      DivUnique(c - 1, n, 0, c - 1);
    }
  }

  lemma DivBlock(c: nat, k: nat, p: nat)
    requires k >= 1
    ensures c / k == p <==> p * k <= c < p * k + k
  {
    if p * k <= c < p * k + k {
      DivUnique(c, k, p, c - p * k);
    }
  }

  /** The children appended to a column form one contiguous block of the next ring. */
  lemma {:induction false} AppendedBlock(row: nat, n: nat, k: nat, p: nat, from: nat)
    requires k >= 1 && p * k + k <= n && from <= n
    ensures var lo := if from < p * k then p * k else from;
      AppendedChildren(row, n, k, p, from) == if lo >= p * k + k then [] else Block(row, lo, p * k + k - lo)
    decreases n - from
  {
    if from < n {
      AppendedBlock(row, n, k, p, from + 1);
      DivBlock(from, k, p);
      var rest := AppendedChildren(row, n, k, p, from + 1);
      if from < p * k {
        assert AppendedChildren(row, n, k, p, from) == rest;
      } else if from < p * k + k {
        var hi := p * k + k;
        assert rest == if from + 1 >= hi then [] else Block(row, from + 1, hi - from - 1);
        BlockCons(row, from, hi - from);
      } else {
        assert AppendedChildren(row, n, k, p, from) == rest;
      }
    }
  }

  lemma BlockCons(row: nat, lo: nat, count: nat)
    requires count >= 1
    ensures [Coord(row, lo)] + (if count == 1 then [] else Block(row, lo + 1, count - 1)) == Block(row, lo, count)
  {
    var b := [Coord(row, lo)] + (if count == 1 then [] else Block(row, lo + 1, count - 1));
    assert forall j :: 0 <= j < count ==> b[j] == Coord(row, lo + j);
  }

  /** configure_cells, applied to a fresh cell, yields exactly the reference neighbour structure. */
  lemma ConfigureMatches(sizes: seq<nat>, r: nat, c: nat)
    requires ValidSizes(sizes) && r < |sizes| && c < sizes[r]
    ensures ConfigureCell(sizes, InitialCell(r, c), r, c) == Expected(sizes, r, c)
  {
    var outward := if r + 1 < |sizes| then Block(r + 1, c * Ratio(sizes, r + 1), Ratio(sizes, r + 1)) else [];
    if r + 1 < |sizes| {
      ChildrenMatch(sizes, r, c);
    }
    assert ConfigureCell(sizes, InitialCell(r, c), r, c).outward == outward;
    if r > 0 {
      RingNeighbours(sizes, r, c);
    } else {
      assert c == 0;
    }
  }

  /** __getitem__ wraps the columns one either side of c around ring r. */
  lemma RingNeighbours(sizes: seq<nat>, r: nat, c: nat)
    requires ValidSizes(sizes) && r < |sizes| && c < sizes[r]
    ensures Locate(sizes, r, c + 1) == Some(Coord(r, NextColumn(c, sizes[r])))
    ensures Locate(sizes, r, c - 1) == Some(Coord(r, PrevColumn(c, sizes[r])))
  {
    ModNext(c, sizes[r]);
    ModPrev(c, sizes[r]);
  }

  /** The children configure_cells appends to cell (r, c) are its block. */
  lemma ChildrenMatch(sizes: seq<nat>, r: nat, c: nat)
    requires ValidSizes(sizes) && r + 1 < |sizes| && c < sizes[r]
    ensures AppendedChildren(r + 1, sizes[r + 1], Ratio(sizes, r + 1), c, 0)
      == Block(r + 1, c * Ratio(sizes, r + 1), Ratio(sizes, r + 1))
  {
    var k := Ratio(sizes, r + 1);
    assert sizes[r + 1] == sizes[r] * k;
    MulMono(k, c + 1, sizes[r]);
    AppendedBlock(r + 1, sizes[r + 1], k, c, 0);
  }

  predicate InGrid(g: PolarGrid, x: Coord) {
    x.row < |g.grid| && x.column < |g.grid[x.row]|
  }

  predicate NoDuplicates<T(==)>(s: seq<T>) {
    forall i, j :: 0 <= i < j < |s| ==> s[i] != s[j]
  }

  /** Links are dictionary keys: cells of the grid, each at most once. */
  predicate LinksOk(g: PolarGrid, links: seq<Coord>) {
    NoDuplicates(links) && forall x <- links :: InGrid(g, x)
  }

  /** A configured polar grid: apart from its links each cell is exactly what
      configure_cells produces. */
  predicate Valid(g: PolarGrid) {
    && g.rows == |g.grid|
    && ValidSizes(Lengths(g.grid))
    && (forall r, c :: 0 <= r < |g.grid| && 0 <= c < |g.grid[r]| ==>
          g.grid[r][c].(links := []) == Expected(Lengths(g.grid), r, c))
    && (forall r, c :: 0 <= r < |g.grid| && 0 <= c < |g.grid[r]| ==> LinksOk(g, g.grid[r][c].links))
  }

  function At(g: PolarGrid, x: Coord): PolarCell
    requires InGrid(g, x)
  {
    g.grid[x.row][x.column]
  }

  lemma {:induction false} LengthsAgree(rings: seq<seq<PolarCell>>, sizes: seq<nat>, ratios: seq<nat>, k: nat)
    requires |rings| == |sizes| && 1 <= |sizes| && |sizes| - 1 <= |ratios| && k < |sizes|
    requires |rings[0]| == 1 && sizes[0] == 1
    requires forall j :: 1 <= j < |rings| ==> |rings[j]| == |rings[j - 1]| * ratios[j - 1]
    requires forall j :: 1 <= j < |sizes| ==> sizes[j] == sizes[j - 1] * ratios[j - 1]
    ensures |rings[k]| == sizes[k]
  {
    if k > 0 {
      LengthsAgree(rings, sizes, ratios, k - 1);
    }
  }

  /** Configuring freshly prepared rings gives a valid grid with no links. */
  lemma ConfiguredValid(prepared: seq<seq<PolarCell>>)
    requires ValidSizes(Lengths(prepared))
    requires forall k, c :: 0 <= k < |prepared| && 0 <= c < |prepared[k]| ==> prepared[k][c] == InitialCell(k, c)
    ensures Valid(PolarGrid(|prepared|, ConfigureCells(prepared)))
    ensures forall k, c :: 0 <= k < |prepared| && 0 <= c < |prepared[k]| ==> ConfigureCells(prepared)[k][c].links == []
  {
    var sizes := Lengths(prepared);
    var rings := ConfigureCells(prepared);
    forall k, c | 0 <= k < |rings| && 0 <= c < |rings[k]|
      ensures rings[k][c] == Expected(sizes, k, c)
    {
      ConfigureMatches(sizes, k, c);
    }
  }

  /** PolarGrid(rows): prepare the rings, then configure every cell. */
  function NewPolarGrid(rows: int, ratios: seq<nat>): (r: Result<PolarGrid>)
    requires rows - 1 <= |ratios| && PositiveRatios(ratios)
    ensures r.Success? <==> rows >= 1
    ensures r.Success? ==>
      && Valid(r.value)
      && r.value.rows == rows
      && Lengths(r.value.grid) == RingSizes(rows, ratios)
      && (forall k, c :: 0 <= k < rows && 0 <= c < |r.value.grid[k]| ==> r.value.grid[k][c].links == [])
  {
    var prepared :- PrepareGrid(rows, ratios);
    var rings := ConfigureCells(prepared);
    var sizes := Lengths(prepared);
    RingSizesValid(rows, ratios);
    assert sizes == RingSizes(rows, ratios) by {
      forall k | 0 <= k < rows ensures sizes[k] == RingSizes(rows, ratios)[k] {
        LengthsAgree(prepared, RingSizes(rows, ratios), ratios, k);
      }
    }
    ConfiguredValid(prepared);
    Success(PolarGrid(rows, rings))
  }

  // ---------------------------------------------------------------------------
  // Indexing and adjacency

  /** __getitem__ on a grid: a position inside the rings for any column. */
  function GetItem(g: PolarGrid, row: int, column: int): (r: Option<Coord>)
    requires Valid(g)
    ensures r.Some? <==> 0 <= row < g.rows
    ensures r.Some? ==> r.value.row == row && InGrid(g, r.value)
    ensures r.Some? && 0 <= column < |g.grid[row]| ==> r.value.column == column
  {
    Locate(Lengths(g.grid), row, column)
  }

  /** Columns wrap around: adding a full ring to the column names the same cell. */
  lemma GetItemWrap(g: PolarGrid, row: int, column: int)
    requires Valid(g) && 0 <= row < g.rows
    ensures GetItem(g, row, column + |g.grid[row]|) == GetItem(g, row, column)
    ensures GetItem(g, row, column - |g.grid[row]|) == GetItem(g, row, column)
  {
    var n := |g.grid[row]|;
    var q, m := column / n, column % n;
    DivUnique(column + n, n, q + 1, m);
    DivUnique(column - n, n, q - 1, m);
  }

  /** The outward neighbours of (r, c) are columns c·k … c·k + k - 1 of ring r + 1. */
  lemma OutwardBlock(g: PolarGrid, x: Coord)
    requires Valid(g) && InGrid(g, x) && x.row + 1 < g.rows
    ensures var k := Ratio(Lengths(g.grid), x.row + 1);
      At(g, x).outward == Block(x.row + 1, x.column * k, k)
  {
    assert At(g, x).(links := []) == Expected(Lengths(g.grid), x.row, x.column);
  }

  /** The centre cell has no ring neighbours and no parent; its children are all of ring 1. */
  lemma Centre(g: PolarGrid)
    requires Valid(g)
    ensures var centre := At(g, Coord(0, 0));
      && centre.cw == None && centre.ccw == None && centre.inward == None
      && (g.rows > 1 ==> centre.outward == Block(1, 0, |g.grid[1]|))
  {
    var sizes := Lengths(g.grid);
    assert At(g, Coord(0, 0)).(links := []) == Expected(sizes, 0, 0);
    if g.rows > 1 {
      assert sizes[1] == sizes[0] * Ratio(sizes, 1);
    }
  }

  /** Outside the centre, stepping clockwise then counter-clockwise (or the
      reverse) returns to the starting cell, and both steps stay in the ring. */
  lemma CwCcwInverse(g: PolarGrid, x: Coord)
    requires Valid(g) && InGrid(g, x) && x.row > 0
    ensures At(g, x).cw.Some? && At(g, x).cw.value.row == x.row && InGrid(g, At(g, x).cw.value)
    ensures At(g, x).ccw.Some? && At(g, x).ccw.value.row == x.row && InGrid(g, At(g, x).ccw.value)
    ensures At(g, At(g, x).cw.value).ccw == Some(x)
    ensures At(g, At(g, x).ccw.value).cw == Some(x)
  {
    var sizes := Lengths(g.grid);
    assert At(g, x).(links := []) == Expected(sizes, x.row, x.column);
    var y := At(g, x).cw.value;
    assert At(g, y).(links := []) == Expected(sizes, y.row, y.column);
    var z := At(g, x).ccw.value;
    assert At(g, z).(links := []) == Expected(sizes, z.row, z.column);
  }

  /** A cell's parent lists it among its children, and only its parent does. */
  lemma InwardOutward(g: PolarGrid, x: Coord, p: Coord)
    requires Valid(g) && InGrid(g, x) && InGrid(g, p) && x.row > 0
    ensures At(g, x).inward == Some(p) <==> x in At(g, p).outward
  {
    var sizes := Lengths(g.grid);
    var k := Ratio(sizes, x.row);
    assert At(g, x).(links := []) == Expected(sizes, x.row, x.column);
    assert At(g, p).(links := []) == Expected(sizes, p.row, p.column);
    DivBlock(x.column, k, p.column);
    if p.row + 1 == x.row && p.column * k <= x.column < p.column * k + k {
      assert At(g, p).outward[x.column - p.column * k] == x;
    }
  }

  /** The parent column lies in the ring inside. */
  lemma ParentInRange(sizes: seq<nat>, r: nat, c: nat)
    requires ValidSizes(sizes) && 1 <= r < |sizes| && c < sizes[r]
    ensures c / Ratio(sizes, r) < sizes[r - 1]
  {
    var k := Ratio(sizes, r);
    var p := c / k;
    DivBlock(c, k, p);
    if p >= sizes[r - 1] {
      MulMono(k, sizes[r - 1], p);
    }
  }

  /** The block of children lies in the ring outside. */
  lemma ChildrenInRange(sizes: seq<nat>, r: nat, c: nat)
    requires ValidSizes(sizes) && r + 1 < |sizes| && c < sizes[r]
    ensures c * Ratio(sizes, r + 1) + Ratio(sizes, r + 1) <= sizes[r + 1]
  {
    MulMono(Ratio(sizes, r + 1), c + 1, sizes[r]);
  }

  /** Every neighbour a cell names is a cell of the grid. */
  lemma NeighboursInGrid(g: PolarGrid, x: Coord)
    requires Valid(g) && InGrid(g, x)
    ensures forall y :: Some(y) in [At(g, x).cw, At(g, x).ccw, At(g, x).inward] ==> InGrid(g, y)
    ensures forall y <- At(g, x).outward :: InGrid(g, y)
  {
    var sizes := Lengths(g.grid);
    assert At(g, x).(links := []) == Expected(sizes, x.row, x.column);
    if x.row > 0 {
      ParentInRange(sizes, x.row, x.column);
    }
    if x.row + 1 < g.rows {
      ChildrenInRange(sizes, x.row, x.column);
    }
  }

  // ---------------------------------------------------------------------------
  // Links

  /** is_linked: `b` is one of the cells `a` has a link to. */
  predicate IsLinked(g: PolarGrid, a: Coord, b: Coord)
    requires InGrid(g, a)
  {
    b in At(g, a).links
  }

  /** get_links: the linked cells, each once, in the order they were first linked. */
  function GetLinks(g: PolarGrid, a: Coord): (r: seq<Coord>)
    requires Valid(g) && InGrid(g, a)
    ensures forall b :: b in r <==> IsLinked(g, a, b)
    ensures NoDuplicates(r) && forall b <- r :: InGrid(g, b)
  {
    At(g, a).links
  }

  /** Setting a dictionary key: a new key goes last, an existing key keeps its place. */
  function AddKey(keys: seq<Coord>, x: Coord): seq<Coord> {
    if x in keys then keys else keys + [x]
  }

  function RemoveKey(keys: seq<Coord>, x: Coord): seq<Coord> {
    if |keys| == 0 then []
    else if keys[0] == x then RemoveKey(keys[1..], x)
    else [keys[0]] + RemoveKey(keys[1..], x)
  }

  function SetLinks(g: PolarGrid, a: Coord, links: seq<Coord>): PolarGrid
    requires InGrid(g, a)
  {
    g.(grid := g.grid[a.row := g.grid[a.row][a.column := At(g, a).(links := links)]])
  }

  /** Replacing one cell's links by another valid key list keeps the grid valid and touches nothing else. */
  lemma SetLinksValid(g: PolarGrid, a: Coord, links: seq<Coord>)
    requires Valid(g) && InGrid(g, a) && LinksOk(g, links)
    ensures Valid(SetLinks(g, a, links))
    ensures Lengths(SetLinks(g, a, links).grid) == Lengths(g.grid)
    ensures forall x :: InGrid(g, x) ==>
      At(SetLinks(g, a, links), x) == if x == a then At(g, a).(links := links) else At(g, x)
  {
    var g' := SetLinks(g, a, links);
    assert Lengths(g'.grid) == Lengths(g.grid);
    assert forall x :: InGrid(g', x) <==> InGrid(g, x);
  }

  /** Cell.link: record the link on `a`, and on `b` as well when bidirectional
      (the source's recursive call with bidirectional=False adds the one key).
      Only the named links are added, and every cell keeps its earlier links in order. */
  function Link(g: PolarGrid, a: Coord, b: Coord, bidirectional: bool): (g': PolarGrid)
    requires Valid(g) && InGrid(g, a) && InGrid(g, b)
    ensures Valid(g') && g'.rows == g.rows && Lengths(g'.grid) == Lengths(g.grid)
    ensures forall x, y :: InGrid(g, x) ==>
      (IsLinked(g', x, y) <==> IsLinked(g, x, y) || (x == a && y == b) || (bidirectional && x == b && y == a))
    ensures forall x :: InGrid(g, x) ==> At(g, x).links <= At(g', x).links
  {
    var g1 := AddLink(g, a, b);
    if bidirectional then AddLink(g1, b, a) else g1
  }

  /** One direction of a link: `b` becomes a key of `a`'s links. */
  function AddLink(g: PolarGrid, a: Coord, b: Coord): (g': PolarGrid)
    requires Valid(g) && InGrid(g, a) && InGrid(g, b)
    ensures Valid(g') && g'.rows == g.rows && Lengths(g'.grid) == Lengths(g.grid)
    ensures forall x, y :: InGrid(g, x) ==> (IsLinked(g', x, y) <==> IsLinked(g, x, y) || (x == a && y == b))
    ensures forall x :: InGrid(g, x) ==> At(g, x).links <= At(g', x).links
  {
    var links := AddKey(At(g, a).links, b);
    assert LinksOk(g, links);
    SetLinksValid(g, a, links);
    SetLinks(g, a, links)
  }

  /** Cell.unlink as written deletes from an undefined name `links`, so every
      call raises NameError before touching either cell. */
  function UnlinkAsWritten(g: PolarGrid, a: Coord, b: Coord, bidirectional: bool): (r: Result<PolarGrid>)
    requires Valid(g) && InGrid(g, a) && InGrid(g, b)
    ensures r == Failure(NameError("links"))
  {
    Failure(NameError("links"))
  }

  lemma {:induction false} RemoveKeySpec(keys: seq<Coord>, x: Coord)
    ensures forall y :: y in RemoveKey(keys, x) <==> y in keys && y != x
    ensures NoDuplicates(keys) ==> NoDuplicates(RemoveKey(keys, x))
  {
    if |keys| > 0 {
      RemoveKeySpec(keys[1..], x);
      if NoDuplicates(keys) {
        assert NoDuplicates(keys[1..]);
        assert keys[0] !in keys[1..];
      }
    }
  }

  /** The evidently intended unlink: delete the key from `a` (KeyError when it
      is absent) and, when bidirectional, from `b` as well. */
  function Unlink(g: PolarGrid, a: Coord, b: Coord, bidirectional: bool): (r: Result<PolarGrid>)
    requires Valid(g) && InGrid(g, a) && InGrid(g, b)
    ensures r.Success? <==> IsLinked(g, a, b) && (bidirectional ==> a != b && IsLinked(g, b, a))
    ensures r.Failure? ==> r.error == KeyError
    ensures r.Success? ==> Valid(r.value) && r.value.rows == g.rows && Lengths(r.value.grid) == Lengths(g.grid)
    ensures r.Success? ==> forall x, y :: InGrid(g, x) ==>
      (IsLinked(r.value, x, y) <==> IsLinked(g, x, y) && !(x == a && y == b) && !(bidirectional && x == b && y == a))
    decreases bidirectional
  {
    if !IsLinked(g, a, b) then Failure(KeyError)
    else
      var links := RemoveKey(At(g, a).links, b);
      RemoveKeySpec(At(g, a).links, b);
      SetLinksValid(g, a, links);
      var g1 := SetLinks(g, a, links);
      if bidirectional then Unlink(g1, b, a, false) else Success(g1)
  }

  /** Linking two cells and then unlinking them with the source's unlink fails,
      where the evidently intended unlink succeeds. */
  lemma UnlinkAfterLinkFails(g: PolarGrid, a: Coord, b: Coord)
    requires Valid(g) && InGrid(g, a) && InGrid(g, b) && a != b
    ensures UnlinkAsWritten(Link(g, a, b, true), a, b, true).Failure?
    ensures Unlink(Link(g, a, b, true), a, b, true).Success?
  {
  }

  /** Unlinking a fresh bidirectional link between two distinct cells restores the link relation. */
  lemma LinkThenUnlink(g: PolarGrid, a: Coord, b: Coord)
    requires Valid(g) && InGrid(g, a) && InGrid(g, b) && a != b
    requires !IsLinked(g, a, b) && !IsLinked(g, b, a)
    ensures Unlink(Link(g, a, b, true), a, b, true).Success?
    ensures forall x, y :: InGrid(g, x) ==>
      (IsLinked(Unlink(Link(g, a, b, true), a, b, true).value, x, y) <==> IsLinked(g, x, y))
  {
    var g1 := Link(g, a, b, true);
    assert IsLinked(g1, a, b) && IsLinked(g1, b, a);
    var u := Unlink(g1, a, b, true);
    forall x, y | InGrid(g, x)
      ensures IsLinked(u.value, x, y) <==> IsLinked(g, x, y)
    {
      assert InGrid(g1, x);
      assert IsLinked(g1, x, y) <==> IsLinked(g, x, y) || (x == a && y == b) || (x == b && y == a);
      assert IsLinked(u.value, x, y) <==> IsLinked(g1, x, y) && !(x == a && y == b) && !(x == b && y == a);
    }
  }

  // ---------------------------------------------------------------------------
  // Neighbours

  /** PolarCell.neighbors as written reads an undefined name `outward` (and
      has no return statement), so every call raises NameError. */
  function NeighborsAsWritten(g: PolarGrid, x: Coord): (r: Result<seq<Coord>>)
    requires Valid(g) && InGrid(g, x)
    ensures r == Failure(NameError("outward"))
  {
    Failure(NameError("outward"))
  }

  function Present(o: seq<Option<Coord>>): seq<Coord> {
    if |o| == 0 then []
    else (if o[0].Some? then [o[0].value] else []) + Present(o[1..])
  }

  lemma {:induction false} PresentSpec(o: seq<Option<Coord>>)
    ensures forall y :: y in Present(o) <==> Some(y) in o
  {
    if |o| > 0 {
      PresentSpec(o[1..]);
      assert o == [o[0]] + o[1..];
    }
  }

  function Listed(o: Option<Coord>): seq<Coord> {
    if o.Some? then [o.value] else []
  }

  lemma PresentThree(a: Option<Coord>, b: Option<Coord>, c: Option<Coord>)
    ensures Present([a, b, c]) == Listed(a) + Listed(b) + Listed(c)
  {
    var o := [a, b, c];
    assert o[1..] == [b, c] && o[1..][1..] == [c] && o[1..][1..][1..] == [];
    assert Present([c]) == Listed(c) + [];
  }

  /** The evidently intended neighbors: the cw, ccw and inward cells that exist, then the outward cells. */
  function Neighbors(g: PolarGrid, x: Coord): (r: seq<Coord>)
    requires Valid(g) && InGrid(g, x)
    ensures forall y :: y in r <==>
      Some(y) in [At(g, x).cw, At(g, x).ccw, At(g, x).inward] || y in At(g, x).outward
    ensures forall y <- r :: InGrid(g, y)
    ensures var cell := At(g, x);
      r == (if cell.cw.Some? then [cell.cw.value] else [])
           + (if cell.ccw.Some? then [cell.ccw.value] else [])
           + (if cell.inward.Some? then [cell.inward.value] else [])
           + cell.outward
  {
    var cell := At(g, x);
    PresentSpec([cell.cw, cell.ccw, cell.inward]);
    PresentThree(cell.cw, cell.ccw, cell.inward);
    NeighboursInGrid(g, x);
    Present([cell.cw, cell.ccw, cell.inward]) + cell.outward
  }

  /** Being neighbours is symmetric. */
  lemma NeighborsSymmetric(g: PolarGrid, x: Coord, y: Coord)
    requires Valid(g) && InGrid(g, x) && InGrid(g, y)
    ensures y in Neighbors(g, x) <==> x in Neighbors(g, y)
  {
    if y in Neighbors(g, x) {
      NeighborOf(g, x, y);
    }
    if x in Neighbors(g, y) {
      NeighborOf(g, y, x);
    }
  }

  lemma NeighborOf(g: PolarGrid, x: Coord, y: Coord)
    requires Valid(g) && InGrid(g, x) && InGrid(g, y) && y in Neighbors(g, x)
    ensures x in Neighbors(g, y)
  {
    var cx := At(g, x);
    if x.row == 0 {
      Centre(g);
      assert y in cx.outward;
      NeighboursInGrid(g, x);
      OutwardBlock(g, x);
      InwardOutward(g, y, x);
    } else if cx.cw == Some(y) {
      CwCcwInverse(g, x);
    } else if cx.ccw == Some(y) {
      CwCcwInverse(g, x);
    } else if cx.inward == Some(y) {
      InwardOutward(g, x, y);
    } else {
      assert y in cx.outward;
      OutwardBlock(g, x);
      InwardOutward(g, y, x);
    }
  }

  // ---------------------------------------------------------------------------
  // Traversal, dead ends and rendering

  function Flatten(rings: seq<seq<PolarCell>>): seq<PolarCell> {
    if |rings| == 0 then [] else Flatten(rings[..|rings| - 1]) + rings[|rings| - 1]
  }

  function Total(sizes: seq<nat>): nat {
    if |sizes| == 0 then 0 else Total(sizes[..|sizes| - 1]) + sizes[|sizes| - 1]
  }

  /** Row-major order on cell positions. */
  predicate Before(a: PolarCell, b: PolarCell) {
    a.row < b.row || (a.row == b.row && a.column < b.column)
  }

  predicate Positioned(rings: seq<seq<PolarCell>>) {
    forall r, c :: 0 <= r < |rings| && 0 <= c < |rings[r]| ==> rings[r][c].row == r && rings[r][c].column == c
  }

  lemma {:induction false} FlattenSpec(grid: seq<seq<PolarCell>>, n: nat)
    requires n <= |grid| && Positioned(grid)
    ensures var cells := Flatten(grid[..n]);
      && |cells| == Total(Lengths(grid[..n]))
      && (forall i, j :: 0 <= i < j < |cells| ==> Before(cells[i], cells[j]))
      && (forall i :: 0 <= i < |cells| ==>
            cells[i].row < n && cells[i].column < |grid[cells[i].row]| && cells[i] == grid[cells[i].row][cells[i].column])
      && (forall r, c :: 0 <= r < n && 0 <= c < |grid[r]| ==> grid[r][c] in cells)
  {
    if n > 0 {
      FlattenSpec(grid, n - 1);
      assert grid[..n][..n - 1] == grid[..n - 1];
      assert Lengths(grid[..n])[..n - 1] == Lengths(grid[..n - 1]);
      var prev := Flatten(grid[..n - 1]);
      var last := grid[n - 1];
      assert Flatten(grid[..n]) == prev + last;
      forall r, c | 0 <= r < n && 0 <= c < |grid[r]| ensures grid[r][c] in prev + last {
        if r == n - 1 {
          assert (prev + last)[|prev| + c] == grid[r][c];
        }
      }
    }
  }

  /** get_cells: every cell exactly once, ring by ring from the centre, each ring in column order. */
  function GetCells(g: PolarGrid): (cells: seq<PolarCell>)
    requires Valid(g)
    ensures |cells| == Total(Lengths(g.grid))
    ensures forall i, j :: 0 <= i < j < |cells| ==> Before(cells[i], cells[j])
    ensures forall i :: 0 <= i < |cells| ==>
      InGrid(g, Coord(cells[i].row, cells[i].column)) && cells[i] == At(g, Coord(cells[i].row, cells[i].column))
    ensures forall x :: InGrid(g, x) ==> At(g, x) in cells
  {
    assert Positioned(g.grid) by {
      forall r, c | 0 <= r < |g.grid| && 0 <= c < |g.grid[r]| ensures g.grid[r][c].row == r && g.grid[r][c].column == c {
        assert g.grid[r][c].(links := []) == Expected(Lengths(g.grid), r, c);
      }
    }
    FlattenSpec(g.grid, |g.grid|);
    assert g.grid[..|g.grid|] == g.grid;
    Flatten(g.grid)
  }

  function OneLink(cells: seq<PolarCell>): seq<PolarCell> {
    if |cells| == 0 then []
    else (if |cells[0].links| == 1 then [cells[0]] else []) + OneLink(cells[1..])
  }

  lemma FilterOneLink(cells: seq<PolarCell>)
    ensures forall c :: c in OneLink(cells) <==> c in cells && |c.links| == 1
    ensures (forall i, j :: 0 <= i < j < |cells| ==> Before(cells[i], cells[j])) ==>
      forall i, j :: 0 <= i < j < |OneLink(cells)| ==> Before(OneLink(cells)[i], OneLink(cells)[j])
  {
    OneLinkMembers(cells);
    if forall i, j :: 0 <= i < j < |cells| ==> Before(cells[i], cells[j]) {
      OneLinkOrder(cells);
    }
  }

  /** The filter keeps exactly the cells with one link. */
  lemma {:induction false} OneLinkMembers(cells: seq<PolarCell>)
    ensures forall c :: c in OneLink(cells) <==> c in cells && |c.links| == 1
  {
    if |cells| > 0 {
      OneLinkMembers(cells[1..]);
      assert forall c :: c in cells <==> c == cells[0] || c in cells[1..];
    }
  }

  /** ... and keeps them in traversal order. */
  lemma {:induction false} OneLinkOrder(cells: seq<PolarCell>)
    requires forall i, j :: 0 <= i < j < |cells| ==> Before(cells[i], cells[j])
    ensures forall i, j :: 0 <= i < j < |OneLink(cells)| ==> Before(OneLink(cells)[i], OneLink(cells)[j])
  {
    if |cells| > 0 {
      var rest := OneLink(cells[1..]);
      forall i, j | 0 <= i < j < |cells[1..]| ensures Before(cells[1..][i], cells[1..][j]) {
        assert cells[1..][i] == cells[i + 1] && cells[1..][j] == cells[j + 1];
      }
      OneLinkOrder(cells[1..]);
      OneLinkMembers(cells[1..]);
      forall c | c in rest ensures Before(cells[0], c) {
        var k :| 0 <= k < |cells[1..]| && cells[1..][k] == c;
        assert cells[k + 1] == c;
      }
    }
  }

  /** deadends: exactly the cells with one link, in traversal order. */
  function Deadends(g: PolarGrid): (r: seq<PolarCell>)
    requires Valid(g)
    ensures forall x :: InGrid(g, x) ==> (At(g, x) in r <==> |At(g, x).links| == 1)
    ensures forall c <- r :: InGrid(g, Coord(c.row, c.column)) && c == At(g, Coord(c.row, c.column))
    ensures forall i, j :: 0 <= i < j < |r| ==> Before(r[i], r[j])
  {
    var cells := GetCells(g);
    FilterOneLink(cells);
    OneLink(cells)
  }

  /** str(cell) is "[ ]"; str(grid) is one line per ring. */
  const CellText: string := "[ ]"

  function RingText(n: nat): (s: string)
    ensures |s| == 3 * n
    ensures forall i :: 0 <= i < |s| ==> s[i] == CellText[i % 3]
  {
    if n == 0 then [] else CellText + RingText(n - 1)
  }

  function RenderRings(sizes: seq<nat>): string {
    if |sizes| == 0 then [] else RenderRings(sizes[..|sizes| - 1]) + RingText(sizes[|sizes| - 1]) + "\n"
  }

  /** __str__ of the grid. */
  function Render(g: PolarGrid): (s: string)
    requires Valid(g)
    ensures CountCells(s, 0) == Lengths(g.grid)
  {
    RenderRoundTrip(Lengths(g.grid), "");
    assert RenderRings(Lengths(g.grid)) + "" == RenderRings(Lengths(g.grid));
    assert Lengths(g.grid) + [] == Lengths(g.grid);
    RenderRings(Lengths(g.grid))
  }

  /** Reading a rendering back: the number of three-character cells on each line. */
  function CountCells(s: string, current: nat): seq<nat>
    decreases |s|
  {
    if |s| == 0 then []
    else if s[0] == '\n' then [current / 3] + CountCells(s[1..], 0)
    else CountCells(s[1..], current + 1)
  }

  lemma {:induction false} CountRing(n: nat, rest: string, current: nat)
    ensures CountCells(RingText(n) + rest, current) == CountCells(rest, current + 3 * n)
  {
    if n > 0 {
      var t := RingText(n - 1) + rest;
      assert RingText(n) + rest == CellText + t by {
        assert RingText(n) == CellText + RingText(n - 1);
      }
      CountCell(t, current);
      CountRing(n - 1, rest, current + 3);
    } else {
      assert RingText(n) + rest == rest;
    }
  }

  /** One "[ ]" adds three characters to the running count. */
  lemma CountCell(t: string, current: nat)
    ensures CountCells(CellText + t, current) == CountCells(t, current + 3)
  {
    var u := CellText + t;
    assert CellText == ['[', ' ', ']'];
    assert u[0] == '[' && u[1..] == [' ', ']'] + t;
    assert CountCells(u, current) == CountCells(u[1..], current + 1);
    var v := u[1..];
    assert v[0] == ' ' && v[1..] == [']'] + t;
    assert CountCells(v, current + 1) == CountCells(v[1..], current + 2);
    var w := v[1..];
    assert w[0] == ']' && w[1..] == t;
    assert CountCells(w, current + 2) == CountCells(t, current + 3);
  }

  lemma {:induction false} RenderRoundTrip(sizes: seq<nat>, rest: string)
    ensures CountCells(RenderRings(sizes) + rest, 0) == sizes + CountCells(rest, 0)
    decreases |sizes|
  {
    if |sizes| == 0 {
      assert RenderRings(sizes) + rest == rest;
    } else {
      var n := sizes[|sizes| - 1];
      var front := sizes[..|sizes| - 1];
      var rest' := RingText(n) + ("\n" + rest);
      assert RenderRings(sizes) + rest == RenderRings(front) + rest' by {
        assert RenderRings(sizes) == RenderRings(front) + RingText(n) + "\n";
      }
      RenderRoundTrip(front, rest');
      assert CountCells(rest', 0) == [n] + CountCells(rest, 0) by {
        CountRing(n, "\n" + rest, 0);
        assert ("\n" + rest)[0] == '\n' && ("\n" + rest)[1..] == rest;
        assert (3 * n) / 3 == n;
      }
      assert front + ([n] + CountCells(rest, 0)) == sizes + CountCells(rest, 0) by {
        assert front + [n] == sizes;
      }
    }
  }

  /** Reading a rendering back: the text of each line, without its newline. */
  function Lines(s: string, current: string): seq<string>
    decreases |s|
  {
    if |s| == 0 then []
    else if s[0] == '\n' then [current] + Lines(s[1..], [])
    else Lines(s[1..], current + [s[0]])
  }

  /** Text without a newline joins the line being read. */
  lemma {:induction false} LinesJoin(w: string, rest: string, current: string)
    requires '\n' !in w
    ensures Lines(w + rest, current) == Lines(rest, current + w)
    decreases |w|
  {
    if |w| > 0 {
      assert (w + rest)[0] == w[0] && (w + rest)[1..] == w[1..] + rest;
      LinesJoin(w[1..], rest, current + [w[0]]);
      assert current + [w[0]] + w[1..] == current + w;
    } else {
      assert w + rest == rest && current + w == current;
    }
  }

  lemma NoNewline(n: nat)
    ensures '\n' !in RingText(n)
  {
    forall i | 0 <= i < |RingText(n)|
      ensures RingText(n)[i] != '\n'
    {
      assert CellText[i % 3] in "[ ]";
    }
  }

  /** A ring's text and its newline read back as one line. */
  lemma RingLine(n: nat, rest: string)
    ensures Lines(RingText(n) + ("\n" + rest), []) == [RingText(n)] + Lines(rest, [])
  {
    NoNewline(n);
    LinesJoin(RingText(n), "\n" + rest, []);
    assert ("\n" + rest)[0] == '\n' && ("\n" + rest)[1..] == rest;
    assert [] + RingText(n) == RingText(n);
  }

  /** The text of each ring of a rendering, one line per ring. */
  function RingTexts(sizes: seq<nat>): (lines: seq<string>)
    ensures |lines| == |sizes|
  {
    seq(|sizes|, k requires 0 <= k < |sizes| => RingText(sizes[k]))
  }

  lemma {:induction false} RenderLines(sizes: seq<nat>, rest: string)
    ensures Lines(RenderRings(sizes) + rest, []) == RingTexts(sizes) + Lines(rest, [])
    decreases |sizes|
  {
    if |sizes| == 0 {
      assert RenderRings(sizes) + rest == rest;
    } else {
      var n := sizes[|sizes| - 1];
      var front := sizes[..|sizes| - 1];
      var rest' := RingText(n) + ("\n" + rest);
      assert RenderRings(sizes) + rest == RenderRings(front) + rest';
      RenderLines(front, rest');
      RingLine(n, rest);
      assert RingTexts(front) + [RingText(n)] == RingTexts(sizes);
    }
  }

  /** Rendering shows every ring on its own line with one "[ ]" per cell:
      line k of str(grid) is the text of ring k, and counting its cells gives
      back the ring sizes. */
  lemma RenderShowsRings(g: PolarGrid)
    requires Valid(g)
    ensures CountCells(Render(g), 0) == Lengths(g.grid)
    ensures var lines := Lines(Render(g), []);
      && |lines| == |g.grid|
      && forall k :: 0 <= k < |lines| ==> lines[k] == RingText(|g.grid[k]|)
  {
    RenderLines(Lengths(g.grid), "");
    assert Render(g) + "" == Render(g);
    assert RingTexts(Lengths(g.grid)) + [] == RingTexts(Lengths(g.grid));
  }
}

=== FILE: navigation.dfy ===
/** Moving an actor through the polar maze (components.py): a position that
    changes only along linked passages. */
module Navigation {
  import opened Wrappers
  import opened PolarMaze
  import opened Arith

  /** PolarGridNavigation: the grid and the cell the actor is in. */
  datatype Navigator = Navigator(grid: PolarGrid, inCell: Coord)

  predicate Placed(nav: Navigator) {
    PolarMaze.Valid(nav.grid) && InGrid(nav.grid, nav.inCell)
  }

  /** Every link is recorded in both directions, as Cell.link does by default. */
  ghost predicate SymmetricLinks(g: PolarGrid)
    requires PolarMaze.Valid(g)
  {
    forall x, y :: InGrid(g, x) && InGrid(g, y) && IsLinked(g, x, y) ==> IsLinked(g, y, x)
  }

  /** A grid fresh from the constructor has symmetric links, and bidirectional
      linking keeps them symmetric. */
  lemma LinkKeepsSymmetric(g: PolarGrid, a: Coord, b: Coord)
    requires PolarMaze.Valid(g) && InGrid(g, a) && InGrid(g, b) && SymmetricLinks(g)
    ensures SymmetricLinks(Link(g, a, b, true))
  {
  }

  /** The keyboard state process_keypress reads: left, up, down and the number keys 1 to 6. */
  datatype Keyboard = Keyboard(left: bool, up: bool, down: bool, numbers: seq<bool>)

  /** Take one step towards `next` if it exists and is linked to the current cell. */
  function Step(nav: Navigator, next: Option<Coord>): (r: Navigator)
    requires Placed(nav)
    ensures r.grid == nav.grid
    ensures r.inCell != nav.inCell ==> next == Some(r.inCell) && IsLinked(nav.grid, nav.inCell, r.inCell)
    ensures next.Some? && IsLinked(nav.grid, nav.inCell, next.value) ==> r.inCell == next.value
  {
    if next.Some? && IsLinked(nav.grid, nav.inCell, next.value) then nav.(inCell := next.value) else nav
  }

  /** The moves of the navigator: each goes to the named neighbour through a
      passage or stays put, and changes nothing else. */
  function MoveInward(nav: Navigator): (r: Navigator)
    requires Placed(nav)
    ensures Placed(r) && r.grid == nav.grid
    ensures var cell := At(nav.grid, nav.inCell);
      r.inCell == if cell.inward.Some? && IsLinked(nav.grid, nav.inCell, cell.inward.value)
                  then cell.inward.value else nav.inCell
  {
    NeighboursInGrid(nav.grid, nav.inCell);
    Step(nav, At(nav.grid, nav.inCell).inward)
  }

  function MoveCcw(nav: Navigator): (r: Navigator)
    requires Placed(nav)
    ensures Placed(r) && r.grid == nav.grid
    ensures var cell := At(nav.grid, nav.inCell);
      r.inCell == if cell.ccw.Some? && IsLinked(nav.grid, nav.inCell, cell.ccw.value)
                  then cell.ccw.value else nav.inCell
  {
    NeighboursInGrid(nav.grid, nav.inCell);
    Step(nav, At(nav.grid, nav.inCell).ccw)
  }

  function MoveCw(nav: Navigator): (r: Navigator)
    requires Placed(nav)
    ensures Placed(r) && r.grid == nav.grid
    ensures var cell := At(nav.grid, nav.inCell);
      r.inCell == if cell.cw.Some? && IsLinked(nav.grid, nav.inCell, cell.cw.value)
                  then cell.cw.value else nav.inCell
  {
    NeighboursInGrid(nav.grid, nav.inCell);
    Step(nav, At(nav.grid, nav.inCell).cw)
  }

  /** move_outward(n): to the n-th child if there is one and it is linked. */
  function MoveOutward(nav: Navigator, n: nat): (r: Navigator)
    requires Placed(nav)
    ensures Placed(r) && r.grid == nav.grid
    ensures var out := At(nav.grid, nav.inCell).outward;
      r.inCell == if n < |out| && IsLinked(nav.grid, nav.inCell, out[n]) then out[n] else nav.inCell
  {
    var out := At(nav.grid, nav.inCell).outward;
    NeighboursInGrid(nav.grid, nav.inCell);
    if n < |out| then Step(nav, Some(out[n])) else nav
  }

  /** The first pressed number key, counting from 0. */
  function FirstPressed(numbers: seq<bool>): (r: Option<nat>)
    ensures r.Some? <==> true in numbers
    ensures r.Some? ==> r.value < |numbers| && numbers[r.value] && forall i :: 0 <= i < r.value ==> !numbers[i]
  {
    if |numbers| == 0 then None
    else if numbers[0] then Some(0)
    else match FirstPressed(numbers[1..])
      case None => None
      case Some(i) => Some(i + 1)
  }

  /** process_keypress: left goes inward, else up goes counter-clockwise, else
      down goes clockwise, else the lowest pressed number key picks a child. */
  function ProcessKeypress(nav: Navigator, keyboard: Keyboard): (r: Navigator)
    requires Placed(nav) && |keyboard.numbers| == 6
    ensures Placed(r) && r.grid == nav.grid
    ensures r.inCell == nav.inCell || r.inCell in GetLinkedCells(nav)
    ensures !keyboard.left && !keyboard.up && !keyboard.down && true !in keyboard.numbers ==> r == nav
    ensures keyboard.left ==> r == MoveInward(nav)
    ensures !keyboard.left && keyboard.up ==> r == MoveCcw(nav)
    ensures !keyboard.left && !keyboard.up && keyboard.down ==> r == MoveCw(nav)
    ensures !keyboard.left && !keyboard.up && !keyboard.down ==>
      r == match FirstPressed(keyboard.numbers)
           case None => nav
           case Some(n) => MoveOutward(nav, n)
  {
    MovesLandLinked(nav);
    if keyboard.left then MoveInward(nav)
    else if keyboard.up then MoveCcw(nav)
    else if keyboard.down then MoveCw(nav)
    else match FirstPressed(keyboard.numbers)
      case None => nav
      case Some(n) => MoveOutward(nav, n)
  }

  /** The moves reach exactly the linked neighbours: each move ends at the
      start or at a linked cell, and for every linked cell some move reaches it. */
  lemma StepsAreLinked(nav: Navigator)
    requires Placed(nav)
    ensures forall n: nat :: MoveOutward(nav, n).inCell == nav.inCell || MoveOutward(nav, n).inCell in GetLinkedCells(nav)
    ensures MoveInward(nav).inCell == nav.inCell || MoveInward(nav).inCell in GetLinkedCells(nav)
    ensures MoveCcw(nav).inCell == nav.inCell || MoveCcw(nav).inCell in GetLinkedCells(nav)
    ensures MoveCw(nav).inCell == nav.inCell || MoveCw(nav).inCell in GetLinkedCells(nav)
    ensures forall y <- GetLinkedCells(nav) ::
      || MoveInward(nav).inCell == y || MoveCcw(nav).inCell == y || MoveCw(nav).inCell == y
      || exists n: nat :: MoveOutward(nav, n).inCell == y
  {
    MovesLandLinked(nav);
    var out := At(nav.grid, nav.inCell).outward;
    forall y | y in GetLinkedCells(nav)
      ensures || MoveInward(nav).inCell == y || MoveCcw(nav).inCell == y || MoveCw(nav).inCell == y
              || exists n: nat :: MoveOutward(nav, n).inCell == y
    {
      if y in out {
        var n :| 0 <= n < |out| && out[n] == y;
        assert MoveOutward(nav, n).inCell == y;
      }
    }
  }

  /** Each move ends at the start or at a linked cell. */
  lemma MovesLandLinked(nav: Navigator)
    requires Placed(nav)
    ensures forall n: nat :: MoveOutward(nav, n).inCell == nav.inCell || MoveOutward(nav, n).inCell in GetLinkedCells(nav)
    ensures MoveInward(nav).inCell == nav.inCell || MoveInward(nav).inCell in GetLinkedCells(nav)
    ensures MoveCcw(nav).inCell == nav.inCell || MoveCcw(nav).inCell in GetLinkedCells(nav)
    ensures MoveCw(nav).inCell == nav.inCell || MoveCw(nav).inCell in GetLinkedCells(nav)
  {
  }

  /** The neighbour `o`, listed when it exists and is joined to the current cell by a passage. */
  function LinkedListed(nav: Navigator, o: Option<Coord>): seq<Coord>
    requires Placed(nav)
  {
    if o.Some? && IsLinked(nav.grid, nav.inCell, o.value) then [o.value] else []
  }

  /** get_linked_cells as written: its call to neighbors raises NameError, so
      it never returns. */
  function GetLinkedCellsAsWritten(nav: Navigator): (r: Result<seq<Coord>>)
    requires Placed(nav)
    ensures r == Failure(NameError("outward"))
  {
    match NeighborsAsWritten(nav.grid, nav.inCell)
    case Failure(e) => Failure(e)
    case Success(_) => assert false; Success([])
  }

  /** get_linked_cells: the neighbours joined to the current cell by a
      passage, in neighbour order (cw, ccw, inward, then the outward cells),
      using the corrected neighbors. */
  function GetLinkedCells(nav: Navigator): (r: seq<Coord>)
    requires Placed(nav)
    ensures forall y :: y in r <==> y in Neighbors(nav.grid, nav.inCell) && IsLinked(nav.grid, nav.inCell, y)
    ensures forall y <- r :: InGrid(nav.grid, y)
  {
    LinkedFilterSpec(nav, Neighbors(nav.grid, nav.inCell));
    LinkedFilter(nav, Neighbors(nav.grid, nav.inCell))
  }

  /** get_linked_cells lists the linked cw, ccw and inward cells, in that
      order and each at most once, then the linked outward cells in order. */
  lemma LinkedCellsInOrder(nav: Navigator)
    requires Placed(nav)
    ensures var cell := At(nav.grid, nav.inCell);
      GetLinkedCells(nav) ==
        LinkedListed(nav, cell.cw) + LinkedListed(nav, cell.ccw) + LinkedListed(nav, cell.inward)
        + LinkedFilter(nav, cell.outward)
  {
    var cell := At(nav.grid, nav.inCell);
    var a, b, c := Listed(cell.cw), Listed(cell.ccw), Listed(cell.inward);
    assert Neighbors(nav.grid, nav.inCell) == a + b + c + cell.outward;
    LinkedFilterAppend(nav, a + b + c, cell.outward);
    LinkedFilterAppend(nav, a + b, c);
    LinkedFilterAppend(nav, a, b);
    FilterListed(nav, cell.cw);
    FilterListed(nav, cell.ccw);
    FilterListed(nav, cell.inward);
  }

  lemma FilterListed(nav: Navigator, o: Option<Coord>)
    requires Placed(nav)
    ensures LinkedFilter(nav, Listed(o)) == LinkedListed(nav, o)
  {
    LinkedFilterSpec(nav, Listed(o));
  }

  function LinkedFilter(nav: Navigator, cells: seq<Coord>): (r: seq<Coord>)
    requires Placed(nav)
    ensures |r| <= |cells|
    ensures forall y <- r :: y in cells && IsLinked(nav.grid, nav.inCell, y)
  {
    if |cells| == 0 then []
    else (if IsLinked(nav.grid, nav.inCell, cells[0]) then [cells[0]] else []) + LinkedFilter(nav, cells[1..])
  }

  /** The filter loop keeps exactly the linked cells, one at a time and in order. */
  lemma {:induction false} LinkedFilterSpec(nav: Navigator, cells: seq<Coord>)
    requires Placed(nav)
    ensures forall y :: y in LinkedFilter(nav, cells) <==> y in cells && IsLinked(nav.grid, nav.inCell, y)
    ensures |cells| == 0 ==> LinkedFilter(nav, cells) == []
    ensures |cells| == 1 ==>
      LinkedFilter(nav, cells) == if IsLinked(nav.grid, nav.inCell, cells[0]) then cells else []
  {
    if |cells| > 0 {
      LinkedFilterSpec(nav, cells[1..]);
      assert cells == [cells[0]] + cells[1..];
    }
  }

  /** Filtering a list in two parts is filtering each part. */
  lemma {:induction false} LinkedFilterAppend(nav: Navigator, a: seq<Coord>, b: seq<Coord>)
    requires Placed(nav)
    ensures LinkedFilter(nav, a + b) == LinkedFilter(nav, a) + LinkedFilter(nav, b)
    decreases |a|
  {
    if |a| > 0 {
      assert (a + b)[0] == a[0] && (a + b)[1..] == a[1..] + b;
      LinkedFilterAppend(nav, a[1..], b);
    } else {
      assert a + b == b;
    }
  }

  /** move_to_cell. */
  function MoveToCell(nav: Navigator, cell: Coord): (r: Navigator)
    requires Placed(nav) && InGrid(nav.grid, cell)
    ensures Placed(r) && r.grid == nav.grid && r.inCell == cell
  {
    nav.(inCell := cell)
  }

  /** RandomMazeAI.move: stay when no passage leads anywhere, otherwise move to
      the linked cell chosen by `pick` (random.choice in the source). */
  function RandomMove(nav: Navigator, pick: nat): (r: Navigator)
    requires Placed(nav)
    ensures Placed(r) && r.grid == nav.grid
    ensures |GetLinkedCells(nav)| == 0 ==> r == nav
    ensures |GetLinkedCells(nav)| > 0 ==> r.inCell in GetLinkedCells(nav)
  {
    var options := GetLinkedCells(nav);
    if |options| == 0 then nav else MoveToCell(nav, options[pick % |options|])
  }

  /** Every linked cell is a possible outcome of a random move. */
  lemma RandomMoveCoversLinks(nav: Navigator, y: Coord)
    requires Placed(nav) && y in GetLinkedCells(nav)
    ensures exists pick: nat :: RandomMove(nav, pick).inCell == y
  {
    var options := GetLinkedCells(nav);
    var i :| 0 <= i < |options| && options[i] == y;
    DivUnique(i, |options|, 0, i);
    assert RandomMove(nav, i).inCell == options[i];
  }

  /** With two-way links, a clockwise move is undone by a counter-clockwise one and vice versa. */
  lemma CwThenCcw(nav: Navigator)
    requires Placed(nav) && SymmetricLinks(nav.grid) && MoveCw(nav) != nav
    ensures MoveCcw(MoveCw(nav)) == nav
  {
    var g, x := nav.grid, nav.inCell;
    var y := MoveCw(nav).inCell;
    assert At(g, x).cw == Some(y) && IsLinked(g, x, y);
    Centre(g);
    CwCcwInverse(g, x);
    assert IsLinked(g, y, x);
  }

  lemma CcwThenCw(nav: Navigator)
    requires Placed(nav) && SymmetricLinks(nav.grid) && MoveCcw(nav) != nav
    ensures MoveCw(MoveCcw(nav)) == nav
  {
    var g, x := nav.grid, nav.inCell;
    var y := MoveCcw(nav).inCell;
    assert At(g, x).ccw == Some(y) && IsLinked(g, x, y);
    Centre(g);
    CwCcwInverse(g, x);
    assert IsLinked(g, y, x);
  }

  /** With two-way links, stepping out to a child and back in returns to the start. */
  lemma OutwardThenInward(nav: Navigator, n: nat)
    requires Placed(nav) && SymmetricLinks(nav.grid) && MoveOutward(nav, n) != nav
    ensures MoveInward(MoveOutward(nav, n)) == nav
  {
    var g, x := nav.grid, nav.inCell;
    var y := MoveOutward(nav, n).inCell;
    assert y in At(g, x).outward && IsLinked(g, x, y);
    NeighboursInGrid(g, x);
    assert y.row > 0 by {
      assert At(g, x).(links := []) == Expected(Lengths(g.grid), x.row, x.column);
    }
    InwardOutward(g, y, x);
    assert IsLinked(g, y, x);
  }

  /** With two-way links, stepping in to the parent can be undone by the
      outward move whose index is this cell's place among the parent's children. */
  lemma InwardThenOutward(nav: Navigator)
    requires Placed(nav) && SymmetricLinks(nav.grid)
    requires MoveInward(nav).inCell != nav.inCell
    ensures exists n: nat :: MoveOutward(MoveInward(nav), n) == nav
  {
    var x := nav.inCell;
    var p := MoveInward(nav).inCell;
    InwardOutward(nav.grid, x, p);
    var out := At(nav.grid, p).outward;
    var n :| 0 <= n < |out| && out[n] == x;
    assert MoveOutward(MoveInward(nav), n) == nav;
  }
}

=== FILE: textbox.dfy ===
/** The numeric input box of pgzero_textbox.py: a clickable rectangle that,
    while active, collects digit keys and hands the typed number over on RETURN.
    Rendering (font surfaces, colours on screen, resizing) is not modelled. */
module TextBox {
  import opened Wrappers

  /** pygame key codes: RETURN and BACKSPACE, and the top-row digits '0'..'9'. */
  const ReturnKey: int := 13
  const BackspaceKey: int := 8
  const DigitZeroKey: int := 48
  const DigitNineKey: int := 57

  /** pygame.Rect(x, y, w, h). */
  datatype Rect = Rect(x: int, y: int, w: int, h: int)

  datatype Color = Inactive | Active

  datatype InputBox = InputBox(rect: Rect, color: Color, text: string, active: bool, enteredText: Option<string>)

  /** Rect.collidepoint: the left and top edges are inside, the right and bottom ones are not. */
  predicate CollidePoint(r: Rect, px: int, py: int) {
    r.x <= px < r.x + r.w && r.y <= py < r.y + r.h
  }

  predicate IsDigit(c: char) {
    '0' <= c <= '9'
  }

  predicate AllDigits(s: string) {
    forall i :: 0 <= i < |s| ==> IsDigit(s[i])
  }

  /** The colour follows the active flag. */
  predicate Inv(b: InputBox) {
    b.color == (if b.active then Active else Inactive)
  }

  /** `InputBox.__init__`: inactive, nothing entered yet. */
  function New(x: int, y: int, w: int, h: int, text: string): (b: InputBox)
    ensures Inv(b) && !b.active && b.enteredText == None && b.text == text
    ensures b.rect == Rect(x, y, w, h)
  {
    InputBox(Rect(x, y, w, h), Inactive, text, false, None)
  }

  /** `get_entered_text`: hand over what RETURN stored, leaving nothing pending. */
  function GetEnteredText(b: InputBox): (r: (Option<string>, InputBox))
    ensures r.0 == b.enteredText
    ensures r.1.enteredText == None
    ensures r.1.(enteredText := b.enteredText) == b
  {
    (b.enteredText, b.(enteredText := None))
  }

  /** Asking twice in a row: the second call finds nothing. */
  lemma SecondGetIsNone(b: InputBox)
    ensures GetEnteredText(GetEnteredText(b).1).0 == None
    ensures GetEnteredText(GetEnteredText(b).1).1 == GetEnteredText(b).1
  {
  }

  /** `on_mouse_down`: a click inside toggles the box, a click outside deactivates it. */
  function OnMouseDown(b: InputBox, px: int, py: int): (r: InputBox)
    ensures Inv(r)
    ensures r.active <==> CollidePoint(b.rect, px, py) && !b.active
    ensures r.text == b.text && r.enteredText == b.enteredText && r.rect == b.rect
  {
    var active := if CollidePoint(b.rect, px, py) then !b.active else false;
    b.(active := active, color := if active then Active else Inactive)
  }

  /** Two clicks inside the box leave it as it was; a click outside after any
      click leaves it inactive. */
  lemma ClickTwiceInside(b: InputBox, px: int, py: int, qx: int, qy: int)
    requires Inv(b) && CollidePoint(b.rect, px, py)
    ensures OnMouseDown(OnMouseDown(b, px, py), px, py) == b
    ensures !CollidePoint(b.rect, qx, qy) ==> !OnMouseDown(OnMouseDown(b, px, py), qx, qy).active
  {
  }

  /** `text[:-1]`. */
  function DropLast(s: string): (r: string)
    ensures |s| == 0 ==> r == []
    ensures |s| > 0 ==> |r| == |s| - 1 && r + [s[|s| - 1]] == s
  {
    if |s| == 0 then [] else s[..|s| - 1]
  }

  /** `on_key_down`: an inactive box ignores the key; RETURN moves the text
      to the entered slot; BACKSPACE drops the last character; a digit key
      appends its digit; every other key is ignored. */
  function OnKeyDown(b: InputBox, key: int): (r: InputBox)
    ensures !b.active ==> r == b
    ensures r.active == b.active && r.color == b.color && r.rect == b.rect
    ensures b.active && key == ReturnKey ==> r.enteredText == Some(b.text) && r.text == []
    ensures b.active && key != ReturnKey ==> r.enteredText == b.enteredText
    ensures b.active && key == BackspaceKey ==> r.text == DropLast(b.text)
    ensures b.active && DigitZeroKey <= key <= DigitNineKey
            ==> r.text == b.text + [key as char] && IsDigit(key as char)
    ensures key != ReturnKey && key != BackspaceKey && !(DigitZeroKey <= key <= DigitNineKey) ==> r == b
  {
    if !b.active then b
    else if key == ReturnKey then b.(enteredText := Some(b.text), text := [])
    else if key == BackspaceKey then b.(text := DropLast(b.text))
    else if DigitZeroKey <= key <= DigitNineKey then b.(text := b.text + [key as char])
    else b
  }

  /** The box only ever holds digits: digit-only text stays digit-only, and
      whatever RETURN hands over is digit-only too. */
  lemma KeyKeepsDigits(b: InputBox, key: int)
    requires AllDigits(b.text)
    requires b.enteredText.Some? ==> AllDigits(b.enteredText.value)
    ensures AllDigits(OnKeyDown(b, key).text)
    ensures OnKeyDown(b, key).enteredText.Some? ==> AllDigits(OnKeyDown(b, key).enteredText.value)
  {
  }

  /** The key code of a digit character. */
  function KeyOf(c: char): int {
    c as int
  }

  /** A sequence of key presses. */
  function Type(b: InputBox, keys: seq<int>): InputBox
    decreases |keys|
  {
    if |keys| == 0 then b else Type(OnKeyDown(b, keys[0]), keys[1..])
  }

  function KeysOf(s: string): (r: seq<int>)
    ensures |r| == |s|
    ensures forall i :: 0 <= i < |s| ==> r[i] == KeyOf(s[i])
  {
    if |s| == 0 then [] else [KeyOf(s[0])] + KeysOf(s[1..])
  }

  /** Typing the digits of a number into an active box appends exactly them. */
  lemma {:induction false} TypingDigitsAppends(b: InputBox, digits: string)
    requires b.active && AllDigits(digits)
    ensures Type(b, KeysOf(digits)) == b.(text := b.text + digits)
    decreases |digits|
  {
    if |digits| > 0 {
      var d, rest := digits[0], digits[1..];
      assert digits == [d] + rest;
      assert KeysOf(digits) == [KeyOf(d)] + KeysOf(rest);
      TypeCons(b, KeyOf(d), KeysOf(rest));
      DigitKey(b, d);
      assert AllDigits(rest) by {
        forall i | 0 <= i < |rest| ensures IsDigit(rest[i]) { assert rest[i] == digits[i + 1]; }
      }
      TypingDigitsAppends(b.(text := b.text + [d]), rest);
      assert (b.text + [d]) + rest == b.text + digits by {
        SeqAssoc(b.text, [d], rest);
      }
    }
  }

  lemma SeqAssoc(a: string, b: string, c: string)
    ensures (a + b) + c == a + (b + c)
  {
  }

  lemma TypeCons(b: InputBox, k: int, keys: seq<int>)
    ensures Type(b, [k] + keys) == Type(OnKeyDown(b, k), keys)
  {
    assert ([k] + keys)[1..] == keys;
  }

  /** In an active box a digit's key appends that digit. */
  lemma DigitKey(b: InputBox, d: char)
    requires b.active && IsDigit(d)
    ensures OnKeyDown(b, KeyOf(d)) == b.(text := b.text + [d])
  {
  }

  /** Typing a number into an empty active box and pressing RETURN enters that
      number and empties the box. */
  lemma TypeThenReturn(b: InputBox, digits: string)
    requires b.active && b.text == [] && AllDigits(digits)
    ensures Type(b, KeysOf(digits) + [ReturnKey]) == b.(text := [], enteredText := Some(digits))
  {
    TypeSplit(b, KeysOf(digits), [ReturnKey]);
    TypingDigitsAppends(b, digits);
    assert [] + digits == digits;
  }

  lemma {:induction false} TypeSplit(b: InputBox, first: seq<int>, second: seq<int>)
    ensures Type(b, first + second) == Type(Type(b, first), second)
    decreases |first|
  {
    if |first| > 0 {
      assert (first + second)[1..] == first[1..] + second;
      TypeSplit(OnKeyDown(b, first[0]), first[1..], second);
    } else {
      assert first + second == second;
    }
  }

  /** BACKSPACE undoes a digit key. */
  lemma BackspaceUndoesDigit(b: InputBox, key: int)
    requires b.active && DigitZeroKey <= key <= DigitNineKey
    ensures OnKeyDown(OnKeyDown(b, key), BackspaceKey) == b
  {
    var t := OnKeyDown(b, key).text;
    assert t[..|t| - 1] == b.text;
  }

  /** BACKSPACE on an empty box leaves it empty. */
  lemma BackspaceOnEmpty(b: InputBox)
    requires b.text == []
    ensures OnKeyDown(b, BackspaceKey) == b
  {
  }
}

=== FILE: values.dfy ===
/** The Python values the save/load functions exchange: dicts keyed by
    strings holding numbers, booleans, strings and lists, plus Python's
    list indexing with negative positions. */
module PyValues {
  import opened Wrappers

  datatype Json =
    | JNone
    | JBool(b: bool)
    | JInt(i: int)
    | JReal(r: real)
    | JStr(s: string)
    | JList(items: seq<Json>)
    | JDict(fields: map<string, Json>)

  /** d[key]: a KeyError when the key is missing, a TypeError when d is not a dict. */
  function Get(d: Json, key: string): (r: Result<Json>)
    ensures r.Success? <==> d.JDict? && key in d.fields
    ensures r.Failure? ==> r.error == if d.JDict? then KeyError else TypeError
  {
    if !d.JDict? then Failure(TypeError)
    else if key !in d.fields then Failure(KeyError)
    else Success(d.fields[key])
  }

  /** Reading back a key just stored. */
  lemma GetStored(fields: map<string, Json>, key: string, v: Json)
    ensures Get(JDict(fields[key := v]), key) == Success(v)
  {
  }

  function AsInt(j: Json): Result<int> {
    if j.JInt? then Success(j.i) else Failure(TypeError)
  }

  function AsBool(j: Json): Result<bool> {
    if j.JBool? then Success(j.b) else Failure(TypeError)
  }

  function AsReal(j: Json): Result<real> {
    if j.JReal? then Success(j.r) else Failure(TypeError)
  }

  function AsList(j: Json): Result<seq<Json>> {
    if j.JList? then Success(j.items) else Failure(TypeError)
  }

  /** The position Python's `xs[i]` reads in a list of length n: negative
      positions count from the end, anything else outside the list is an
      IndexError (None here). */
  function PyIndex(n: nat, i: int): (r: Option<nat>)
    ensures r.Some? <==> -(n as int) <= i < n
    ensures r.Some? ==> r.value < n && (r.value - i) % n == 0
  {
    if 0 <= i < n then Some(i)
    else if -(n as int) <= i < 0 then Some(i + n)
    else None
  }

  /** `{'type': kind, 'state': state}`, the envelope every save function returns. */
  function Wrap(kind: string, state: Json): (r: Json)
    ensures r.JDict? && r.fields.Keys == {"type", "state"}
  {
    JDict(map["type" := JStr(kind), "state" := state])
  }

  /** `assert(wrapper['type'] == kind); save = wrapper['state']`. */
  function Unwrap(wrapper: Json, kind: string): (r: Result<Json>)
    ensures r.Success? <==> Get(wrapper, "type") == Success(JStr(kind)) && Get(wrapper, "state").Success?
    ensures Get(wrapper, "type").Success? && Get(wrapper, "type").value != JStr(kind) ==> r == Failure(AssertionError)
  {
    var t :- Get(wrapper, "type");
    if t != JStr(kind) then Failure(AssertionError)
    else Get(wrapper, "state")
  }

  /** Unwrapping an envelope of the same kind gives back its state; any other
      kind fails the assertion. */
  lemma UnwrapWrap(kind: string, other: string, state: Json)
    ensures Unwrap(Wrap(kind, state), kind) == Success(state)
    ensures other != kind ==> Unwrap(Wrap(kind, state), other) == Failure(AssertionError)
  {
    assert Wrap(kind, state).fields["type"] == JStr(kind);
  }

  // ---------------------------------------------------------------------------
  // str() of a natural number

  function DigitChar(d: nat): (c: char)
    requires d < 10
    ensures '0' <= c <= '9' && c as int - '0' as int == d
  {
    (d + '0' as int) as char
  }

  /** str(n) for n >= 0: decimal digits, most significant first, no leading zero. */
  function NatToString(n: nat): (s: string)
    ensures |s| >= 1
    ensures forall i :: 0 <= i < |s| ==> '0' <= s[i] <= '9'
    ensures s[0] == '0' ==> n == 0
    decreases n
  {
    if n < 10 then [DigitChar(n)] else NatToString(n / 10) + [DigitChar(n % 10)]
  }

  /** The number a string of decimal digits denotes. */
  function DecimalValue(s: string): nat
    requires forall i :: 0 <= i < |s| ==> '0' <= s[i] <= '9'
  {
    if |s| == 0 then 0 else 10 * DecimalValue(s[..|s| - 1]) + (s[|s| - 1] as int - '0' as int)
  }

  /** str(n) denotes n, so different numbers print differently. */
  lemma {:induction false} NatToStringValue(n: nat)
    ensures DecimalValue(NatToString(n)) == n
    decreases n
  {
    if n >= 10 {
      NatToStringValue(n / 10);
      var s := NatToString(n);
      assert s[..|s| - 1] == NatToString(n / 10);
    }
  }

  lemma NatToStringInjective(m: nat, n: nat)
    requires NatToString(m) == NatToString(n)
    ensures m == n
  {
    NatToStringValue(m);
    NatToStringValue(n);
  }
}

=== FILE: wire.dfy ===
/** The binary frames exchanged with the Lilith server (lilith_client.py).
    Frames are packed with Python's `struct` module in network order ('!'):
    big-endian, standard sizes, no padding. Sending over the websocket is not
    modelled; each encoder returns the bytes it would send. */
module LilithWire {
  import opened Wrappers
  import Joystick

  type Byte = x: int | 0 <= x < 256

  function Pow256(w: nat): (p: nat)
    ensures p >= 1
  {
    if w == 0 then 1 else 256 * Pow256(w - 1)
  }

  const TwoTo16: nat := 0x1_0000
  const TwoTo31: nat := 0x8000_0000
  const TwoTo32: nat := 0x1_0000_0000

  lemma Pow256Values()
    ensures Pow256(2) == TwoTo16 && Pow256(4) == TwoTo32
  {
    assert Pow256(1) == 256;
    assert Pow256(3) == 256 * 256 * 256;
  }

  // ---------------------------------------------------------------------------
  // Big-endian unsigned integers

  function EncodeBE(x: nat, width: nat): (bs: seq<Byte>)
    requires x < Pow256(width)
    ensures |bs| == width
  {
    if width == 0 then []
    else EncodeBE(x / 256, width - 1) + [x % 256]
  }

  function DecodeBE(bs: seq<Byte>): (x: nat)
    ensures x < Pow256(|bs|)
  {
    if |bs| == 0 then 0
    else DecodeBE(bs[..|bs| - 1]) * 256 + bs[|bs| - 1]
  }

  lemma {:induction false} DecodeEncode(x: nat, width: nat)
    requires x < Pow256(width)
    ensures DecodeBE(EncodeBE(x, width)) == x
  {
    if width > 0 {
      var bs := EncodeBE(x, width);
      assert bs[..width - 1] == EncodeBE(x / 256, width - 1);
      DecodeEncode(x / 256, width - 1);
    }
  }

  lemma {:induction false} EncodeDecode(bs: seq<Byte>)
    ensures EncodeBE(DecodeBE(bs), |bs|) == bs
  {
    if |bs| > 0 {
      var front := bs[..|bs| - 1];
      var x := DecodeBE(bs);
      assert x / 256 == DecodeBE(front) && x % 256 == bs[|bs| - 1];
      EncodeDecode(front);
    }
  }

  // ---------------------------------------------------------------------------
  // A model of struct.pack / struct.unpack for the codes the client uses

  /** 'H' (uint16), 'I' and 'L' (uint32), 'i' and 'l' (int32), 'Ns' (N bytes). */
  datatype Code = H | U32 | S32 | Chars(n: nat)

  datatype Value = Int(i: int) | Bytes(b: seq<Byte>)

  function Size(c: Code): nat {
    match c
    case H => 2
    case U32 => 4
    case S32 => 4
    case Chars(n) => n
  }

  function CalcSize(format: seq<Code>): nat {
    if |format| == 0 then 0 else Size(format[0]) + CalcSize(format[1..])
  }

  /** struct.pack raises struct.error for an integer out of range or a non-bytes string argument. */
  predicate Fits(c: Code, v: Value) {
    match c
    case H => v.Int? && 0 <= v.i < TwoTo16
    case U32 => v.Int? && 0 <= v.i < TwoTo32
    case S32 => v.Int? && -(TwoTo31 as int) <= v.i < TwoTo31
    case Chars(_) => v.Bytes?
  }

  /** An 'Ns' field is truncated or padded with zero bytes to exactly N bytes. */
  function FitBytes(b: seq<Byte>, n: nat): (r: seq<Byte>)
    ensures |r| == n
    ensures forall i :: 0 <= i < n ==> r[i] == if i < |b| then b[i] else 0
  {
    if |b| >= n then b[..n] else b + seq(n - |b|, _ => 0)
  }

  function PackOne(c: Code, v: Value): (bs: seq<Byte>)
    requires Fits(c, v)
    ensures |bs| == Size(c)
  {
    Pow256Values();
    match c
    case H => EncodeBE(v.i, 2)
    case U32 => EncodeBE(v.i, 4)
    case S32 => EncodeBE(if v.i < 0 then v.i + TwoTo32 else v.i, 4)
    case Chars(n) => FitBytes(v.b, n)
  }

  predicate AllFit(format: seq<Code>, values: seq<Value>) {
    |format| == |values| && forall k :: 0 <= k < |format| ==> Fits(format[k], values[k])
  }

  function Pack(format: seq<Code>, values: seq<Value>): (r: Result<seq<Byte>>)
    ensures r.Success? <==> AllFit(format, values)
    ensures r.Failure? ==> r.error == StructError
    ensures r.Success? ==> |r.value| == CalcSize(format)
  {
    if |format| != |values| then Failure(StructError)
    else if |format| == 0 then Success([])
    else if !Fits(format[0], values[0]) then Failure(StructError)
    else
      var rest := Pack(format[1..], values[1..]);
      assert AllFit(format, values) <==> AllFit(format[1..], values[1..]) by {
        if AllFit(format[1..], values[1..]) {
          forall k | 0 <= k < |format| ensures Fits(format[k], values[k]) {
            if k > 0 {
              assert Fits(format[1..][k - 1], values[1..][k - 1]);
            }
          }
        }
      }
      if rest.Failure? then Failure(StructError) else Success(PackOne(format[0], values[0]) + rest.value)
  }

  function UnpackOne(c: Code, bs: seq<Byte>): Value
    requires |bs| == Size(c)
  {
    match c
    case H => Int(DecodeBE(bs))
    case U32 => Int(DecodeBE(bs))
    case S32 => var x := DecodeBE(bs); Int(if x >= TwoTo31 then x - TwoTo32 else x)
    case Chars(_) => Bytes(bs)
  }

  function UnpackFields(format: seq<Code>, bs: seq<Byte>): (vs: seq<Value>)
    requires |bs| == CalcSize(format)
    ensures |vs| == |format|
  {
    if |format| == 0 then []
    else
      var n := Size(format[0]);
      [UnpackOne(format[0], bs[..n])] + UnpackFields(format[1..], bs[n..])
  }

  /** struct.unpack raises struct.error unless the buffer is exactly the format's size. */
  function Unpack(format: seq<Code>, bs: seq<Byte>): (r: Result<seq<Value>>)
    ensures r.Success? <==> |bs| == CalcSize(format)
    ensures r.Failure? ==> r.error == StructError
    ensures r.Success? ==> |r.value| == |format|
  {
    if |bs| != CalcSize(format) then Failure(StructError) else Success(UnpackFields(format, bs))
  }

  /** What unpacking gives back for a packed value: integers unchanged, strings fitted to their width. */
  function Normal(c: Code, v: Value): Value {
    match c
    case Chars(n) => if v.Bytes? then Bytes(FitBytes(v.b, n)) else v
    case _ => v
  }

  lemma UnpackPackOne(c: Code, v: Value)
    requires Fits(c, v)
    ensures UnpackOne(c, PackOne(c, v)) == Normal(c, v)
  {
    Pow256Values();
    match c
    case H => DecodeEncode(v.i, 2);
    case U32 => DecodeEncode(v.i, 4);
    case S32 => DecodeEncode(if v.i < 0 then v.i + TwoTo32 else v.i, 4);
    case Chars(n) =>
  }

  /** What unpacking gives back for packed values, field by field. */
  function Normals(format: seq<Code>, values: seq<Value>): (r: seq<Value>)
    requires |format| == |values|
    ensures |r| == |format| && forall k :: 0 <= k < |format| ==> r[k] == Normal(format[k], values[k])
  {
    seq(|format|, k requires 0 <= k < |format| => Normal(format[k], values[k]))
  }

  /** Unpacking a packed buffer with the same format returns the packed values. */
  lemma {:induction false} UnpackPack(format: seq<Code>, values: seq<Value>)
    requires AllFit(format, values)
    ensures Unpack(format, Pack(format, values).value) == Success(Normals(format, values))
  {
    var bs := Pack(format, values).value;
    if |format| == 0 {
      assert Normals(format, values) == [];
    } else {
      var n := Size(format[0]);
      assert AllFit(format[1..], values[1..]) by {
        forall k | 0 <= k < |format| - 1 ensures Fits(format[1..][k], values[1..][k]) {
          assert Fits(format[k + 1], values[k + 1]);
        }
      }
      var rest := Pack(format[1..], values[1..]).value;
      assert bs == PackOne(format[0], values[0]) + rest;
      assert bs[..n] == PackOne(format[0], values[0]) && bs[n..] == rest;
      UnpackPackOne(format[0], values[0]);
      UnpackPack(format[1..], values[1..]);
      assert UnpackFields(format, bs) == [UnpackOne(format[0], bs[..n])] + UnpackFields(format[1..], bs[n..]);
      NormalsCons(format, values);
    }
  }

  lemma NormalsCons(format: seq<Code>, values: seq<Value>)
    requires 0 < |format| == |values|
    ensures Normals(format, values) == [Normal(format[0], values[0])] + Normals(format[1..], values[1..])
  {
    var r := [Normal(format[0], values[0])] + Normals(format[1..], values[1..]);
    assert forall k :: 0 <= k < |format| ==> r[k] == Normal(format[k], values[k]) by {
      forall k | 0 <= k < |format| ensures r[k] == Normal(format[k], values[k]) {
        if k > 0 {
          assert r[k] == Normals(format[1..], values[1..])[k - 1];
        }
      }
    }
  }

  /** Unpacked integer fields are integers in their code's range. */
  lemma {:induction false} UnpackFieldsRange(format: seq<Code>, bs: seq<Byte>)
    requires |bs| == CalcSize(format)
    ensures forall k :: 0 <= k < |format| && !format[k].Chars? ==> UnpackFields(format, bs)[k].Int?
    ensures forall k :: 0 <= k < |format| && format[k] == H ==> 0 <= UnpackFields(format, bs)[k].i < TwoTo16
    ensures forall k :: 0 <= k < |format| && format[k] == U32 ==> 0 <= UnpackFields(format, bs)[k].i < TwoTo32
  {
    if |format| > 0 {
      Pow256Values();
      var n := Size(format[0]);
      UnpackFieldsRange(format[1..], bs[n..]);
      var vs := UnpackFields(format, bs);
      assert vs == [UnpackOne(format[0], bs[..n])] + UnpackFields(format[1..], bs[n..]);
      forall k | 0 < k < |format| ensures vs[k] == UnpackFields(format[1..], bs[n..])[k - 1] && format[k] == format[1..][k - 1] {
      }
    }
  }

  lemma Decode2(a: Byte, b: Byte)
    ensures DecodeBE([a, b]) == 256 * (a as int) + b as int
  {
    assert [a, b][..1] == [a];
    assert [a][..0] == [];
  }

  /** Python slicing m[lo:hi] clamps both bounds to the sequence. */
  function Slice<T>(m: seq<T>, lo: nat, hi: nat): (r: seq<T>)
    ensures |r| == if hi <= lo || lo >= |m| then 0 else (if hi <= |m| then hi else |m|) - lo
    ensures forall i :: 0 <= i < |r| ==> r[i] == m[lo + i]
  {
    var h := if hi <= |m| then hi else |m|;
    if lo >= h then [] else m[lo..h]
  }

  // ---------------------------------------------------------------------------
  // Frames the client sends

  const PingCode: nat := 100
  const MetadataCode: nat := 1
  const SubscribeCode: nat := 102
  const RequestCode: nat := 12
  const PumpCode: nat := 29
  /** The device index sent with every data request (the INDEX constant). */
  const DeviceIndex: nat := 2

  /** samples_per_packet = int(10**5 / 60) + 1; `int` of a positive quotient is its floor. */
  const SamplesPerPacket: nat := 100000 / 60 + 1

  lemma SamplesPerPacketValue()
    ensures SamplesPerPacket == 1667
  {
  }

  /** ping: the single uint16 100. */
  function Ping(): (r: Result<seq<Byte>>)
    ensures r == Success([0x00, 0x64])
  {
    Pow256Values();
    assert [H][1..] == [] && [Int(PingCode)][1..] == [];
    assert Pack([H][1..], [Int(PingCode)][1..]) == Success([]);
    assert Fits(H, Int(PingCode));
    assert PackOne(H, Int(PingCode)) == [0, 100] by {
      assert EncodeBE(0, 1) == EncodeBE(0, 0) + [0];
      assert EncodeBE(100, 2) == EncodeBE(0, 1) + [100];
    }
    var r := Pack([H], [Int(PingCode)]);
    assert r == Success(PackOne(H, Int(PingCode)) + []);
    assert r.value == [0, 100];
    r
  }

  predicate IsAscii(key: string) {
    forall i :: 0 <= i < |key| ==> key[i] as int < 128
  }

  function AsciiBytes(key: string): (bs: seq<Byte>)
    requires IsAscii(key)
    ensures |bs| == |key|
  {
    seq(|key|, i requires 0 <= i < |key| => key[i] as int)
  }

  /** The formats and argument lists get_metadata packs: two uint16 words, then one 's' per character. */
  function MetadataFormat(n: nat): seq<Code> {
    [H, H] + seq(n, _ => Chars(1))
  }

  function MetadataValues(key: string): seq<Value>
    requires IsAscii(key)
  {
    [Int(MetadataCode), Int(0)] + seq(|key|, i requires 0 <= i < |key| => Bytes([key[i] as int]))
  }

  /** get_metadata: uint16 1, uint16 0, then the key one byte per character.
      Encoding a non-ASCII character raises before anything is packed. */
  function GetMetadata(key: string): (r: Result<seq<Byte>>)
    ensures r.Success? <==> IsAscii(key)
    ensures r.Failure? ==> r.error == UnicodeEncodeError
    ensures r.Success? ==>
      && |r.value| == 4 + |key|
      && r.value[..4] == [0, 1, 0, 0]
      && forall i :: 0 <= i < |key| ==> r.value[4 + i] == key[i] as int
  {
    if !IsAscii(key) then Failure(UnicodeEncodeError)
    else
      MetadataBytes(key);
      Pack(MetadataFormat(|key|), MetadataValues(key))
  }

  lemma MetadataBytes(key: string)
    requires IsAscii(key)
    ensures AllFit(MetadataFormat(|key|), MetadataValues(key))
    ensures Pack(MetadataFormat(|key|), MetadataValues(key)).value == [0, 1, 0, 0] + AsciiBytes(key)
  {
    Pow256Values();
    var format, values := MetadataFormat(|key|), MetadataValues(key);
    OneByteFields(key, format[2..], values[2..]);
    assert format[1..][1..] == format[2..] && values[1..][1..] == values[2..];
    assert format[..2] == [H, H];
    assert AllFit(format, values) by {
      forall k | 0 <= k < |format| ensures Fits(format[k], values[k]) {
        if k >= 2 {
          assert Fits(format[2..][k - 2], values[2..][k - 2]);
        }
      }
    }
    assert AllFit(format[1..], values[1..]) by {
      forall k | 0 <= k < |format| - 1 ensures Fits(format[1..][k], values[1..][k]) {
        assert Fits(format[k + 1], values[k + 1]);
      }
    }
    var rest := Pack(format[2..], values[2..]).value;
    assert Pack(format[1..], values[1..]).value == EncodeBE(0, 2) + rest;
    assert Pack(format, values).value == EncodeBE(1, 2) + (EncodeBE(0, 2) + rest);
    assert EncodeBE(1, 2) == [0, 1] by {
      assert EncodeBE(0, 1) == EncodeBE(0, 0) + [0];
    }
    assert EncodeBE(0, 2) == [0, 0] by {
      assert EncodeBE(0, 1) == EncodeBE(0, 0) + [0];
    }
    assert [0, 1] + ([0, 0] + rest) == [0, 1, 0, 0] + rest;
  }

  lemma {:induction false} OneByteFields(key: string, format: seq<Code>, values: seq<Value>)
    requires IsAscii(key)
    requires format == seq(|key|, _ => Chars(1))
    requires values == seq(|key|, i requires 0 <= i < |key| => Bytes([key[i] as int]))
    ensures AllFit(format, values) && Pack(format, values).value == AsciiBytes(key)
  {
    if |key| > 0 {
      var key' := key[1..];
      assert format[1..] == seq(|key'|, _ => Chars(1));
      assert values[1..] == seq(|key'|, i requires 0 <= i < |key'| => Bytes([key'[i] as int]));
      OneByteFields(key', format[1..], values[1..]);
      assert AsciiBytes(key) == [key[0] as int] + AsciiBytes(key');
    }
  }

  /** The key can be read back from a metadata frame. */
  lemma MetadataKeyRoundTrip(key: string)
    requires IsAscii(key)
    ensures GetMetadata(key).Success?
    ensures seq(|key|, i requires 0 <= i < |key| => GetMetadata(key).value[4 + i] as char) == key
  {
  }

  const SubscribeFormat: seq<Code> := [H, U32, Chars(6), U32, U32, U32]

  /** subscribe_data: uint16 102, uint32 id, the 6-byte mac, then uint32 file id, stride and filter. */
  function SubscribeData(id: int, mac: seq<Byte>, fileId: int, stride: int, filter: int): (r: Result<seq<Byte>>)
    ensures r.Success? <==> (0 <= id < TwoTo32 && 0 <= fileId < TwoTo32 && 0 <= stride < TwoTo32 && 0 <= filter < TwoTo32)
    ensures r.Success? ==>
      && |r.value| == 24
      && Unpack(SubscribeFormat, r.value)
           == Success([Int(SubscribeCode), Int(id), Bytes(FitBytes(mac, 6)), Int(fileId), Int(stride), Int(filter)])
  {
    var values := [Int(SubscribeCode), Int(id), Bytes(mac), Int(fileId), Int(stride), Int(filter)];
    var frame :- Pack(SubscribeFormat, values);
    UnpackPack(SubscribeFormat, values);
    assert Normals(SubscribeFormat, values)
      == [Int(SubscribeCode), Int(id), Bytes(FitBytes(mac, 6)), Int(fileId), Int(stride), Int(filter)];
    Success(frame)
  }

  /** The MAC address set_game_subscription subscribes to. */
  const BoardMac: seq<Byte> := [0x04, 0xe9, 0xe5, 0x0c, 0xc5, 0xb9]

  /** A data request frame and the sample index the client moves on to. */
  datatype Request = Request(frame: seq<Byte>, nextIndex: int)

  const RequestFormat: seq<Code> := [H, H, H, S32, U32, U32, U32]

  /** The start index a request frame asks for: its high and low words joined. */
  function RequestedStart(frame: seq<Byte>): (r: Option<nat>)
  {
    var u := Unpack(RequestFormat, frame);
    if u.Success? && u.value[4].Int? && u.value[5].Int? && u.value[4].i >= 0 && u.value[5].i >= 0
    then Some(u.value[4].i * TwoTo32 + u.value[5].i) else None
  }

  /** A request's fields fit exactly when each word is in its range. */
  lemma RequestFits(values: seq<Value>)
    requires |values| == 7 && forall k :: 0 <= k < 7 ==> values[k].Int?
    ensures AllFit(RequestFormat, values) <==>
      && 0 <= values[0].i < TwoTo16 && 0 <= values[1].i < TwoTo16 && 0 <= values[2].i < TwoTo16
      && -(TwoTo31 as int) <= values[3].i < TwoTo31
      && 0 <= values[4].i < TwoTo32 && 0 <= values[5].i < TwoTo32 && 0 <= values[6].i < TwoTo32
  {
    assert RequestFormat[0] == H && RequestFormat[1] == H && RequestFormat[2] == H && RequestFormat[3] == S32;
    assert RequestFormat[4] == U32 && RequestFormat[5] == U32 && RequestFormat[6] == U32;
  }

  /** request_data as written: the start is sent as high word 0 and low word
      `sample_index`, so packing fails once the index reaches 2^32; on success
      the index advances by one packet. */
  function RequestData(sampleIndex: int, channel: int, sampleStride: int): (r: Result<Request>)
    ensures r.Success? <==> 0 <= sampleIndex < TwoTo32 && 0 <= channel < TwoTo16 && 0 <= sampleStride < TwoTo32
    ensures r.Success? ==> |r.value.frame| == 22 && r.value.nextIndex == sampleIndex + 1667
    ensures r.Success? ==> Unpack(RequestFormat, r.value.frame) == Success(
      [Int(RequestCode), Int(DeviceIndex), Int(channel), Int(SamplesPerPacket), Int(0), Int(sampleIndex), Int(sampleStride)])
    ensures r.Success? ==> RequestedStart(r.value.frame) == Some(sampleIndex)
  {
    var values := [Int(RequestCode), Int(DeviceIndex), Int(channel), Int(SamplesPerPacket), Int(0), Int(sampleIndex), Int(sampleStride)];
    RequestFits(values);
    var frame :- Pack(RequestFormat, values);
    UnpackPack(RequestFormat, values);
    assert Normals(RequestFormat, values) == values;
    Success(Request(frame, sampleIndex + SamplesPerPacket))
  }

  /** The evidently intended request: the 64-bit sample index split into the
      high and low words that SampleData joins back together. */
  function RequestDataSplit(sampleIndex: int, channel: int, sampleStride: int): (r: Result<Request>)
    ensures r.Success? <==> 0 <= sampleIndex < TwoTo32 * TwoTo32 && 0 <= channel < TwoTo16 && 0 <= sampleStride < TwoTo32
    ensures r.Success? ==> |r.value.frame| == 22 && r.value.nextIndex == sampleIndex + 1667
    ensures r.Success? ==> RequestedStart(r.value.frame) == Some(sampleIndex)
  {
    if sampleIndex < 0 || sampleIndex >= TwoTo32 * TwoTo32 then Failure(StructError)
    else
      var high, low := sampleIndex / TwoTo32, sampleIndex % TwoTo32;
      var values := [Int(RequestCode), Int(DeviceIndex), Int(channel), Int(SamplesPerPacket), Int(high), Int(low), Int(sampleStride)];
      RequestFits(values);
      var frame :- Pack(RequestFormat, values);
      UnpackPack(RequestFormat, values);
      assert Normals(RequestFormat, values) == values;
      Success(Request(frame, sampleIndex + SamplesPerPacket))
  }

  /** As written, a data request fails once the sample index reaches 2^32,
      although the intended split request carries that index. */
  lemma RequestOverflow()
    ensures RequestData(TwoTo32, 0, 1).Failure?
    ensures RequestDataSplit(TwoTo32, 0, 1).Success?
    ensures RequestedStart(RequestDataSplit(TwoTo32, 0, 1).value.frame) == Some(TwoTo32)
  {
  }

  /** Below 2^32 the two requests agree byte for byte. */
  lemma RequestAgreesBelowOverflow(sampleIndex: int, channel: int, sampleStride: int)
    requires 0 <= sampleIndex < TwoTo32
    ensures RequestData(sampleIndex, channel, sampleStride) == RequestDataSplit(sampleIndex, channel, sampleStride)
  {
  }

  /** move_pump: uint16 29, steps as a two's-complement int32, delay as a uint32. */
  function MovePump(steps: int, delay: int): (r: Result<seq<Byte>>)
    ensures r.Success? <==> -(TwoTo31 as int) <= steps < TwoTo31 && 0 <= delay < TwoTo32
    ensures r.Success? ==>
      && |r.value| == 10
      && Unpack([H, S32, U32], r.value) == Success([Int(PumpCode), Int(steps), Int(delay)])
  {
    var values := [Int(PumpCode), Int(steps), Int(delay)];
    var frame :- Pack([H, S32, U32], values);
    UnpackPack([H, S32, U32], values);
    assert Normals([H, S32, U32], values) == values;
    Success(frame)
  }

  // ---------------------------------------------------------------------------
  // Frames the client receives

  /** get_typecode: the big-endian uint16 at the start of the message. */
  function GetTypecode(message: seq<Byte>): (r: Result<nat>)
    ensures r.Success? <==> |message| >= 2
    ensures r.Failure? ==> r.error == StructError
    ensures r.Success? ==> r.value == 256 * (message[0] as int) + message[1] as int
  {
    var u :- Unpack([H], Slice(message, 0, 2));
    assert Slice(message, 0, 2) == [message[0], message[1]];
    Decode2(message[0], message[1]);
    Success(DecodeBE([message[0], message[1]]))
  }

  /** The header of a sample packet (SampleData, without the sample payload). */
  datatype SampleData = SampleData(
    websockType: nat, channel: nat, stride: nat,
    startHigh: nat, startLow: nat,
    sampleCount: nat, start: nat, end: nat)

  const HeaderFormat: seq<Code> := [H, H, U32, U32, U32]

  /** SampleData(message): the 16-byte header, and the count of two-byte samples after it. */
  function DecodeSampleData(message: seq<Byte>): (r: Result<SampleData>)
    ensures r.Success? <==> |message| >= 16
    ensures r.Success? ==>
      && r.value.sampleCount == (|message| - 16) / 2
      && r.value.startLow < TwoTo32
      && r.value.start == r.value.startHigh * TwoTo32 + r.value.startLow
      && r.value.end == r.value.start + r.value.stride * r.value.sampleCount
  {
    var u :- Unpack(HeaderFormat, Slice(message, 0, 16));
    UnpackFieldsRange(HeaderFormat, Slice(message, 0, 16));
    assert forall k :: 0 <= k < 5 ==> u[k].Int? && u[k].i >= 0 by {
      assert HeaderFormat[0] == H && HeaderFormat[1] == H;
      assert HeaderFormat[2] == U32 && HeaderFormat[3] == U32 && HeaderFormat[4] == U32;
    }
    assert u[4].i < TwoTo32 by {
      assert HeaderFormat[4] == U32;
    }
    var count := (|message| - 16) / 2;
    var high, low := u[3].i, u[4].i;
    var start := high * TwoTo32 + low;
    Success(SampleData(u[0].i, u[1].i, u[2].i, high, low, count, start, start + u[2].i * count))
  }

  /** A server-side encoding of a sample packet: the header words, then the payload. */
  function EncodeSamplePacket(websockType: nat, channel: nat, stride: nat, start: nat, payload: seq<Byte>): (r: Result<seq<Byte>>)
    ensures r.Success? <==> websockType < TwoTo16 && channel < TwoTo16 && stride < TwoTo32 && start < TwoTo32 * TwoTo32
    ensures r.Success? ==> |r.value| == 16 + |payload|
  {
    if start >= TwoTo32 * TwoTo32 then Failure(StructError)
    else
      var header :- Pack(HeaderFormat, HeaderValues(websockType, channel, stride, start));
      Success(header + payload)
  }

  function HeaderValues(websockType: nat, channel: nat, stride: nat, start: nat): seq<Value> {
    [Int(websockType), Int(channel), Int(stride), Int(start / TwoTo32), Int(start % TwoTo32)]
  }

  /** Decoding an encoded sample packet recovers its header and counts the payload's samples. */
  lemma SamplePacketRoundTrip(websockType: nat, channel: nat, stride: nat, start: nat, payload: seq<Byte>)
    requires EncodeSamplePacket(websockType, channel, stride, start, payload).Success?
    ensures var d := DecodeSampleData(EncodeSamplePacket(websockType, channel, stride, start, payload).value);
      && d.Success?
      && d.value.websockType == websockType && d.value.channel == channel && d.value.stride == stride
      && d.value.start == start
      && d.value.sampleCount == |payload| / 2
      && d.value.end == start + stride * (|payload| / 2)
  {
    var values := HeaderValues(websockType, channel, stride, start);
    var m := EncodeSamplePacket(websockType, channel, stride, start, payload).value;
    var header := Pack(HeaderFormat, values).value;
    assert m == header + payload;
    assert Slice(m, 0, 16) == header;
    UnpackPack(HeaderFormat, values);
    assert Normals(HeaderFormat, values) == values;
  }

  /** What process_message hands to the game loop. */
  datatype Received =
    | Nothing
    | Samples(data: SampleData)
    | Metadata(json: seq<Byte>)
    | JoystickState(pressed: seq<string>)

  const UpdateCode: nat := 0
  const JsonCode: nat := 1
  const DeviceClosedCode: nat := 104
  const NewJoystickCode: nat := 107

  /** process_message: sample updates of 3000 bytes or more are decoded, JSON
      metadata is passed on undecoded, joystick updates go through the
      joystick decoder, and every other code (104 included) yields nothing. */
  function ProcessMessage(code: nat, message: seq<Byte>): (r: Result<Received>)
    ensures code == UpdateCode && |message| < 3000 ==> r == Success(Nothing)
    ensures code == UpdateCode && |message| >= 3000 ==>
      && r.Success? && r.value.Samples?
      && r.value.data.sampleCount == (|message| - 16) / 2
      && DecodeSampleData(message).Success? && r == Success(Samples(DecodeSampleData(message).value))
    ensures code == JsonCode ==>
      r == Success(Metadata(if |message| >= 2 then message[2..] else []))
    ensures code == NewJoystickCode && |message| < 4 ==> r == Failure(StructError)
    ensures code == NewJoystickCode && |message| >= 4 ==>
      r == Success(JoystickState(Joystick.ProcessJoystickData(256 * (message[2] as int) + message[3] as int).value))
    ensures code !in {UpdateCode, JsonCode, NewJoystickCode} ==> r == Success(Nothing)
  {
    if code == UpdateCode then
      if |message| < 3000 then Success(Nothing)
      else
        Success(Samples(DecodeSampleData(message).value))
    else if code == JsonCode then
      assert Slice(message, 2, |message|) == if |message| >= 2 then message[2..] else [];
      Success(Metadata(Slice(message, 2, |message|)))
    else if code == DeviceClosedCode then Success(Nothing)
    else if code == NewJoystickCode then
      var u :- Unpack([H], Slice(message, 2, 4));
      assert Slice(message, 2, 4) == [message[2], message[3]];
      Decode2(message[2], message[3]);
      var state := DecodeBE([message[2], message[3]]);
      Pow256Values();
      Success(JoystickState(Joystick.ProcessJoystickData(state).value))
    else Success(Nothing)
  }

  /** on_message: read the typecode, then dispatch. */
  function OnMessage(message: seq<Byte>): (r: Result<Received>)
    ensures |message| < 2 ==> r == Failure(StructError)
    ensures |message| >= 2 ==> r == ProcessMessage(256 * (message[0] as int) + message[1] as int, message)
  {
    var code :- GetTypecode(message);
    ProcessMessage(code, message)
  }

  /** A JSON frame, typecode 1 followed by any payload, hands the payload on unchanged. */
  lemma MetadataFrameRoundTrip(payload: seq<Byte>)
    ensures OnMessage([0, 1] + payload) == Success(Metadata(payload))
  {
    var m: seq<Byte> := [0, 1] + payload;
    assert m[2..] == payload;
  }

  /** The ping frame reads back as typecode 100, which the client ignores on receipt. */
  lemma PingFrameRoundTrip()
    ensures GetTypecode(Ping().value) == Success(PingCode)
    ensures OnMessage(Ping().value) == Success(Nothing)
  {
  }

  /** A joystick frame built from any 16-bit state is read back as that state's pressed buttons. */
  lemma JoystickFrameRoundTrip(state: nat)
    requires state < TwoTo16
    ensures OnMessage([0, 107] + EncodeBE(state, 2)) == Success(JoystickState(Joystick.ProcessJoystickData(state).value))
  {
    Pow256Values();
    var m := [0, 107] + EncodeBE(state, 2);
    DecodeEncode(state, 2);
    var e := EncodeBE(state, 2);
    Decode2(e[0], e[1]);
    assert e == [e[0], e[1]];
    assert 256 * (m[2] as int) + m[3] as int == state;
  }
}

=== FILE: worldmap.dfy ===
/** The background grid of the logarithmic world map (world_map.py,
    `calculate_grid_with_map_coords`): square cells of side radius // 10 in map
    coordinates, drawn as every vertical segment followed by every horizontal one. */
module WorldGrid {
  import opened Wrappers
  import opened Arith

  /** Python's `range(start, stop, step)` for a non-zero step. */
  function Range(start: int, stop: int, step: int): (r: seq<int>)
    requires step != 0
    ensures forall i :: 0 <= i < |r| ==> r[i] == start + i * step
    ensures forall i :: 0 <= i < |r| ==> if step > 0 then r[i] < stop else r[i] > stop
    decreases if step > 0 then stop - start else start - stop
  {
    if (step > 0 && start < stop) || (step < 0 && start > stop) then
      var rest := Range(start + step, stop, step);
      assert forall i :: 1 <= i < |rest| + 1 ==> start + step + (i - 1) * step == start + i * step;
      [start] + rest
    else []
  }

  /** The first value a range leaves out lies past the stop: for a positive
      step, start + |range|·step >= stop. */
  lemma {:induction false} RangeEnds(start: int, stop: int, step: int)
    requires step > 0
    ensures start + |Range(start, stop, step)| * step >= stop
    decreases stop - start
  {
    if start < stop {
      RangeEnds(start + step, stop, step);
      var n := |Range(start + step, stop, step)|;
      assert (n + 1) * step == n * step + step;
    }
  }

  /** The length of a range with a positive step is Python's
      max(0, ceil((stop - start) / step)). */
  lemma RangeLength(start: int, stop: int, step: int)
    requires step > 0 && start < stop
    ensures |Range(start, stop, step)| == (stop - start + step - 1) / step
  {
    var r := Range(start, stop, step);
    var k := |r|;
    RangeEnds(start, stop, step);
    assert k >= 1;
    assert r[k - 1] == start + (k - 1) * step < stop;
    assert (k - 1) * step == k * step - step;
    DivUnique(stop - start + step - 1, step, k, stop - start + step - 1 - k * step);
  }

  datatype Point = Point(x: int, y: int)

  datatype Segment = Segment(start: Point, end: Point)

  /** `((x, y), (x, y + inc))` for a vertical segment, `((x, y), (x + inc, y))` for a horizontal one. */
  function Seg(x: int, y: int, inc: int, vertical: bool): Segment {
    if vertical then Segment(Point(x, y), Point(x, y + inc)) else Segment(Point(x, y), Point(x + inc, y))
  }

  /** The inner loop: one segment per y. */
  function Column(x: int, ys: seq<int>, inc: int, vertical: bool): (r: seq<Segment>)
    ensures |r| == |ys|
    ensures forall j :: 0 <= j < |ys| ==> r[j] == Seg(x, ys[j], inc, vertical)
  {
    if |ys| == 0 then [] else [Seg(x, ys[0], inc, vertical)] + Column(x, ys[1..], inc, vertical)
  }

  /** The outer loop: the columns of every x, one after another. */
  function Columns(xs: seq<int>, ys: seq<int>, inc: int, vertical: bool): (r: seq<Segment>)
    ensures |r| == |xs| * |ys|
  {
    if |xs| == 0 then []
    else
      var rest := Columns(xs[1..], ys, inc, vertical);
      assert |xs| * |ys| == |ys| + (|xs| - 1) * |ys|;
      Column(xs[0], ys, inc, vertical) + rest
  }

  /** Segment number i·|ys| + j of the nested loops belongs to the i-th x and the j-th y. */
  lemma {:induction false} ColumnsAt(xs: seq<int>, ys: seq<int>, inc: int, vertical: bool, i: nat, j: nat)
    requires i < |xs| && j < |ys|
    ensures i * |ys| + j < |xs| * |ys|
    ensures Columns(xs, ys, inc, vertical)[i * |ys| + j] == Seg(xs[i], ys[j], inc, vertical)
    decreases i
  {
    BlockIndexBound(i, j, |xs|, |ys|);
    var cols := Columns(xs, ys, inc, vertical);
    var head := Column(xs[0], ys, inc, vertical);
    var rest := Columns(xs[1..], ys, inc, vertical);
    assert cols == head + rest;
    if i == 0 {
      assert cols[j] == head[j];
    } else {
      var m := (i - 1) * |ys| + j;
      ColumnsAt(xs[1..], ys, inc, vertical, i - 1, j);
      assert m < |rest| && rest[m] == Seg(xs[i], ys[j], inc, vertical);
      assert i * |ys| + j == |ys| + m by {
        NextBlock(i, |ys|, j);
      }
      assert cols[|ys| + m] == rest[m];
    }
  }

  /** Index j of block i lies inside n blocks of width w. */
  lemma BlockIndexBound(i: nat, j: nat, n: nat, w: nat)
    requires i < n && j < w
    ensures i * w + j < n * w
  {
    MulMono(w, i, n - 1);
    assert (n - 1) * w == n * w - w;
  }

  /** Index i·w + j lies one block of w past index (i-1)·w + j. */
  lemma NextBlock(i: nat, w: nat, j: nat)
    requires i > 0
    ensures i * w + j == w + ((i - 1) * w + j)
  {
  }

  /** Every segment of the nested loops is the one for some x and some y. */
  lemma ColumnsCover(xs: seq<int>, ys: seq<int>, inc: int, vertical: bool, n: nat)
    requires n < |xs| * |ys|
    ensures |ys| > 0 && 0 <= n / |ys| < |xs| && 0 <= n % |ys| < |ys|
    ensures Columns(xs, ys, inc, vertical)[n] == Seg(xs[n / |ys|], ys[n % |ys|], inc, vertical)
  {
    var i, j := BlockOf(n, |xs|, |ys|);
    ColumnsAt(xs, ys, inc, vertical, i, j);
  }

  /** Index n of n_blocks blocks of width w is index n mod w of block n div w. */
  lemma BlockOf(n: nat, blocks: nat, w: nat) returns (i: nat, j: nat)
    requires n < blocks * w
    ensures w > 0 && i == n / w && j == n % w && i < blocks && j < w
    ensures n == i * w + j
  {
    i, j := n / w, n % w;
    if i >= blocks {
      MulMono(w, blocks, i);
    }
  }

  /** `increment = self.map_radius // 10`; for a positive divisor Dafny's `/` is Python's `//`. */
  function Increment(radius: int): int {
    radius / 10
  }

  /** `range(-radius, +radius, increment)`, the coordinates both loops run over. */
  function Coords(radius: int): (r: seq<int>)
    requires Increment(radius) != 0
    ensures |r| > 0 && r[0] == -radius
    ensures forall i :: 0 < i < |r| ==> r[i] == r[i - 1] + Increment(radius)
    ensures forall x <- r :: if Increment(radius) > 0 then x < radius else x > radius
  {
    Range(-radius, radius, Increment(radius))
  }

  /** `calculate_grid_with_map_coords`: `range` rejects a zero step, which a
      radius from 0 to 9 gives. */
  function CalculateGrid(radius: int): (r: Result<seq<Segment>>)
    ensures r.Failure? <==> 0 <= radius < 10
    ensures r.Failure? ==> r.error == ValueError
    ensures r.Success? ==> |r.value| == 2 * (|Coords(radius)| * |Coords(radius)|)
  {
    var inc := Increment(radius);
    if inc == 0 then Failure(ValueError)
    else
      var cs := Coords(radius);
      Success(Columns(cs, cs, inc, true) + Columns(cs, cs, inc, false))
  }

  /** Every coordinate is -radius + i·increment, and for a positive radius it
      lies in [-radius, radius). */
  lemma CoordsBounds(radius: int, i: nat)
    requires Increment(radius) != 0 && i < |Coords(radius)|
    ensures Coords(radius)[i] == -radius + i * Increment(radius)
    ensures radius > 0 ==> -radius <= Coords(radius)[i] < radius
  {
    if radius > 0 {
      MulMono(Increment(radius), 0, i);
    }
  }

  /** The grid's segments: for n below k² the vertical one starting at the
      (n div k)-th x and the (n mod k)-th y, and after those the horizontal ones
      in the same order, where k is the number of coordinates. */
  lemma GridSegment(radius: int, n: nat)
    requires CalculateGrid(radius).Success? && n < |CalculateGrid(radius).value|
    ensures var k := |Coords(radius)|;
      var m := if n < k * k then n else n - k * k;
      && k > 0 && m / k < k && m % k < k
      && CalculateGrid(radius).value[n] == Seg(Coords(radius)[m / k], Coords(radius)[m % k], Increment(radius), n < k * k)
  {
    var cs, inc := Coords(radius), Increment(radius);
    var k := |cs|;
    var m := if n < k * k then n else n - k * k;
    ColumnsCover(cs, cs, inc, n < k * k, m);
  }

  /** The coordinates a segment of the grid starts from, by their places in the range. */
  lemma GridSegmentPlaces(radius: int, n: nat) returns (i: nat, j: nat, vertical: bool)
    requires CalculateGrid(radius).Success? && n < |CalculateGrid(radius).value|
    ensures i < |Coords(radius)| && j < |Coords(radius)|
    ensures CalculateGrid(radius).value[n] == Seg(Coords(radius)[i], Coords(radius)[j], Increment(radius), vertical)
  {
    var cs, inc := Coords(radius), Increment(radius);
    var k := |cs|;
    vertical := n < k * k;
    var m := if vertical then n else n - k * k;
    assert CalculateGrid(radius).value[n] == Columns(cs, cs, inc, vertical)[m];
    ColumnsCover(cs, cs, inc, vertical, m);
    i, j := m / k, m % k;
  }

  /** So every segment starts on the grid's coordinates inside [-radius, radius)²
      and runs one increment up or to the right. */
  lemma GridSegmentsInside(radius: int, n: nat)
    requires radius >= 10 && n < |CalculateGrid(radius).value|
    ensures var s := CalculateGrid(radius).value[n];
      && -radius <= s.start.x < radius && -radius <= s.start.y < radius
      && (s.end == Point(s.start.x, s.start.y + Increment(radius)) || s.end == Point(s.start.x + Increment(radius), s.start.y))
  {
    var i, j, vertical := GridSegmentPlaces(radius, n);
    CoordsBounds(radius, i);
    CoordsBounds(radius, j);
  }

  /** The number of coordinates is Python's len(range(-radius, radius, radius // 10)),
      so a radius that is a positive multiple of 10 always gives a 20 by 20 grid of
      cells: 800 segments. */
  lemma GridSize(radius: int)
    requires radius >= 10
    ensures |Coords(radius)| == (2 * radius + Increment(radius) - 1) / Increment(radius)
    ensures radius % 10 == 0 ==> |Coords(radius)| == 20 && |CalculateGrid(radius).value| == 800
  {
    var inc := Increment(radius);
    RangeLength(-radius, radius, inc);
    if radius % 10 == 0 {
      assert radius == 10 * inc;
      DivUnique(2 * radius + inc - 1, inc, 20, inc - 1);
    }
  }

  /** A negative radius still draws a grid: Python's floor division gives a
      negative step and the range then counts down from -radius. */
  lemma NegativeRadius(radius: int)
    requires radius < 0
    ensures Increment(radius) < 0 && CalculateGrid(radius).Success?
    ensures |Coords(radius)| > 0 && Coords(radius)[0] == -radius
    ensures forall c <- Coords(radius) :: radius < c <= -radius
  {
    var cs := Coords(radius);
    forall i | 0 <= i < |cs|
      ensures cs[i] <= -radius
    {
      MulMono(-Increment(radius), 0, i);
    }
  }
}

=== FILE: wrappers.dfy ===
/** Failure-compatible wrappers shared by every module of the model.
    Python exceptions raised by the source (IndexError, KeyError,
    struct.error, AssertionError, NameError) become `Failure` values. */
module Wrappers {

  datatype Option<+T> = None | Some(value: T)

  /** The Python exception a source operation would raise. */
  datatype Error =
    | IndexError
    | KeyError
    | TypeError
    | ValueError
    | StructError
    | AssertionError
    | NameError(name: string)
    | AttributeError(name: string)
    | UnicodeEncodeError
    | ZeroDivisionError

  datatype Result<+R> = Success(value: R) | Failure(error: Error) {
    predicate IsFailure() {
      Failure?
    }

    function PropagateFailure<U>(): Result<U>
      requires Failure?
    {
      Failure(error)
    }

    function Extract(): R
      requires Success?
    {
      value
    }
  }
}
